=== FILE: README.md ===
# XPwner job-dispatch server, modelled in Dafny

XPwner is a WebSocket server. Worker processes ("monitors") and operator dashboards ("panels") log into it with an account token. Workers then pull jobs, lease social-network credentials ("tokens") and report results. The server keeps its state in MySQL tables and pushes notifications to the account's panels.

This project models the server's message handlers. Each handler is one atomic, sequential transition over an in-memory store:

- Every table is a `map` from row id to a record datatype, and the append-only logs are `seq`s.
- Each handler is a pure function `store × request → store × reply`.
- A SQL `WHERE … ORDER BY k LIMIT n` becomes "filter the rows, then take the least element(s)". Ties are broken by the smaller id.
- The clock, freshly minted worker ids and the store's `RAND()` are parameters.
- `JSON.parse` results arrive already parsed, as `Option` values.

The modules follow the source files:

| module | what it models |
|---|---|
| `Wrappers` | `Option`, SQL `=` against NULL (`SqlEq`), JavaScript truthiness |
| `Text` | the string built-ins the handlers use: `toLowerCase`, `includes`, `trim`, `substring`, `parseInt` |
| `Select` | `ORDER BY key ASC LIMIT 1` / `LIMIT n` over a set of row ids |
| `Store` | the tables, their records, the job-state and health-state constants, the socket's session fields |
| `ErrorRules` | the prioritised error-rule table, its TTL cache, `matchError` and `processError` |
| `Cookies` | the inline `set_cookies` parser shared by the token report and the warmer result |
| `TokenManager` | credential leasing: single and batch requests, single and batch reports, code extraction, stale-lock and old-log sweeps |
| `Registry` | the per-account sets of open monitor and panel sockets, and the two broadcasts |
| `Actions` | discrete jobs: claim, accept, reject, and the panel's `new_action` push |
| `Status` | status, progress and tweet-snapshot reports, and the legacy `token_health` counters |
| `Session` | authentication (binding, worker-id minting, orphan reset) and disconnect (requeue of this worker's claims) |
| `Warmer` | warmer campaigns: claim, next (credential, target) pair, result |
| `Scraping` | scraping campaigns (account health checks and nick scrapes), and scraper-account health |
| `Browser` | browser campaigns (unlock and login): claim, next credential, result |
| `Router` | the message router's authentication and role guard, and the ping/pong liveness flag |

## Model

| member | source | states |
|---|---|---|
| Select.Least | src/handlers/tokenManager.js:60-62 | `LIMIT 1` after `ORDER BY`: the chosen row is in the candidate set and no candidate sorts before it, ties broken by id |
| Select.FirstN | src/handlers/tokenManager.js:352-357 | `LIMIT n`: exactly min(n, candidates) distinct candidates in order, every unchosen candidate sorts after all chosen ones, and all are chosen when n covers the set |
| Text.ParseInt | src/handlers/actions.js:127 | `parseInt` without a radix yields no number exactly when no digit follows the optional white space and sign, where a `0x`/`0X` prefix makes the digits hexadecimal; only a leading minus makes the value negative |
| Text.ParseIntDecimal | src/handlers/actions.js:127 | `parseInt` reads back the decimal rendering of every natural number |
| Text.ParseIntHex | src/handlers/actions.js:127 | `parseInt` reads a `0x`-prefixed hexadecimal rendering of every natural number in base 16 |
| ErrorRules.LoadRules | src/handlers/errorRules.js:9-13 | the loaded rules are exactly the enabled rows of the table, as a permutation ordered by descending priority |
| ErrorRules.Reload | src/handlers/errorRules.js:9-18 | a successful load replaces the rules and stamps the load time; a failed query leaves the cache as it was |
| ErrorRules.GetRules | src/handlers/errorRules.js:20-25 | returns the rules cached so far and starts a reload only when more than 60000 ms passed since the last load |
| ErrorRules.NoReloadWithinTtl | src/handlers/errorRules.js:7-24 | after a successful reload that `getRules` started, no further call of `getRules` starts one for a full time-to-live |
| ErrorRules.CodeNumber | src/handlers/errorRules.js:30 | `parseInt(errorCode) \|\| null`: a zero or absent code is no code, any other code is kept |
| ErrorRules.FirstMatch | src/handlers/errorRules.js:32-40 | the index of the first rule matching by code or by pattern; no earlier rule matches either way; none exactly when no rule matches |
| ErrorRules.MatchError | src/handlers/errorRules.js:27-41 | no rule exactly when none matches; otherwise a matching rule of the list |
| ErrorRules.NoCodeMatchesByPatternOnly | src/handlers/errorRules.js:30-36 | with a missing or zero code, the chosen rule is chosen by its pattern alone |
| ErrorRules.Classify | src/handlers/errorRules.js:46-60 | a matched rule supplies the family's action, its health state and `!!set_inactive`; no match gives `skip` (warmer) or `retry_new`, no health state, no deactivation |
| ErrorRules.RecordFailure | src/handlers/errorRules.js:73-96 | one more consecutive failure and the message cut to 500 characters; health and (if asked) deactivation only with a health state; nothing else changes |
| ErrorRules.ProcessError | src/handlers/errorRules.js:43-99 | the outcome is the classification; one `error_log` row is appended when the insert succeeds, none when it fails, and the call goes on; only the named credential changes |
| ErrorRules.RateLimitScenario | src/handlers/errorRules.js:33-87 | a 429 code rule with health `rate_limited` stores that health, counts the failure and keeps the credential active |
| Cookies.Split | src/handlers/tokenManager.js:229 | `split(/[;\n]/)`: at least one segment, and no segment holds a separator |
| Cookies.ParseCookies | src/handlers/tokenManager.js:229-237 | the parsed `ct0` and `auth_token` are the last non-empty value given to each key |
| Cookies.ScanIsLastValue | src/handlers/tokenManager.js:230-237 | the source's left-to-right loop agrees with the last-occurrence reading, from any starting object |
| Cookies.ApplyCookies | src/handlers/tokenManager.js:223-256 | no or blank `set_cookies` changes nothing; otherwise `cookies_full` becomes the raw string and only non-empty parsed secrets overwrite their columns; nothing else changes |
| Cookies.UnrelatedCookiesKeepSecrets | src/handlers/tokenManager.js:235-250 | a cookie string naming neither secret only replaces `cookies_full` |
| TokenManager.RequestToken | src/handlers/tokenManager.js:11-126 | missing deck or action type is refused; otherwise no token exactly when no credential is eligible and unused on the tweet; the chosen one is eligible, not yet successful on the tweet, least recently used (never-used first), and locked for the worker (`unknown` without one) unless the action is a view |
| TokenManager.BatchSize | src/handlers/tokenManager.js:312 | `min(max(1, count \|\| 10), 100)` for every count |
| TokenManager.LockAll | src/handlers/tokenManager.js:394-401 | the one update locks exactly the listed rows and no other |
| TokenManager.RequestTokenBatch | src/handlers/tokenManager.js:310-401 | the reply holds distinct candidates in least-recently-used order (never-used first, id breaking ties), every unchosen candidate ranking after each chosen one, exactly `BatchSize(count)` of them or all candidates if fewer, all locked together unless the action is a view; an empty batch changes nothing |
| TokenManager.FindStandalone | src/handlers/tokenManager.js:200 | the leftmost index where three digits stand between word boundaries |
| TokenManager.ThreeDigitCode | src/handlers/tokenManager.js:200-201 | no code exactly when no standalone three-digit number occurs; otherwise the value of the leftmost one |
| TokenManager.ExtractCode | src/handlers/tokenManager.js:191-202 | when `error_code` parses as JSON, the code is its `errors[0].code` if that is present and non-zero, and otherwise no code, so a parsable non-object such as `429` gives none; when it does not parse, the code is its leftmost standalone three-digit number |
| TokenManager.ThreeDigitRoundTrip | src/handlers/tokenManager.js:200-201 | every three-digit number written on its own is extracted as itself |
| TokenManager.AfterReport | src/handlers/tokenManager.js:176-220 | success clears the failure count and makes the credential healthy; failure counts one more failure and takes health and deactivation from the classifier; both mark it used now and unlock it unless the action is a view; nothing else changes |
| TokenManager.ReportCore | src/handlers/tokenManager.js:161-220 | a report without token id changes nothing; an audit row is appended exactly when tweet and action type are present; a failure appends its classified `error_log` row when that insert succeeds, and a success leaves the error log alone; only the reported credential changes |
| TokenManager.TokenReportHandler | src/handlers/tokenManager.js:158-270 | the reported credential ends as the report's update followed by the cookie update; every other credential is unchanged; the audit and error logs are those of the shared report step |
| TokenManager.TokenReportBatch | src/handlers/tokenManager.js:437-508 | each report runs with its own rule list and its own `error_log` insert outcome; no credential appears or disappears, the audit log only grows at its end, and only the three report tables change |
| TokenManager.BatchOfOne | src/handlers/tokenManager.js:437-508 | a batch of one report has exactly the effect of the shared report step on that report |
| TokenManager.BatchInOrder | src/handlers/tokenManager.js:437-508 | the reports are applied in order: a batch equals its first part followed by the rest |
| TokenManager.BatchErrorRows | src/handlers/tokenManager.js:445-494 | the batch adds exactly one `error_log` row per failed report with a token id whose own insert succeeded |
| TokenManager.BatchKeepsSecrets | src/handlers/tokenManager.js:445-497 | the batch report never changes a credential's cookies or secrets |
| TokenManager.BatchTouchesOnlyReported | src/handlers/tokenManager.js:445-497 | a credential no report of the batch names is left exactly as it was |
| TokenManager.CleanupStaleLocks | src/handlers/tokenManager.js:276-281 | releases exactly the locks older than ten minutes, leaves every other row as it was, and leaves no stale lock |
| TokenManager.KeepRecent | src/handlers/tokenManager.js:295-297 | keeps exactly the audit rows inside the 60-day window, each unexpired row as many times as it occurs |
| TokenManager.KeepRecentSplits | src/handlers/tokenManager.js:295-297 | the deletion keeps the order of the remaining rows: filtering a log is filtering its parts and joining them |
| TokenManager.KeepRecentOne | src/handlers/tokenManager.js:295-297 | a single row survives exactly when it is within the window |
| TokenManager.CleanupOldLogs | src/handlers/tokenManager.js:293-304 | deletes exactly the audit rows older than 60 days, every occurrence of them and nothing else |
| TokenManager.LockedTokenNotReassigned | src/handlers/tokenManager.js:42-126 | a credential leased for a non-view action is not leased again for a non-view action before it is released |
| TokenManager.SuccessExcludesFromTweet | src/handlers/tokenManager.js:50-174 | once a credential reports success on a tweet and action type, the next non-view request for that pair does not receive it; the exclusion lasts only while the success row is inside the 60-day window |
| TokenManager.SuccessForgottenAfterRetention | src/handlers/tokenManager.js:167-297 | the success report records the credential as used on the pair, and a log cleanup more than 60 days later deletes that record, so a credential with no earlier success on the pair is no longer excluded from it |
| TokenManager.ReportReleasesLease | src/handlers/tokenManager.js:120-216 | a non-view lease followed by its report, either outcome, leaves the credential unlocked |
| Registry.Add | src/state.js:10-15 | the account's set gains the socket; other accounts are unchanged; no empty entry is created |
| Registry.Remove | src/state.js:20-30 | the account's set loses the socket; reports true exactly when that emptied the set, whose entry is then dropped |
| Registry.AddMonitor | src/state.js:10-15 | the socket joins the account's monitors; other accounts and all panels are unchanged |
| Registry.RemoveMonitor | src/state.js:20-30 | the socket leaves the account's monitors; true exactly when it was the last one; an unknown account gives false and no change |
| Registry.AddPanel | src/state.js:35-40 | the socket joins the account's panels; monitors are untouched |
| Registry.RemovePanel | src/state.js:45-53 | the socket leaves the account's panels; an emptied entry is dropped; monitors are untouched |
| Registry.AddRemoveMonitor | src/state.js:10-30 | adding a fresh monitor and removing it restores the registry, and reports "last" exactly when the account had no other monitor |
| Registry.AddRemovePanel | src/state.js:35-53 | adding a fresh panel and removing it restores the registry |
| Registry.SendToOpen | src/state.js:77-81 | the send loop reaches exactly the targets whose socket is open, each once |
| Registry.BroadcastToPanels | src/state.js:72-83 | the message reaches exactly the account's open panel sockets, each once |
| Registry.BroadcastToMonitors | src/state.js:88-98 | the message reaches exactly the account's open monitor sockets, each once |
| Actions.WarmerTipo | src/handlers/actions.js:14-15 | the stored warmer type with the `xwarmer_` prefix taken off: the prefix followed by it gives back the requested type |
| Actions.SetSlot | src/handlers/actions.js:84 | the row's state and worker take the new values and no other row of either table changes |
| Actions.DeckTokens | src/handlers/actions.js:116-122 | the deck's active credentials, all of them, each once, least recently used first |
| Actions.ViewsPerMinute | src/handlers/actions.js:127 | `parseInt(util) \|\| 300`: the parsed rate when it is a non-zero number, 300 otherwise |
| Actions.HexViewsPerMinute | src/handlers/actions.js:127 | a hexadecimal `util` such as `0x1A` sets the rate to its base-16 value |
| Actions.BareHexPrefixDefaults | src/handlers/actions.js:127 | a `util` of a bare `0x` is not a number, so the rate is 300 |
| Actions.Payload | src/handlers/actions.js:88-142 | a view job of a deck with active credentials carries them and turns the token manager off; a warmer job never uses it |
| Actions.RequestAction | src/handlers/actions.js:8-149 | no job exactly when no queued job of this type and account is due (warmer jobs have no due date); otherwise the smallest id is claimed as awaiting acceptance by this worker, nothing else changes, and the reply is that job's payload |
| Actions.TaskAccepted | src/handlers/actions.js:161-173 | the job moves to in progress only if it awaits acceptance by this very worker (`===`); otherwise and for every other row nothing changes |
| Actions.TaskRejected | src/handlers/actions.js:178-190 | under the same guard the job goes back to the queue without a worker; otherwise nothing changes |
| Actions.NewAction | src/handlers/actions.js:195-217 | without a type or an account nobody is told; otherwise exactly the account's open monitor sockets, each once |
| Actions.ClaimThenRejectRestores | src/handlers/actions.js:84-185 | a claim followed by the claimant's rejection restores a job that had no worker exactly |
| Actions.ClaimThenAccept | src/handlers/actions.js:84-168 | a claim followed by the claimant's acceptance leaves the job in progress under that worker |
| Actions.OnlyClaimantDecides | src/handlers/actions.js:167-184 | another worker can neither accept nor reject a claimed job |
| Actions.NoDoubleClaim | src/handlers/actions.js:41-84 | two successive pulls never hand out the same job |
| Status.CommentToSave | src/handlers/status.js:18-21 | a requeue keeps a stored comment that holds a link; every other report stores the worker's message |
| Status.ApplyStatus | src/handlers/status.js:23-35 | a final status sets it and clears the media; a requeue drops the worker; any other status changes a job only while it is unfinished; the comment is always written |
| Status.HandleStatus | src/handlers/status.js:9-51 | the job changes only when id, status and message are present and the caller owns it; an `error` status in any case marks the account's monitor as errored; a completion notice goes out exactly for an owned completion |
| Status.AddNullable | src/handlers/status.js:62 | SQL addition: NULL on either side gives NULL |
| Status.HandleProgress | src/handlers/status.js:56-67 | an owned job adds the amount done and becomes in progress unless finished; no other job changes |
| Status.TerminalIsSticky | src/handlers/status.js:29-62 | a finished job stays finished under progress reports and under non-final, non-requeue status reports |
| Status.HealthFor | src/handlers/status.js:84-88 | the health state for a failure count: dead from 10, sick from 5, healthy below |
| Status.HandleTokenFail | src/handlers/status.js:72-93 | the corrected update named under Findings, not the code as written: without token or account nothing changes; the first failure inserts one healthy failure; later ones count one more and take the health of the new count |
| Status.HandleTokenFailAsWritten | src/handlers/status.js:77-89 | the corrected update in every field except the state, which on an existing row is the health for one more failure than the new count; a first failure inserts the same row as the corrected update |
| Status.FailureCountDrivesHealth | src/handlers/status.js:77-89 | after k failures in a row the count is k and the health is the intended one for k |
| Status.DeadAtNinthFailureAsWritten | src/handlers/status.js:81-86 | as written, the ninth failure already reports dead where the intended rule gives sick |
| Status.HandleTokenSuccess | src/handlers/status.js:98-109 | an existing row returns to healthy with no failures; no row is created; other rows are unchanged |
| Status.SuccessHeals | src/handlers/status.js:77-107 | a success after a failure leaves the credential healthy with a zero count |
| Status.HandleTweetSnapshot | src/handlers/status.js:114-127 | only the caller's own job with an id and data stores the snapshot |
| Session.ResetOrphans | src/handlers/auth.js:20-32 | every job of the account in an orphaned state is requeued without worker; every in-progress warmer and scraping job of any account is requeued, scraping counters zeroed; nothing else changes |
| Session.SetMonitorState | src/handlers/auth.js:18 | only the account's monitor state changes |
| Session.HandleAuth | src/handlers/auth.js:6-45 | success exactly when a super-administrator account has the token; failure closes the socket and changes nothing else; a monitor gets the fresh worker id, is registered and resets orphans; a panel is only registered; any other type is registered nowhere |
| Session.HandleDisconnect | src/handlers/disconnect.js:9-39 | a monitor leaves the registry, marks the account offline only if it was the last, logs the disconnect, requeues only its own claims and notifies the open panels; a panel only leaves the registry; a socket without account changes nothing |
| Session.DisconnectReleasesOnlyOwnClaims | src/handlers/disconnect.js:22-26 | after a disconnect none of the worker's claims of the account is pending, and every other job is untouched |
| Session.LoginLogoutRoundTrip | src/handlers/auth.js:14-18 | a worker that logs in alone and then drops leaves the registry as it found it and the account offline |
| Warmer.RequestWarmerJob | src/handlers/warmer.js:8-60 | no job exactly when no campaign is queued; otherwise the oldest one starts under this worker and nothing else changes |
| Warmer.WarmerNext | src/handlers/warmer.js:65-210 | missing or unknown job is refused; the target credential is usable, of the campaign's deck, not yet warmed by it and least recently warmed; none left completes the campaign with its total set to what ran; failures change nothing |
| Warmer.WarmerNextFinds | src/handlers/warmer.js:65-210 | with credentials left, no target nick fails with `no nicks available`; when every target nick has tweets a target is found exactly when there is a target nick; a failure for lack of tweets names a target nick without tweets |
| Warmer.WarmerHealth | src/handlers/warmer.js:261-270 | the keyword classification, each health state exactly for its keywords in priority order |
| Warmer.WarmerSuccess | src/handlers/warmer.js:250-258 | a success clears the failure count, makes the credential healthy, stamps it warmed and used, and unlocks it with no lock owner or time; every other column is unchanged |
| Warmer.WarmerFailure | src/handlers/warmer.js:272-285 | the corrected update named under Findings: a recognised error sets its health; otherwise dead once the new count reaches 10; always one more failure, the message stored, used now and unlocked with no lock owner or time; every other column is unchanged |
| Warmer.WarmerFailureAsWritten | src/handlers/warmer.js:272-285 | the corrected update in every field except the health, which for an unrecognised error is dead from the new count plus one; a recognised error gives the corrected update |
| Warmer.NinthFailureKillsAsWritten | src/handlers/warmer.js:275-280 | as written, an unrecognised ninth failure kills a healthy credential; as intended it stays healthy |
| Warmer.Count | src/handlers/warmer.js:236-247 | one more execution, counted as exactly one success or one error |
| Warmer.WarmerResult | src/handlers/warmer.js:215-326 | uses the corrected failure update named under Findings, not the code as written: missing ids give a negative ack and no change; otherwise one log row, one count and the credential update followed by the cookie update |
| Warmer.ResultKeepsBalance | src/handlers/warmer.js:236-247 | executions stay equal to successes plus errors |
| Warmer.ReportedAccountNotOfferedAgain | src/handlers/warmer.js:99-234 | once a credential's result is logged for a campaign, `warmer_next` never offers it again for that campaign |
| Scraping.RequestScrapingJob | src/handlers/scraping.js:9-67 | no job exactly when none is queued; otherwise the oldest one starts under this worker and the reply lists the active scraper accounts, least recently used first |
| Scraping.ScrapingNext | src/handlers/scraping.js:74-238 | missing or unknown job is refused; the next target is the smallest matching id after the cursor and becomes the cursor; none left completes the job with total = processed; other job types get no reply |
| Scraping.NextShrinksPending | src/handlers/scraping.js:140-209 | each target handed out removes exactly that target from what the job still has to visit |
| Scraping.NickWalkCompletes | src/handlers/scraping.js:171-209 | a nick job visits each pending target once and then completes |
| Scraping.HealthUpdate | src/handlers/scraping.js:271-319 | a healthy profile reactivates the account, clears its failures and stores the profile's nick (or the reported one), user id and follower counts; any other health is stored with the reported error, counts a failure and deactivates a disabling health; a failed report only stores the error and counts a failure; no other column changes |
| Scraping.NickUpdate | src/handlers/scraping.js:321-354 | a nick is active with its tweets exactly when the report succeeded with tweets, otherwise inactive with an empty list; a report with a result stores its user id and, without tweets, its comment or `sin tweets válidos`; a failed report keeps the user id and stores the error; no other column changes |
| Scraping.CountResult | src/handlers/scraping.js:257-268 | one more processed target, counted as exactly one success or one error |
| Scraping.ScrapingResult | src/handlers/scraping.js:243-367 | missing ids give a negative ack and no change; otherwise the count and the update of the named target's table |
| Scraping.ResultKeepsBalance | src/handlers/scraping.js:257-268 | processed stays equal to successes plus errors |
| Scraping.HealthCursorAdvances | src/handlers/scraping.js:113-268 | once a result is counted, a health job resumes after the target it handed out |
| Scraping.ScraperState | src/handlers/scraping.js:379-381 | `rate_limit` gives `rate_limited`, `proxy` gives `proxy_error`, anything else `failed` |
| Scraping.ScraperFail | src/handlers/scraping.js:372-397 | the scraper takes that state, counts a failure and keeps 500 characters of the message; no other scraper changes |
| Scraping.ScraperSuccess | src/handlers/scraping.js:402-416 | the scraper is active again with no failures; no other scraper changes |
| Scraping.ScraperRecovers | src/handlers/scraping.js:372-416 | a success after a failure returns the scraper to the active pool |
| Browser.RequestBrowserJob | src/handlers/browser.js:9-61 | no job exactly when no unlock or login job is queued; otherwise the oldest starts under this worker and nothing else changes |
| Browser.BrowserNext | src/handlers/browser.js:66-376 | missing or unknown job is refused; the next credential is the smallest matching id after `_last_id` and becomes the cursor; none left completes the job, total untouched, and tells the account's open panels |
| Browser.BrowserNextShrinksPending | src/handlers/browser.js:151-350 | each credential handed out removes exactly that one from what the job still has to visit |
| Browser.WalkCompletes | src/handlers/browser.js:93-350 | a campaign hands out each matching credential once and then completes |
| Browser.CountOutcome | src/handlers/browser.js:230-419 | one more processed; a success status counts a success, any other status an error, and a missing status neither |
| Browser.UnlockUpdate | src/handlers/browser.js:189-227 | each unlock outcome sets its health (and deactivation); any other status leaves the credential as it was |
| Browser.LoginUpdate | src/handlers/browser.js:385-410 | a login stores new secrets only with both present; suspension deactivates; a block marks it locked; anything else changes nothing |
| Browser.BrowserResult | src/handlers/browser.js:184-434 | only the named credential and the named job change; the ack reports the announced health to the account's open panels |
| Browser.ReportedHealth | src/handlers/browser.js:243-427 | the health announced to the panels for every outcome of both chains: login `ok`, `suspended`, `blocked`, anything else; unlock `unlocked`, `token_dead`, `suspended`, `appeals`, `dead`, anything else |
| Browser.ResultKeepsBalance | src/handlers/browser.js:230-419 | any result with a status keeps processed equal to successes plus errors |
| Browser.NullStatusUnbalances | src/handlers/browser.js:233-416 | a result without a status is processed but counted neither way |
| Browser.ReportedHealthStored | src/handlers/browser.js:189-247 | for every unlock outcome that stores a health, the announced health is the stored one |
| Browser.LoginOkWithoutTokensMisreported | src/handlers/browser.js:385-425 | an `ok` login without new tokens is announced healthy while the stored health is unchanged |
| Router.Dispatch | app.js:46-239 | an unparsable message is dropped; `auth` goes through exactly with a truthy token; every other handler needs a logged-in socket, the panel-only types a panel and the rest (except task replies) a monitor; only a type the router has a case for reaches a handler |
| Router.UnauthenticatedOnlyAuthenticates | app.js:38-235 | a socket that is not logged in reaches nothing but `auth` |
| Router.PanelTypesReachable | app.js:76-81 | every panel message type reaches its handler from a logged-in panel and is dropped from any other role |
| Router.UnknownTypesIgnored | app.js:46-239 | a message type the router has no case for reaches no handler, whoever sends it |
| Router.MonitorTypesReachable | app.js:58-235 | every monitor message type reaches its handler from a logged-in monitor and is dropped from any other role |
| Router.TaskRepliesFromAnyRole | app.js:67-73 | task acceptance and rejection pass from a logged-in socket of either role |
| Router.Step | app.js:23-44 | a sweep terminates a socket whose flag is down, and otherwise lowers the flag; a pong raises it; termination is final |
| Router.TerminatedIffMissedTwice | app.js:22-44 | a socket is terminated exactly when two sweeps passed with no pong between them |

## Left out

- Connection pooling, transactions and rollback. Each handler is one atomic step, and every query succeeds. The exceptions are the `error_log` insert, whose failure the source swallows (the `logged` parameter), and a failed rule load (`table = None`).
- Row-lock concurrency (`FOR UPDATE`, `SKIP LOCKED`). Handlers run one at a time.
- Socket I/O, JSON serialisation and the `ws` server. Replies are returned values, a broadcast is the set of sockets reached, and the heartbeat is the boolean flag only.
- Message fields the model does not act on are dropped. Examples are the nick, URL and proxy columns that are only echoed back to the worker, the profile columns a health check copies, and the warmer job's request metadata.
- Telegram delivery (`src/handlers/telegram.js` and the warmer's notification). `Status.HandleStatus` only says whether a completion notice is due.
- The metric and log handlers of `src/handlers/monitor.js`, which are plumbing.
- The diagnostic counts sent with an empty token reply. They are informational only.
- `handleStopAction`, `handleScrapingNextBatch`, `handleScrapingResultBatch` and `handleScrapingJobComplete`. The router imports them, but their code is not part of this model, so `Router.Dispatch` only routes to them.
- The browser handlers are modelled from `src/handlers/browser.js`. The router never imports that file, so no message reaches them.
- Errors a handler throws after the router has dispatched a message are not modelled. The model covers the two things no throw can change: an unparsable message is dropped, and no message reaches a handler its guard excludes.
- Wall-clock time is a `nat` of seconds. The rule cache's own clock is in milliseconds. UUIDs and `RAND()` are parameters.
- Select.Least: `ORDER BY` leaves the order of rows with equal keys open in SQL. The model breaks ties by the smaller id, which is one of the orders the store may use.
- Text.ParseInt: white space is the ASCII subset that `trim` and `parseInt` skip. Text is `seq<char>` without Unicode case folding, so `ToLower` folds ASCII letters only. Values are exact integers, while JavaScript rounds those beyond 2^53 to the nearest double.
- TokenManager.ExtractCode: JSON parsing is not modelled. Whether `error_code` parses, and the `errors[0].code` it holds, arrive as the `parsed` argument, which is not derived from the text. A text that parses to `null` makes the property access throw, so it takes the regular-expression path, and its caller passes `Unparsable`. A non-numeric code, which `parseInt(...) || null` turns into no code, is represented by `None`.
- ErrorRules.NoReloadWithinTtl: covers only the reloads `getRules` starts. The start-up load and the 60-second `setInterval` timer (src/handlers/errorRules.js:101-102) call `loadRules` on their own schedule. They are `ErrorRules.Reload` applied by the environment, and the model has no timer, so a timer reload can still happen within the time-to-live.
- Session.HandleAuth: the query has no `ORDER BY`, so which matching account `rows[0]` is depends on the store. The model binds the least matching id, which is one of the rows the store may return.
- String semantics: `substring(0, n)` counts UTF-16 code units (src/handlers/errorRules.js:67 and 78, src/handlers/scraping.js:388), while `Text.Take` counts characters. The two differ only for text outside the Basic Multilingual Plane. SQL comparisons such as `token = ?` (src/handlers/auth.js:7) and `!= ''` (src/handlers/warmer.js:97) are exact equality in the model, while a case-insensitive MySQL collation with trailing-space padding would also match strings that differ in letter case or trailing spaces.
- Warmer.WarmerNext: the nick and tweet are picked by two index parameters in place of `RAND()` and `Math.random()`. A tweet is an opaque string in place of a JSON object with an optional `url`.
- Scraping.ScrapingResult: the `result` object arrives already parsed, and the tweets are stored as their parsed list alongside the raw JSON string.

## Findings

MySQL evaluates the assignments of an `UPDATE … SET` (and of `ON DUPLICATE KEY UPDATE`) from left to right. So a `CASE` written after `fails_consecutivos = fails_consecutivos + 1` sees the counter already incremented. Its `fails_consecutivos + 1` is then one more than the number of failures.

| source | as written | input that shows it | evidently intended | confidence | as-written member | corrected member |
|---|---|---|---|---|---|---|
| src/handlers/status.js:81-88 | the health `CASE` adds 1 to the already-incremented count | a `token_fail` on a row with 8 failures: the 9th failure is stored as `muerto` (and the 4th as `enfermo`) | `muerto` from the 10th failure, `enfermo` from the 5th | medium, not executed | Status.HandleTokenFailAsWritten, Status.DeadAtNinthFailureAsWritten | Status.HandleTokenFail, Status.FailureCountDrivesHealth |
| src/handlers/warmer.js:275-280 | the health `CASE` adds 1 to the already-incremented count | a warmer failure with an unrecognised error on a healthy credential with 8 failures: the 9th failure stores `muerto` | `muerto` once the new count reaches 10 | medium, not executed | Warmer.WarmerFailureAsWritten, Warmer.NinthFailureKillsAsWritten | Warmer.WarmerFailure |

=== FILE: actions.dfy ===
/** Discrete jobs: a worker pulls the oldest queued job of a type (from `actions`, or from
    `xwarmer_actions` for `xwarmer_`-prefixed types), then accepts or rejects it; a panel
    announces new work to the account's workers. */
module Actions {
  import opened Wrappers
  import opened Text
  import opened Store
  import opened Select
  import opened Registry
  import TokenManager

  const WarmerPrefix := "xwarmer_"
  const ViewType := "view"
  const DefaultViewsPerMinute := 300

  /** The two tables a job type can live in. */
  datatype Table = Discrete | Warmer

  function TableOf(tipo: string): Table {
    if StartsWith(tipo, WarmerPrefix) then Warmer else Discrete
  }

  /** The job type as stored in `xwarmer_actions`: the prefix removed. */
  function WarmerTipo(tipo: string): (r: string)
    requires StartsWith(tipo, WarmerPrefix)
    ensures WarmerPrefix + r == tipo
  {
    tipo[|WarmerPrefix|..]
  }

  /** The `(estado, worker_id)` of job `id` of table `t`, if the row exists. */
  function Slot(db: Db, t: Table, id: Id): Option<(string, Option<string>)> {
    match t
    case Discrete => if id in db.actions then Some((db.actions[id].estado, db.actions[id].workerId)) else None
    case Warmer => if id in db.warmerActions then Some((db.warmerActions[id].estado, db.warmerActions[id].workerId)) else None
  }

  /** `UPDATE <table> SET estado = ?, worker_id = ? WHERE id = ?` on an existing row. */
  function SetSlot(db: Db, t: Table, id: Id, estado: string, worker: Option<string>): (r: Db)
    requires Slot(db, t, id).Some?
    ensures Slot(r, t, id) == Some((estado, worker))
    ensures forall u, k: Id :: (u, k) != (t, id) ==> Slot(r, u, k) == Slot(db, u, k)
    ensures t == Discrete ==> r == db.(actions := db.actions[id := db.actions[id].(estado := estado, workerId := worker)])
    ensures t == Warmer ==> r == db.(warmerActions := db.warmerActions[id := db.warmerActions[id].(estado := estado, workerId := worker)])
  {
    match t
    case Discrete => db.(actions := db.actions[id := db.actions[id].(estado := estado, workerId := worker)])
    case Warmer => db.(warmerActions := db.warmerActions[id := db.warmerActions[id].(estado := estado, workerId := worker)])
  }

  /** The `WHERE` clause of the pull query on `actions`: queued, of this type and account, and due. */
  predicate ClaimableDiscrete(a: Action, tipo: string, userId: Option<Id>, now: Time) {
    a.estado == Queued && a.tipo == tipo && SqlEq(Some(a.cuentasId), userId) && a.fecha < now
  }

  /** The `WHERE` clause of the pull query on `xwarmer_actions` (no due date). */
  predicate ClaimableWarmer(w: WarmerRow, tipo: string, userId: Option<Id>) {
    w.estado == Queued && w.tipo == tipo && SqlEq(Some(w.cuentasId), userId)
  }

  function Claimable(db: Db, tipo: string, userId: Option<Id>, now: Time): set<Id> {
    if TableOf(tipo) == Warmer then
      set id | id in db.warmerActions && ClaimableWarmer(db.warmerActions[id], WarmerTipo(tipo), userId)
    else
      set id | id in db.actions && ClaimableDiscrete(db.actions[id], tipo, userId, now)
  }

  /** The active credentials of a deck, least recently used first. */
  function DeckTokens(db: Db, deck: nat): (r: seq<Id>)
    ensures forall i :: 0 <= i < |r| ==>
              r[i] in db.accounts && db.accounts[r[i]].deckId == Some(deck) && db.accounts[r[i]].estado == Active
    ensures forall id :: id in db.accounts && db.accounts[id].deckId == Some(deck) && db.accounts[id].estado == Active ==> id in r
    ensures forall i, j :: 0 <= i < j < |r| ==>
              r[i] != r[j] && NullsFirst(db.accounts[r[i]].ultimoUso) <= NullsFirst(db.accounts[r[j]].ultimoUso)
  {
    var s := set id | id in db.accounts && db.accounts[id].deckId == Some(deck) && db.accounts[id].estado == Active;
    FirstN(s, TokenManager.ByUsage(db.accounts), |s|)
  }

  /** `parseInt(util) || 300`. */
  function ViewsPerMinute(util: Option<string>): (v: int)
    ensures v != 0
    ensures util.Some? && ParseInt(util.value).Some? && ParseInt(util.value).value != 0 ==> v == ParseInt(util.value).value
    ensures util.None? || ParseInt(util.value).None? || ParseInt(util.value) == Some(0) ==> v == DefaultViewsPerMinute
  {
    match util
    case None => DefaultViewsPerMinute
    case Some(u) =>
      match ParseInt(u)
      case Some(v) => if v == 0 then DefaultViewsPerMinute else v
      case None => DefaultViewsPerMinute
  }

  /** A hexadecimal `util` is read in base 16, as `parseInt` does without a radix. */
  lemma HexViewsPerMinute(n: nat)
    requires n != 0
    ensures ViewsPerMinute(Some("0x" + HexString(n))) == n
  {
    ParseIntHex(n);
  }

  /** A bare `0x` prefix is NaN, so the default applies. */
  lemma BareHexPrefixDefaults()
    ensures ViewsPerMinute(Some("0x")) == DefaultViewsPerMinute
  {
    HexPrefixWithoutDigits("0x");
  }

  datatype ActionReply =
    | NoAction
    | Dispatched(id: Id, tipo: string, table: Table, useTokenManager: bool,
                 deckTokens: seq<Id>, viewsPerMinute: Option<int>, media: Option<string>)

  /** The payload of a claimed job. A view job of a deck with active credentials carries the
      whole deck and bypasses the lease manager. */
  function Payload(db: Db, tipo: string, id: Id): (r: ActionReply)
    requires Slot(db, TableOf(tipo), id).Some?
    ensures r.Dispatched? && r.id == id && r.tipo == tipo && r.table == TableOf(tipo)
    ensures r.table == Warmer ==> !r.useTokenManager && r.deckTokens == [] && r.media.None?
    ensures r.table == Discrete ==> var a := db.actions[id];
              && (r.useTokenManager <==>
                    !(a.tipo == ViewType && TruthyNat(a.preconfigId) && DeckTokens(db, a.preconfigId.value) != []))
              && (!r.useTokenManager ==> r.deckTokens == DeckTokens(db, a.preconfigId.value)
                                          && r.viewsPerMinute == Some(ViewsPerMinute(a.util)))
              && (r.useTokenManager ==> r.deckTokens == [] && r.viewsPerMinute.None?)
              && r.media == (if Truthy(a.media) then a.media else None)
  {
    if TableOf(tipo) == Warmer then Dispatched(id, tipo, Warmer, false, [], None, None)
    else
      var a := db.actions[id];
      var media := if Truthy(a.media) then a.media else None;
      if a.tipo == ViewType && TruthyNat(a.preconfigId) && DeckTokens(db, a.preconfigId.value) != [] then
        Dispatched(id, tipo, Discrete, false, DeckTokens(db, a.preconfigId.value), Some(ViewsPerMinute(a.util)), media)
      else
        Dispatched(id, tipo, Discrete, true, [], None, media)
  }

  /** `handleRequestAction`: claims the queued job of the type with the smallest id for this
      worker. A message without a type fails, which the router answers with `no_action`. */
  function RequestAction(db: Db, sock: Socket, tipo: Option<string>, now: Time): (r: (Db, ActionReply))
    ensures tipo.None? ==> r == (db, NoAction)
    ensures r.1.NoAction? ==> r.0 == db
    ensures tipo.Some? ==> (r.1.NoAction? <==> Claimable(db, tipo.value, sock.userId, now) == {})
    ensures r.1.Dispatched? ==>
              && tipo.Some?
              && r.1.id in Claimable(db, tipo.value, sock.userId, now)
              && (forall k :: k in Claimable(db, tipo.value, sock.userId, now) ==> r.1.id <= k)
              && Slot(db, TableOf(tipo.value), r.1.id) == Some((Queued, Slot(db, TableOf(tipo.value), r.1.id).value.1))
              && r.0 == SetSlot(db, TableOf(tipo.value), r.1.id, AwaitingAcceptance, sock.workerId)
              && r.1 == Payload(db, tipo.value, r.1.id)
  {
    if tipo.None? then (db, NoAction)
    else
      var cands := Claimable(db, tipo.value, sock.userId, now);
      if cands == {} then (db, NoAction)
      else
        var id := Least(cands, ById);
        (SetSlot(db, TableOf(tipo.value), id, AwaitingAcceptance, sock.workerId), Payload(db, tipo.value, id))
  }

  /** The row is awaiting acceptance by this socket's worker (JavaScript `===`, so two nulls agree). */
  predicate AwaitsWorker(db: Db, t: Table, id: Id, worker: Option<string>) {
    Slot(db, t, id) == Some((AwaitingAcceptance, worker))
  }

  /** `handleTaskAccepted`: the worker that was offered the job starts it; anyone else is ignored. */
  function TaskAccepted(db: Db, sock: Socket, id: Id, tipo: Option<string>): (r: Db)
    ensures tipo.None? ==> r == db
    ensures tipo.Some? && AwaitsWorker(db, TableOf(tipo.value), id, sock.workerId) ==>
              Slot(r, TableOf(tipo.value), id) == Some((InProgress, sock.workerId))
    ensures tipo.Some? && !AwaitsWorker(db, TableOf(tipo.value), id, sock.workerId) ==> r == db
    ensures forall t, k: Id :: tipo.None? || (t, k) != (TableOf(tipo.value), id) ==> Slot(r, t, k) == Slot(db, t, k)
  {
    if tipo.None? then db
    else
      var t := TableOf(tipo.value);
      if AwaitsWorker(db, t, id, sock.workerId) then SetSlot(db, t, id, InProgress, sock.workerId) else db
  }

  /** `handleTaskRejected`: the worker that was offered the job returns it to the queue. */
  function TaskRejected(db: Db, sock: Socket, id: Id, tipo: Option<string>): (r: Db)
    ensures tipo.None? ==> r == db
    ensures tipo.Some? && AwaitsWorker(db, TableOf(tipo.value), id, sock.workerId) ==>
              Slot(r, TableOf(tipo.value), id) == Some((Queued, None))
    ensures tipo.Some? && !AwaitsWorker(db, TableOf(tipo.value), id, sock.workerId) ==> r == db
    ensures forall t, k: Id :: tipo.None? || (t, k) != (TableOf(tipo.value), id) ==> Slot(r, t, k) == Slot(db, t, k)
  {
    if tipo.None? then db
    else
      var t := TableOf(tipo.value);
      if AwaitsWorker(db, t, id, sock.workerId) then SetSlot(db, t, id, Queued, None) else db
  }

  /** `handleNewAction`: every open monitor socket of the panel's account is told that work of
      this type is available. */
  method NewAction(reg: Registry, sock: Socket, tipo: Option<string>, open: set<SocketId>) returns (notified: seq<SocketId>)
    ensures !Truthy(tipo) || !TruthyNat(sock.userId) ==> notified == []
    ensures Truthy(tipo) && TruthyNat(sock.userId) ==>
              forall x :: x in notified <==> x in GetMonitors(reg, sock.userId.value) && x in open
    ensures forall i, j :: 0 <= i < j < |notified| ==> notified[i] != notified[j]
  {
    if !Truthy(tipo) || !TruthyNat(sock.userId) {
      return [];
    }
    notified := BroadcastToMonitors(reg, sock.userId.value, open);
  }

  // ---------------------------------------------------------------- hand-off properties

  /** Claim then reject by the same worker puts a job that had no worker back exactly as it was. */
  lemma ClaimThenRejectRestores(db: Db, sock: Socket, tipo: string, now: Time)
    requires RequestAction(db, sock, Some(tipo), now).1.Dispatched?
    requires Slot(db, TableOf(tipo), RequestAction(db, sock, Some(tipo), now).1.id).value.1.None?
    ensures var r := RequestAction(db, sock, Some(tipo), now);
            TaskRejected(r.0, sock, r.1.id, Some(tipo)) == db
  {
    var r := RequestAction(db, sock, Some(tipo), now);
    SetSlotUndo(db, TableOf(tipo), r.1.id, AwaitingAcceptance, sock.workerId);
  }

  /** Overwriting a slot and then writing its old value back restores the store. */
  lemma SetSlotUndo(db: Db, t: Table, id: Id, estado: string, worker: Option<string>)
    requires Slot(db, t, id).Some?
    ensures var prev := Slot(db, t, id).value;
            SetSlot(SetSlot(db, t, id, estado, worker), t, id, prev.0, prev.1) == db
  {
    if t == Discrete {
      assert db.actions[id := db.actions[id]] == db.actions;
    } else {
      assert db.warmerActions[id := db.warmerActions[id]] == db.warmerActions;
    }
  }

  /** Claim then accept by the same worker leaves the job in progress under that worker. */
  lemma ClaimThenAccept(db: Db, sock: Socket, tipo: string, now: Time)
    requires RequestAction(db, sock, Some(tipo), now).1.Dispatched?
    ensures var r := RequestAction(db, sock, Some(tipo), now);
            Slot(TaskAccepted(r.0, sock, r.1.id, Some(tipo)), TableOf(tipo), r.1.id) == Some((InProgress, sock.workerId))
  {
  }

  /** A worker other than the one that claimed a job can neither accept nor reject it. */
  lemma OnlyClaimantDecides(db: Db, sock: Socket, other: Socket, tipo: string, now: Time)
    requires RequestAction(db, sock, Some(tipo), now).1.Dispatched?
    requires other.workerId != sock.workerId
    ensures var r := RequestAction(db, sock, Some(tipo), now);
            && TaskAccepted(r.0, other, r.1.id, Some(tipo)) == r.0
            && TaskRejected(r.0, other, r.1.id, Some(tipo)) == r.0
  {
  }

  /** Two successive pulls never hand out the same job. */
  lemma NoDoubleClaim(db: Db, s1: Socket, s2: Socket, tipo: string, now1: Time, now2: Time)
    requires RequestAction(db, s1, Some(tipo), now1).1.Dispatched?
    ensures var r1 := RequestAction(db, s1, Some(tipo), now1);
            var r2 := RequestAction(r1.0, s2, Some(tipo), now2);
            r2.1.Dispatched? ==> r2.1.id != r1.1.id
  {
  }
}

=== FILE: browser.dfy ===
/** Browser campaigns (`scraping_jobs` rows of type `unlock` or `login`): a worker claims one,
    walks matching credentials through the `_last_id` cursor, and reports each outcome, which
    sets the credential's health and is pushed to the account's panels. */
module Browser {
  import opened Wrappers
  import opened Store
  import opened Select
  import opened Registry

  const UnlockJob := "unlock"
  const LoginJob := "login"
  const AppealsHealth := "appeals"
  const DeadHealth := "dead"

  datatype BrowserReply =
    | NoBrowserJob
    | BrowserJob(id: Id)
    | BrowserTarget(jobId: Id, accountId: Id)
    | BrowserDone(jobId: Id, notified: set<SocketId>)
    | BrowserFailed(jobId: Id, error: string)
    | BrowserAck(notified: set<SocketId>, reportedHealth: string)

  function QueuedBrowserJobs(db: Db): set<Id> {
    set id | id in db.scrapingJobs && db.scrapingJobs[id].estado == Queued
                                   && db.scrapingJobs[id].tipo in {UnlockJob, LoginJob}
  }

  /** `handleRequestBrowserJob`: the oldest queued unlock or login job starts under this worker. */
  function RequestBrowserJob(db: Db, sock: Socket, now: Time): (r: (Db, BrowserReply))
    ensures r.1.NoBrowserJob? <==> QueuedBrowserJobs(db) == {}
    ensures r.1.NoBrowserJob? ==> r.0 == db
    ensures r.1.BrowserJob? ==>
              var id := r.1.id;
              && id in QueuedBrowserJobs(db)
              && (forall k :: k in QueuedBrowserJobs(db) ==>
                    db.scrapingJobs[id].createdAt < db.scrapingJobs[k].createdAt
                    || (db.scrapingJobs[id].createdAt == db.scrapingJobs[k].createdAt && id <= k))
              && r.0 == db.(scrapingJobs := db.scrapingJobs[id := db.scrapingJobs[id].(
                                estado := InProgress, workerId := sock.workerId, startedAt := Some(now))])
    ensures r.1.NoBrowserJob? || r.1.BrowserJob?
  {
    var q := QueuedBrowserJobs(db);
    if q == {} then (db, NoBrowserJob)
    else
      var id := Least(q, ByJobCreation(db.scrapingJobs));
      (db.(scrapingJobs := db.scrapingJobs[id := db.scrapingJobs[id].(
             estado := InProgress, workerId := sock.workerId, startedAt := Some(now))]), BrowserJob(id))
  }

  /** The filters both walks share: each one applies only when present in the job. */
  predicate CommonFilters(f: Filters, id: Id, a: Account) {
    && (Truthy(f.nombre) ==> a.nombre == f.nombre)
    && (TruthyNat(f.deckId) ==> a.deckId == f.deckId)
    && (Truthy(f.estado) ==> a.estado == f.estado.value)
    && (TruthyNat(f.accountId) ==> id == f.accountId.value)
  }

  /** Unlock targets: credentials with non-empty secrets. */
  predicate UnlockTarget(f: Filters, id: Id, a: Account) {
    && Truthy(a.authToken) && Truthy(a.ct0)
    && CommonFilters(f, id, a)
    && (Truthy(f.salud) ==> a.salud == f.salud)
  }

  /** Login targets: credentials with a password that, unless a health filter is given, are
      logged out or have no session token. */
  predicate LoginTarget(f: Filters, id: Id, a: Account) {
    && Truthy(a.password)
    && CommonFilters(f, id, a)
    && (Truthy(f.salud) ==> a.salud == f.salud)
    && (!Truthy(f.salud) ==> a.salud == Some(LoggedOut) || !Truthy(a.authToken))
  }

  predicate Target(login: bool, f: Filters, id: Id, a: Account) {
    if login then LoginTarget(f, id, a) else UnlockTarget(f, id, a)
  }

  function Pending(db: Db, job: Id, login: bool): set<Id>
    requires job in db.scrapingJobs
  {
    var f := db.scrapingJobs[job].filtros;
    set id | id in db.accounts && id > f.lastId.GetOr(0) && Target(login, f, id, db.accounts[id])
  }

  /** The sockets a panel broadcast for this socket's account reaches. */
  function PanelAudience(reg: Registry, sock: Socket, open: set<SocketId>): set<SocketId> {
    if sock.userId.Some? then GetPanels(reg, sock.userId.value) * open else {}
  }

  /** `handleUnlockNext` (`login` false) and `handleLoginNext` (`login` true): the matching
      credential with the smallest id after the cursor, which becomes the new cursor; none left
      completes the job (its total is left as it was) and tells the account's panels. */
  function BrowserNext(db: Db, reg: Registry, sock: Socket, open: set<SocketId>, jobId: Option<Id>, login: bool, now: Time): (r: (Db, BrowserReply))
    ensures !TruthyNat(jobId) ==> r == (db, BrowserFailed(0, "missing job_id"))
    ensures TruthyNat(jobId) && jobId.value !in db.scrapingJobs ==> r == (db, BrowserFailed(jobId.value, "job not found"))
    ensures TruthyNat(jobId) && jobId.value in db.scrapingJobs ==>
              var id, j := jobId.value, db.scrapingJobs[jobId.value];
              && (Pending(db, id, login) == {} ==>
                    r == (db.(scrapingJobs := db.scrapingJobs[id := j.(estado := Completed, completedAt := Some(now))]),
                          BrowserDone(id, PanelAudience(reg, sock, open))))
              && (Pending(db, id, login) != {} ==>
                    && r.1.BrowserTarget? && r.1.jobId == id
                    && r.1.accountId in Pending(db, id, login)
                    && (forall k :: k in Pending(db, id, login) ==> r.1.accountId <= k)
                    && r.0 == db.(scrapingJobs := db.scrapingJobs[id := j.(filtros := j.filtros.(lastId := Some(r.1.accountId)))]))
  {
    if !TruthyNat(jobId) then (db, BrowserFailed(0, "missing job_id"))
    else
      var id := jobId.value;
      if id !in db.scrapingJobs then (db, BrowserFailed(id, "job not found"))
      else
        var j := db.scrapingJobs[id];
        var p := Pending(db, id, login);
        if p == {} then
          (db.(scrapingJobs := db.scrapingJobs[id := j.(estado := Completed, completedAt := Some(now))]),
           BrowserDone(id, PanelAudience(reg, sock, open)))
        else
          var t := Least(p, ById);
          (db.(scrapingJobs := db.scrapingJobs[id := j.(filtros := j.filtros.(lastId := Some(t)))]), BrowserTarget(id, t))
  }

  /** Each target handed out moves the cursor past exactly one pending credential. */
  lemma BrowserNextShrinksPending(db: Db, reg: Registry, sock: Socket, open: set<SocketId>, job: Id, login: bool, now: Time)
    requires job != 0 && job in db.scrapingJobs
    requires BrowserNext(db, reg, sock, open, Some(job), login, now).1.BrowserTarget?
    ensures var r := BrowserNext(db, reg, sock, open, Some(job), login, now);
            Pending(r.0, job, login) == Pending(db, job, login) - {r.1.accountId}
  {
    var r := BrowserNext(db, reg, sock, open, Some(job), login, now);
    assert r.0.accounts == db.accounts;
    assert r.0.scrapingJobs[job].filtros.lastId == Some(r.1.accountId);
  }

  /** `k` successive next-target calls on one job. */
  function Walk(db: Db, reg: Registry, sock: Socket, open: set<SocketId>, job: Id, login: bool, k: nat, now: Time): Db
    requires job != 0
  {
    if k == 0 then db else BrowserNext(Walk(db, reg, sock, open, job, login, k - 1, now), reg, sock, open, Some(job), login, now).0
  }

  /** A campaign hands out each matching credential once, in id order, and then completes: after
      as many calls as it had pending credentials, the next call finishes the job. */
  lemma {:induction false} WalkCompletes(db: Db, reg: Registry, sock: Socket, open: set<SocketId>, job: Id, login: bool, k: nat, now: Time)
    requires job != 0 && job in db.scrapingJobs
    requires k <= |Pending(db, job, login)|
    ensures var w := Walk(db, reg, sock, open, job, login, k, now);
            job in w.scrapingJobs && |Pending(w, job, login)| == |Pending(db, job, login)| - k
    ensures k == |Pending(db, job, login)| ==>
              BrowserNext(Walk(db, reg, sock, open, job, login, k, now), reg, sock, open, Some(job), login, now).1.BrowserDone?
  {
    var w := Walk(db, reg, sock, open, job, login, k, now);
    if k > 0 {
      WalkCompletes(db, reg, sock, open, job, login, k - 1, now);
      var v := Walk(db, reg, sock, open, job, login, k - 1, now);
      WalkStep(v, reg, sock, open, job, login, now);
      assert w == BrowserNext(v, reg, sock, open, Some(job), login, now).0;
    }
    assert job in w.scrapingJobs && |Pending(w, job, login)| == |Pending(db, job, login)| - k;
    if k == |Pending(db, job, login)| {
      assert Pending(w, job, login) == {};
    }
  }

  /** One call on a job with credentials left keeps the job with one credential fewer. */
  lemma WalkStep(w: Db, reg: Registry, sock: Socket, open: set<SocketId>, job: Id, login: bool, now: Time)
    requires job != 0 && job in w.scrapingJobs
    requires Pending(w, job, login) != {}
    ensures var r := BrowserNext(w, reg, sock, open, Some(job), login, now).0;
            job in r.scrapingJobs && |Pending(r, job, login)| == |Pending(w, job, login)| - 1
  {
    BrowserNextShrinksPending(w, reg, sock, open, job, login, now);
  }

  /** The SQL `IF(? = s, 1, 0)` / `IF(? != s, 1, 0)` counter update: a NULL status makes both
      tests NULL, so only `procesados` moves. */
  function CountOutcome(j: ScrapingJob, status: Option<string>, success: string): (k: ScrapingJob)
    ensures k.procesados == j.procesados + 1
    ensures status == Some(success) ==> k.exitosos == j.exitosos + 1 && k.errores == j.errores
    ensures status.Some? && status != Some(success) ==> k.errores == j.errores + 1 && k.exitosos == j.exitosos
    ensures status.None? ==> k.exitosos == j.exitosos && k.errores == j.errores
    ensures k.(procesados := j.procesados, exitosos := j.exitosos, errores := j.errores) == j
  {
    j.(procesados := j.procesados + 1,
       exitosos := j.exitosos + (if status == Some(success) then 1 else 0),
       errores := j.errores + (if status.Some? && status != Some(success) then 1 else 0))
  }

  /** The credential after an unlock outcome. */
  function UnlockUpdate(a: Account, status: Option<string>): (b: Account)
    ensures status == Some("unlocked") ==> b == a.(salud := Some(Healthy))
    ensures status == Some("token_dead") ==> b == a.(salud := Some(LoggedOut))
    ensures status == Some("suspended") ==> b == a.(salud := Some(Suspended), estado := Inactive)
    ensures status == Some("appeals") ==> b == a.(salud := Some(AppealsHealth), estado := Inactive)
    ensures status == Some("dead") ==> b == a.(salud := Some(DeadHealth), estado := Inactive)
    ensures status !in {Some("unlocked"), Some("token_dead"), Some("suspended"), Some("appeals"), Some("dead")} ==> b == a
  {
    if status == Some("unlocked") then a.(salud := Some(Healthy))
    else if status == Some("token_dead") then a.(salud := Some(LoggedOut))
    else if status == Some("suspended") then a.(salud := Some(Suspended), estado := Inactive)
    else if status == Some("appeals") then a.(salud := Some(AppealsHealth), estado := Inactive)
    else if status == Some("dead") then a.(salud := Some(DeadHealth), estado := Inactive)
    else a
  }

  /** The credential after a login outcome: new secrets only with both tokens present. */
  function LoginUpdate(a: Account, status: Option<string>, newAuth: Option<string>, newCt0: Option<string>): (b: Account)
    ensures status == Some("ok") && Truthy(newAuth) && Truthy(newCt0) ==>
              b == a.(authToken := newAuth, ct0 := newCt0, salud := Some(Healthy))
    ensures status == Some("ok") && !(Truthy(newAuth) && Truthy(newCt0)) ==> b == a
    ensures status == Some("suspended") ==> b == a.(salud := Some(Suspended), estado := Inactive)
    ensures status == Some("blocked") ==> b == a.(salud := Some(LockedHealth))
    ensures status !in {Some("ok"), Some("suspended"), Some("blocked")} ==> b == a
  {
    if status == Some("ok") && Truthy(newAuth) && Truthy(newCt0) then a.(authToken := newAuth, ct0 := newCt0, salud := Some(Healthy))
    else if status == Some("suspended") then a.(salud := Some(Suspended), estado := Inactive)
    else if status == Some("blocked") then a.(salud := Some(LockedHealth))
    else a
  }

  datatype BrowserResultMsg = BrowserResultMsg(
    jobId: Option<Id>,
    accountId: Option<Id>,
    status: Option<string>,
    newAuthToken: Option<string>,
    newCt0: Option<string>
  )

  /** `handleUnlockResult` (`login` false) and `handleLoginResult` (`login` true). No field is
      required: a missing id simply matches no row. */
  function BrowserResult(db: Db, reg: Registry, sock: Socket, open: set<SocketId>, m: BrowserResultMsg, login: bool): (r: (Db, BrowserReply))
    ensures r.1 == BrowserAck(PanelAudience(reg, sock, open), ReportedHealth(m.status, login))
    ensures r.0.accounts == (if m.accountId.Some? && m.accountId.value in db.accounts then
                               db.accounts[m.accountId.value := if login then LoginUpdate(db.accounts[m.accountId.value], m.status, m.newAuthToken, m.newCt0)
                                                                else UnlockUpdate(db.accounts[m.accountId.value], m.status)]
                             else db.accounts)
    ensures r.0.scrapingJobs == (if m.jobId.Some? && m.jobId.value in db.scrapingJobs then
                                   db.scrapingJobs[m.jobId.value := CountOutcome(db.scrapingJobs[m.jobId.value], m.status, if login then "ok" else "unlocked")]
                                 else db.scrapingJobs)
    ensures r.0 == db.(accounts := r.0.accounts, scrapingJobs := r.0.scrapingJobs)
  {
    var db1 :=
      if m.accountId.Some? && m.accountId.value in db.accounts then
        var a := db.accounts[m.accountId.value];
        db.(accounts := db.accounts[m.accountId.value := if login then LoginUpdate(a, m.status, m.newAuthToken, m.newCt0) else UnlockUpdate(a, m.status)])
      else db;
    var db2 :=
      if m.jobId.Some? && m.jobId.value in db1.scrapingJobs then
        db1.(scrapingJobs := db1.scrapingJobs[m.jobId.value := CountOutcome(db1.scrapingJobs[m.jobId.value], m.status, if login then "ok" else "unlocked")])
      else db1;
    (db2, BrowserAck(PanelAudience(reg, sock, open), ReportedHealth(m.status, login)))
  }

  /** Every outcome with a status is counted once as a success or an error. */
  lemma ResultKeepsBalance(db: Db, reg: Registry, sock: Socket, open: set<SocketId>, m: BrowserResultMsg, login: bool, job: Id)
    requires m.status.Some?
    requires job in db.scrapingJobs && Balanced(db.scrapingJobs[job])
    ensures Balanced(BrowserResult(db, reg, sock, open, m, login).0.scrapingJobs[job])
  {
  }

  /** An outcome without a status is processed but counted neither way. */
  lemma NullStatusUnbalances(db: Db, reg: Registry, sock: Socket, open: set<SocketId>, m: BrowserResultMsg, login: bool)
    requires m.status.None? && m.jobId.Some? && m.jobId.value in db.scrapingJobs && Balanced(db.scrapingJobs[m.jobId.value])
    ensures !Balanced(BrowserResult(db, reg, sock, open, m, login).0.scrapingJobs[m.jobId.value])
  {
  }

  /** The health a result reports to the panels. */
  function ReportedHealth(status: Option<string>, login: bool): (h: string)
    ensures !login && status == Some("unlocked") ==> h == Healthy
    ensures login && status == Some("ok") ==> h == Healthy
    ensures login && status == Some("suspended") ==> h == Suspended
    ensures login && status == Some("blocked") ==> h == LockedHealth
    ensures !login && status == Some("token_dead") ==> h == LoggedOut
    ensures !login && status == Some("suspended") ==> h == Suspended
    ensures !login && status == Some("appeals") ==> h == AppealsHealth
    ensures !login && status == Some("dead") ==> h == DeadHealth
    ensures login && status !in {Some("ok"), Some("suspended"), Some("blocked")} ==> h == LoggedOut
    ensures !login && status !in {Some("unlocked"), Some("token_dead"), Some("suspended"), Some("appeals"), Some("dead")} ==> h == LockedHealth
  {
    if login then
      if status == Some("ok") then Healthy
      else if status == Some("suspended") then Suspended
      else if status == Some("blocked") then LockedHealth
      else LoggedOut
    else
      if status == Some("unlocked") then Healthy
      else if status == Some("token_dead") then LoggedOut
      else if status == Some("suspended") then Suspended
      else if status == Some("appeals") then AppealsHealth
      else if status == Some("dead") then DeadHealth
      else LockedHealth
  }

  /** The health pushed to the panels agrees with the health stored, whenever the outcome
      stores one. */
  lemma ReportedHealthStored(a: Account, status: Option<string>)
    requires status in {Some("unlocked"), Some("token_dead"), Some("suspended"), Some("appeals"), Some("dead")}
    ensures UnlockUpdate(a, status).salud == Some(ReportedHealth(status, false))
  {
  }

  /** A successful login that brings back no new tokens is announced as healthy although the
      stored credential is left as it was. */
  lemma LoginOkWithoutTokensMisreported(a: Account)
    requires a.salud != Some(Healthy)
    ensures LoginUpdate(a, Some("ok"), None, None).salud != Some(ReportedHealth(Some("ok"), true))
  {
  }
}

=== FILE: cookies.dfy ===
/** The inline `set_cookies` parser shared by the token report and the warmer result handlers:
    split on `;` or newline, trim, drop empty parts, read `key=value` pairs, and let the last
    non-empty `ct0` / `auth_token` value win. */
module Cookies {
  import opened Wrappers
  import opened Text
  import opened Store

  predicate IsSeparator(c: char) {
    c == ';' || c == '\n'
  }

  function FirstSeparator(s: string): (r: Option<nat>)
    ensures r.Some? ==> r.value < |s| && IsSeparator(s[r.value])
    ensures r.Some? ==> forall k :: 0 <= k < r.value ==> !IsSeparator(s[k])
    ensures r.None? ==> forall k :: 0 <= k < |s| ==> !IsSeparator(s[k])
  {
    if |s| == 0 then None
    else if IsSeparator(s[0]) then Some(0)
    else match FirstSeparator(s[1..])
      case None => None
      case Some(k) => Some(k + 1)
  }

  /** `s.split(/[;\n]/)`: the maximal separator-free segments, empty ones included. */
  function Split(s: string): (r: seq<string>)
    ensures |r| >= 1
    ensures forall i, k :: 0 <= i < |r| && 0 <= k < |r[i]| ==> !IsSeparator(r[i][k])
    decreases |s|
  {
    match FirstSeparator(s)
    case None => [s]
    case Some(i) => [s[..i]] + Split(s[i + 1..])
  }

  /** `.map(s => s.trim()).filter(Boolean)`. */
  function TrimNonEmpty(segments: seq<string>): (r: seq<string>)
    ensures forall i :: 0 <= i < |r| ==> r[i] != ""
    ensures |r| <= |segments|
  {
    if |segments| == 0 then []
    else
      var t := Trim(segments[0]);
      if t == "" then TrimNonEmpty(segments[1..]) else [t] + TrimNonEmpty(segments[1..])
  }

  function Parts(s: string): seq<string> {
    TrimNonEmpty(Split(s))
  }

  /** The lower-cased, trimmed key and the trimmed value of a `key=value` part, split at the
      first `=`; None for a part without `=`. */
  function KeyValue(part: string): Option<(string, string)> {
    match IndexOf(part, '=')
    case None => None
    case Some(e) => Some((ToLower(Trim(part[..e])), Trim(part[e + 1..])))
  }

  /** The non-empty value a part gives to cookie `name`, if it names it. */
  function ValueFor(part: string, name: string): (r: Option<string>)
    ensures r.Some? ==> r.value != ""
  {
    match KeyValue(part)
    case Some((k, v)) => if k == name && v != "" then Some(v) else None
    case None => None
  }

  /** Reference reading: the value given by the LAST part that names `name` with a non-empty value. */
  function LastValue(parts: seq<string>, name: string): Option<string>
  {
    if |parts| == 0 then None
    else match ValueFor(parts[|parts| - 1], name)
      case Some(v) => Some(v)
      case None => LastValue(parts[..|parts| - 1], name)
  }

  /** `newer` when present, else `older`. */
  function Override(older: Option<string>, newer: Option<string>): Option<string> {
    if newer.Some? then newer else older
  }

  /** The columns the parser overwrites besides `cookies_full`. */
  datatype CookieUpdate = CookieUpdate(ct0: Option<string>, authToken: Option<string>)

  /** One iteration of the source's `for (const part of parts)` loop. */
  function Step(u: CookieUpdate, part: string): CookieUpdate {
    CookieUpdate(Override(u.ct0, ValueFor(part, "ct0")), Override(u.authToken, ValueFor(part, "auth_token")))
  }

  function Scan(u: CookieUpdate, parts: seq<string>): CookieUpdate
    decreases |parts|
  {
    if |parts| == 0 then u else Scan(Step(u, parts[0]), parts[1..])
  }

  /** The `cookieUpdates` object the loop builds, starting from `{}`. */
  function ParseCookies(s: string): (r: CookieUpdate)
    ensures r.ct0 == LastValue(Parts(s), "ct0")
    ensures r.authToken == LastValue(Parts(s), "auth_token")
  {
    ScanIsLastValue(CookieUpdate(None, None), Parts(s));
    Scan(CookieUpdate(None, None), Parts(s))
  }

  lemma {:induction false} LastValueCons(p: string, rest: seq<string>, name: string)
    ensures LastValue([p] + rest, name) == Override(ValueFor(p, name), LastValue(rest, name))
    decreases |rest|
  {
    var ps := [p] + rest;
    if |rest| == 0 {
      assert ps[..|ps| - 1] == [];
    } else {
      assert ps[|ps| - 1] == rest[|rest| - 1];
      assert ps[..|ps| - 1] == [p] + rest[..|rest| - 1];
      LastValueCons(p, rest[..|rest| - 1], name);
    }
  }

  /** The left-to-right scan agrees with the last-occurrence reading, for any starting object. */
  lemma {:induction false} ScanIsLastValue(u: CookieUpdate, parts: seq<string>)
    ensures Scan(u, parts).ct0 == Override(u.ct0, LastValue(parts, "ct0"))
    ensures Scan(u, parts).authToken == Override(u.authToken, LastValue(parts, "auth_token"))
    decreases |parts|
  {
    if |parts| > 0 {
      assert parts == [parts[0]] + parts[1..];
      LastValueCons(parts[0], parts[1..], "ct0");
      LastValueCons(parts[0], parts[1..], "auth_token");
      ScanIsLastValue(Step(u, parts[0]), parts[1..]);
    }
  }

  /** The cookie update applied to a credential row: only when `set_cookies` is a string that is
      not blank; then `cookies_full` becomes the raw string and `ct0` / `auth_token` take the
      last non-empty value given for them, keeping their old value otherwise. */
  function ApplyCookies(a: Account, setCookies: Option<string>): (r: Account)
    ensures setCookies.None? || Trim(setCookies.value) == "" ==> r == a
    ensures setCookies.Some? && Trim(setCookies.value) != "" ==>
              && r.cookiesFull == setCookies
              && r.ct0 == Override(a.ct0, LastValue(Parts(setCookies.value), "ct0"))
              && r.authToken == Override(a.authToken, LastValue(Parts(setCookies.value), "auth_token"))
    ensures r.(cookiesFull := a.cookiesFull, ct0 := a.ct0, authToken := a.authToken) == a
  {
    match setCookies
    case None => a
    case Some(raw) =>
      if Trim(raw) == "" then a
      else
        var u := ParseCookies(raw);
        a.(cookiesFull := Some(raw), ct0 := Override(a.ct0, u.ct0), authToken := Override(a.authToken, u.authToken))
  }

  /** A set_cookies string that names neither cookie only replaces `cookies_full`. */
  lemma UnrelatedCookiesKeepSecrets(a: Account, raw: string)
    requires Trim(raw) != ""
    requires forall i :: 0 <= i < |Parts(raw)| ==> ValueFor(Parts(raw)[i], "ct0").None? && ValueFor(Parts(raw)[i], "auth_token").None?
    ensures ApplyCookies(a, Some(raw)) == a.(cookiesFull := Some(raw))
  {
    NoValueNoLast(Parts(raw), "ct0");
    NoValueNoLast(Parts(raw), "auth_token");
  }

  lemma {:induction false} NoValueNoLast(parts: seq<string>, name: string)
    requires forall i :: 0 <= i < |parts| ==> ValueFor(parts[i], name).None?
    ensures LastValue(parts, name).None?
    decreases |parts|
  {
    if |parts| > 0 {
      NoValueNoLast(parts[..|parts| - 1], name);
    }
  }
}

=== FILE: error_rules.dfy ===
/** The error classifier: a prioritised rule table, cached with a time-to-live, that maps a
    failure signal (numeric code, message) to a retry action and a credential health change. */
module ErrorRules {
  import opened Wrappers
  import opened Text
  import opened Store

  /** Cache time-to-live, in milliseconds. */
  const CacheTtl := 60000
  /** Longest message kept in `error_log.error_message`. */
  const LogMessageLimit := 2000
  /** Longest message kept in `xchecker_accounts.ultimo_error`. */
  const ErrorMessageLimit := 500

  const DefaultWarmerAction := "skip"
  const DefaultNormalAction := "retry_new"

  // ---------------------------------------------------------------- loading

  /** `WHERE enabled = 1`. */
  function Enabled(table: seq<Rule>): (r: seq<Rule>)
    ensures forall x :: x in r <==> x in table && x.enabled
    ensures multiset(r) <= multiset(table)
  {
    if |table| == 0 then []
    else
      var rest := Enabled(table[1..]);
      assert table == [table[0]] + table[1..];
      if table[0].enabled then [table[0]] + rest else rest
  }

  /** `ORDER BY priority DESC`. */
  predicate ByPriority(rules: seq<Rule>) {
    forall i, j :: 0 <= i < j < |rules| ==> rules[i].priority >= rules[j].priority
  }

  function Insert(x: Rule, sorted: seq<Rule>): (r: seq<Rule>)
    requires ByPriority(sorted)
    ensures ByPriority(r)
    ensures multiset(r) == multiset(sorted) + multiset{x}
    ensures |r| == |sorted| + 1
  {
    if |sorted| == 0 || x.priority >= sorted[0].priority then [x] + sorted
    else
      var head, rest := sorted[0], Insert(x, sorted[1..]);
      assert sorted == [head] + sorted[1..];
      assert forall y :: y in rest ==> y.priority <= head.priority by {
        forall y | y in rest
          ensures y.priority <= head.priority
        {
          assert y in multiset(rest);
          if y != x {
            assert y in multiset(sorted[1..]);
          }
        }
      }
      [head] + rest
  }

  function SortByPriority(rules: seq<Rule>): (r: seq<Rule>)
    ensures ByPriority(r)
    ensures multiset(r) == multiset(rules)
  {
    if |rules| == 0 then []
    else
      assert rules == [rules[0]] + rules[1..];
      Insert(rules[0], SortByPriority(rules[1..]))
  }

  /** `loadRules`' query: exactly the enabled rules, highest priority first. */
  function LoadRules(table: seq<Rule>): (r: seq<Rule>)
    ensures ByPriority(r)
    ensures multiset(r) == multiset(Enabled(table))
    ensures forall x :: x in r <==> x in table && x.enabled
  {
    var r := SortByPriority(Enabled(table));
    assert forall x :: x in r <==> x in multiset(r);
    r
  }

  // ---------------------------------------------------------------- cache

  /** The module-level `rulesCache` and `lastLoad` (milliseconds of the injected clock). */
  datatype RuleCache = RuleCache(rules: seq<Rule>, lastLoad: nat)

  /** The state before the first load completes. */
  const Boot := RuleCache([], 0)

  predicate Stale(cache: RuleCache, now: nat) {
    now - cache.lastLoad > CacheTtl
  }

  /** `loadRules`: `table` is the query's result, None when the query fails, in which case
      the cache keeps its rules and its timestamp. */
  function Reload(cache: RuleCache, table: Option<seq<Rule>>, now: nat): (c: RuleCache)
    ensures table.None? ==> c == cache
    ensures table.Some? ==> c.lastLoad == now && ByPriority(c.rules)
    ensures table.Some? ==> forall x :: x in c.rules <==> x in table.value && x.enabled
  {
    match table
    case None => cache
    case Some(rows) => RuleCache(LoadRules(rows), now)
  }

  /** `getRules` at time `now`: returns the rules cached so far, and starts a reload when the
      cache is older than the time-to-live. The reload is not awaited, so the rules this call
      returns are the old ones; the reload's outcome is the second component. */
  function GetRules(cache: RuleCache, now: nat, table: Option<seq<Rule>>): (r: (seq<Rule>, RuleCache))
    ensures r.0 == cache.rules
    ensures Stale(cache, now) ==> r.1 == Reload(cache, table, now)
    ensures !Stale(cache, now) ==> r.1 == cache
  {
    (cache.rules, if Stale(cache, now) then Reload(cache, table, now) else cache)
  }

  /** After a successful reload started by `getRules`, no later `getRules` call starts another
      for a full time-to-live. (The module's start-up load and its interval timer call
      `loadRules` on their own schedule; they are `Reload` applied by the environment.) */
  lemma NoReloadWithinTtl(cache: RuleCache, t1: nat, rows: seq<Rule>, t2: nat, table: Option<seq<Rule>>)
    requires Stale(cache, t1)
    requires t1 <= t2 <= t1 + CacheTtl
    ensures GetRules(GetRules(cache, t1, Some(rows)).1, t2, table).1 == GetRules(cache, t1, Some(rows)).1
  {
  }

  // ---------------------------------------------------------------- matching

  /** `parseInt(errorCode) || null`: a zero or absent code is no code. */
  function CodeNumber(code: Option<int>): (r: Option<int>)
    ensures r.Some? <==> code.Some? && code.value != 0
    ensures r.Some? ==> r == code
  {
    if code == Some(0) then None else code
  }

  predicate CodeMatches(rule: Rule, code: Option<int>) {
    rule.code.Some? && CodeNumber(code) == rule.code
  }

  /** The rule's pattern, lower-cased, is a substring of the lower-cased message (absent = ""). */
  predicate PatternMatches(rule: Rule, message: Option<string>) {
    Truthy(rule.pattern) && Contains(ToLower(message.GetOr("")), ToLower(rule.pattern.value))
  }

  predicate Matches(rule: Rule, code: Option<int>, message: Option<string>) {
    CodeMatches(rule, code) || PatternMatches(rule, message)
  }

  /** Index of the first rule that matches, scanning in order. */
  function FirstMatch(rules: seq<Rule>, code: Option<int>, message: Option<string>): (r: Option<nat>)
    ensures r.Some? ==> r.value < |rules| && Matches(rules[r.value], code, message)
    ensures r.Some? ==> forall j :: 0 <= j < r.value ==> !Matches(rules[j], code, message)
    ensures r.None? <==> forall j :: 0 <= j < |rules| ==> !Matches(rules[j], code, message)
  {
    if |rules| == 0 then None
    else if Matches(rules[0], code, message) then Some(0)
    else match FirstMatch(rules[1..], code, message)
      case None => None
      case Some(k) => Some(k + 1)
  }

  /** `matchError` over the rules `getRules` returned. */
  function MatchError(rules: seq<Rule>, code: Option<int>, message: Option<string>): (r: Option<Rule>)
    ensures r.None? <==> forall j :: 0 <= j < |rules| ==> !Matches(rules[j], code, message)
    ensures r.Some? ==> exists i :: 0 <= i < |rules| && rules[i] == r.value && Matches(rules[i], code, message)
                          && forall j :: 0 <= j < i ==> !Matches(rules[j], code, message)
  {
    match FirstMatch(rules, code, message)
    case None => None
    case Some(i) => Some(rules[i])
  }

  /** A missing or zero code never matches by code, so only a pattern can select the rule. */
  lemma NoCodeMatchesByPatternOnly(rules: seq<Rule>, message: Option<string>, code: Option<int>)
    requires code.None? || code == Some(0)
    ensures MatchError(rules, code, message) == MatchError(rules, None, message)
    ensures MatchError(rules, code, message).Some? ==> PatternMatches(MatchError(rules, code, message).value, message)
  {
    assert forall r :: Matches(r, code, message) <==> Matches(r, None, message);
  }

  // ---------------------------------------------------------------- processError

  /** What `processError` decides: the retry action, the matched rule, the health state to
      store (if any) and whether to deactivate the credential. */
  datatype Outcome = Outcome(action: string, rule: Option<Rule>, salud: Option<string>, setInactive: bool)

  function Classify(rules: seq<Rule>, code: Option<int>, message: Option<string>, isWarmer: bool): (o: Outcome)
    ensures o.rule == MatchError(rules, code, message)
    ensures o.rule.None? ==> o.action == (if isWarmer then DefaultWarmerAction else DefaultNormalAction)
                             && o.salud.None? && !o.setInactive
    ensures o.rule.Some? ==> o.action == (if isWarmer then o.rule.value.actionWarmer else o.rule.value.actionNormal)
                             && o.salud == o.rule.value.salud && o.setInactive == o.rule.value.setInactive
  {
    match MatchError(rules, code, message)
    case None => Outcome(if isWarmer then DefaultWarmerAction else DefaultNormalAction, None, None, false)
    case Some(rule) =>
      Outcome(if isWarmer then rule.actionWarmer else rule.actionNormal, Some(rule), rule.salud, rule.setInactive)
  }

  /** The credential update of `processError`: one more consecutive failure and the truncated
      message always; the health state (and deactivation) only when the outcome names one.
      An empty health state is falsy in the source and counts as none. */
  function RecordFailure(a: Account, o: Outcome, message: Option<string>): (r: Account)
    ensures r.fails == a.fails + 1
    ensures r.ultimoError == Some(Take(message.GetOr(""), ErrorMessageLimit))
    ensures Truthy(o.salud) ==> r.salud == o.salud && r.estado == (if o.setInactive then Inactive else a.estado)
    ensures !Truthy(o.salud) ==> r.salud == a.salud && r.estado == a.estado
    ensures r.(fails := a.fails, ultimoError := a.ultimoError, salud := a.salud, estado := a.estado) == a
  {
    var b := a.(fails := a.fails + 1, ultimoError := Some(Take(message.GetOr(""), ErrorMessageLimit)));
    if Truthy(o.salud) then
      b.(salud := o.salud, estado := if o.setInactive then Inactive else a.estado)
    else b
  }

  /** The parameters of `processError`. */
  datatype ErrorReport = ErrorReport(
    accountId: Id,
    actionId: Option<Id>,
    moduleName: Option<string>,
    code: Option<int>,
    message: Option<string>
  )

  function LogRow(p: ErrorReport, o: Outcome): ErrorLogRow {
    ErrorLogRow(
      p.accountId,
      if p.actionId == Some(0) then None else p.actionId,
      if p.moduleName == Some("") then None else p.moduleName,
      CodeNumber(p.code),
      Take(p.message.GetOr(""), LogMessageLimit),
      if o.rule.Some? then Some(o.rule.value.id) else None,
      o.action)
  }

  /** `processError(connection, p, isWarmer)` with `rules` the cached rule list. `logged` says
      whether the `error_log` insert succeeded: a failed insert is swallowed and the credential
      update still happens. */
  function ProcessError(db: Db, rules: seq<Rule>, p: ErrorReport, isWarmer: bool, logged: bool): (r: (Db, Outcome))
    ensures r.1 == Classify(rules, p.code, p.message, isWarmer)
    ensures logged ==> r.0.errorLog == db.errorLog + [LogRow(p, r.1)]
    ensures !logged ==> r.0.errorLog == db.errorLog
    ensures p.accountId in db.accounts ==>
              r.0.accounts == db.accounts[p.accountId := RecordFailure(db.accounts[p.accountId], r.1, p.message)]
    ensures p.accountId !in db.accounts ==> r.0.accounts == db.accounts
    ensures r.0.(errorLog := db.errorLog, accounts := db.accounts) == db
  {
    var o := Classify(rules, p.code, p.message, isWarmer);
    var db1 := if logged then db.(errorLog := db.errorLog + [LogRow(p, o)]) else db;
    var db2 :=
      if p.accountId in db1.accounts
      then db1.(accounts := db1.accounts[p.accountId := RecordFailure(db1.accounts[p.accountId], o, p.message)])
      else db1;
    (db2, o)
  }

  /** A code rule for 429 with health `rate_limited` and no deactivation: a 429 failure stores
      `rate_limited`, keeps the credential's activation state and counts the failure. */
  lemma RateLimitScenario(db: Db, rule: Rule, id: Id, message: Option<string>, logged: bool)
    requires rule.code == Some(429) && rule.salud == Some(RateLimited) && !rule.setInactive
    requires id in db.accounts
    ensures var r := ProcessError(db, [rule], ErrorReport(id, None, None, Some(429), message), false, logged);
            && r.0.accounts[id].salud == Some(RateLimited)
            && r.0.accounts[id].estado == db.accounts[id].estado
            && r.0.accounts[id].fails == db.accounts[id].fails + 1
            && r.1.action == rule.actionNormal
  {
    assert Matches(rule, Some(429), message);
  }
}

=== FILE: registry.dfy ===
/** The in-memory connection registry: for every account, the set of open monitor sockets
    and the set of open panel sockets. */
module Registry {
  import opened Store

  datatype Registry = Registry(monitors: map<Id, set<SocketId>>, panels: map<Id, set<SocketId>>)

  const Empty := Registry(map[], map[])

  /** An account appears in a map only while it has at least one socket. */
  predicate NoEmptyEntry(m: map<Id, set<SocketId>>) {
    forall u :: u in m ==> m[u] != {}
  }

  predicate Valid(reg: Registry) {
    NoEmptyEntry(reg.monitors) && NoEmptyEntry(reg.panels)
  }

  /** `map.get(userId) || new Set()`. */
  function Get(m: map<Id, set<SocketId>>, u: Id): set<SocketId> {
    if u in m then m[u] else {}
  }

  function Add(m: map<Id, set<SocketId>>, u: Id, s: SocketId): (r: map<Id, set<SocketId>>)
    ensures Get(r, u) == Get(m, u) + {s}
    ensures forall v :: v != u ==> Get(r, v) == Get(m, v)
    ensures r.Keys == m.Keys + {u}
    ensures NoEmptyEntry(m) ==> NoEmptyEntry(r)
  {
    m[u := Get(m, u) + {s}]
  }

  /** Deletes the socket; drops the account's entry when it empties and then reports true. */
  function Remove(m: map<Id, set<SocketId>>, u: Id, s: SocketId): (r: (map<Id, set<SocketId>>, bool))
    ensures Get(r.0, u) == Get(m, u) - {s}
    ensures forall v :: v != u ==> Get(r.0, v) == Get(m, v)
    ensures r.1 <==> u in m && m[u] - {s} == {}
    ensures NoEmptyEntry(m) ==> NoEmptyEntry(r.0)
    ensures NoEmptyEntry(m) ==> (r.1 <==> u in m && u !in r.0)
  {
    if u in m then
      var rest := m[u] - {s};
      if rest == {} then (m - {u}, true) else (m[u := rest], false)
    else (m, false)
  }

  function AddMonitor(reg: Registry, u: Id, s: SocketId): (r: Registry)
    ensures GetMonitors(r, u) == GetMonitors(reg, u) + {s}
    ensures forall v :: v != u ==> GetMonitors(r, v) == GetMonitors(reg, v)
    ensures r.panels == reg.panels
    ensures Valid(reg) ==> Valid(r)
  {
    reg.(monitors := Add(reg.monitors, u, s))
  }

  /** `removeMonitor`: the new registry, and whether that was the account's last monitor. */
  function RemoveMonitor(reg: Registry, u: Id, s: SocketId): (r: (Registry, bool))
    ensures GetMonitors(r.0, u) == GetMonitors(reg, u) - {s}
    ensures forall v :: v != u ==> GetMonitors(r.0, v) == GetMonitors(reg, v)
    ensures r.0.panels == reg.panels
    ensures Valid(reg) ==> Valid(r.0)
    ensures Valid(reg) ==> (r.1 <==> GetMonitors(reg, u) != {} && GetMonitors(r.0, u) == {})
  {
    var (m, last) := Remove(reg.monitors, u, s);
    (reg.(monitors := m), last)
  }

  function AddPanel(reg: Registry, u: Id, s: SocketId): (r: Registry)
    ensures GetPanels(r, u) == GetPanels(reg, u) + {s}
    ensures forall v :: v != u ==> GetPanels(r, v) == GetPanels(reg, v)
    ensures r.monitors == reg.monitors
    ensures Valid(reg) ==> Valid(r)
  {
    reg.(panels := Add(reg.panels, u, s))
  }

  function RemovePanel(reg: Registry, u: Id, s: SocketId): (r: Registry)
    ensures GetPanels(r, u) == GetPanels(reg, u) - {s}
    ensures forall v :: v != u ==> GetPanels(r, v) == GetPanels(reg, v)
    ensures r.monitors == reg.monitors
    ensures Valid(reg) ==> Valid(r)
  {
    reg.(panels := Remove(reg.panels, u, s).0)
  }

  function GetMonitors(reg: Registry, u: Id): set<SocketId> {
    Get(reg.monitors, u)
  }

  function GetPanels(reg: Registry, u: Id): set<SocketId> {
    Get(reg.panels, u)
  }

  /** Registering a fresh socket and removing it again restores the registry exactly. */
  lemma AddRemoveMonitor(reg: Registry, u: Id, s: SocketId)
    requires Valid(reg) && s !in GetMonitors(reg, u)
    ensures RemoveMonitor(AddMonitor(reg, u, s), u, s).0 == reg
    ensures RemoveMonitor(AddMonitor(reg, u, s), u, s).1 <==> GetMonitors(reg, u) == {}
  {
    var m := RemoveMonitor(AddMonitor(reg, u, s), u, s).0.monitors;
    assert m.Keys == reg.monitors.Keys;
    forall v | v in m ensures m[v] == reg.monitors[v] {
      assert Get(m, v) == Get(reg.monitors, v);
    }
  }

  lemma AddRemovePanel(reg: Registry, u: Id, s: SocketId)
    requires Valid(reg) && s !in GetPanels(reg, u)
    ensures RemovePanel(AddPanel(reg, u, s), u, s) == reg
  {
    var m := RemovePanel(AddPanel(reg, u, s), u, s).panels;
    assert m.Keys == reg.panels.Keys;
    forall v | v in m ensures m[v] == reg.panels[v] {
      assert Get(m, v) == Get(reg.panels, v);
    }
  }

  /** The send loop of a broadcast: every target whose socket is open receives the message
      exactly once; closed sockets are skipped. */
  method SendToOpen(targets: set<SocketId>, open: set<SocketId>) returns (sent: seq<SocketId>)
    ensures forall x :: x in sent <==> x in targets && x in open
    ensures forall i, j :: 0 <= i < j < |sent| ==> sent[i] != sent[j]
  {
    sent := [];
    var remaining := targets;
    while remaining != {}
      invariant remaining <= targets
      invariant forall x :: x in sent <==> x in targets - remaining && x in open
      invariant forall i, j :: 0 <= i < j < |sent| ==> sent[i] != sent[j]
      decreases remaining
    {
      var x :| x in remaining;
      if x in open {
        sent := sent + [x];
      }
      remaining := remaining - {x};
    }
  }

  /** `broadcastToPanels`: the panel sockets of the account that are open. */
  method BroadcastToPanels(reg: Registry, u: Id, open: set<SocketId>) returns (sent: seq<SocketId>)
    ensures forall x :: x in sent <==> x in GetPanels(reg, u) && x in open
    ensures forall i, j :: 0 <= i < j < |sent| ==> sent[i] != sent[j]
  {
    sent := SendToOpen(GetPanels(reg, u), open);
  }

  /** `broadcastToMonitors`: the monitor sockets of the account that are open. */
  method BroadcastToMonitors(reg: Registry, u: Id, open: set<SocketId>) returns (sent: seq<SocketId>)
    ensures forall x :: x in sent <==> x in GetMonitors(reg, u) && x in open
    ensures forall i, j :: 0 <= i < j < |sent| ==> sent[i] != sent[j]
  {
    sent := SendToOpen(GetMonitors(reg, u), open);
  }
}

=== FILE: router.dfy ===
/** The message router of the server entry point: which handler a message reaches given the
    socket's session, and the ping/pong liveness flag that reaps silent connections. */
module Router {
  import opened Wrappers
  import opened Store
  import opened Session

  /** Which kinds of client a message type is accepted from. */
  datatype Audience = AnyRole | MonitorOnly | PanelOnly

  const AuthType := "auth"
  const PanelTypes: set<string> := {"new_action", "stop_action"}
  const AnyRoleTypes: set<string> := {"task_accepted", "task_rejected"}

  /** The message types the router hands to a handler after `auth`. `stop_action`,
      `scraping_next_batch`, `scraping_result_batch` and `scraping_job_complete` are routed to
      handlers whose code is not part of this model. */
  const MonitorTypes: set<string> := {
    "request_action", "status", "progreso", "tweet_snapshot", "token_fail", "token_success",
    "request_token", "token_report", "request_token_batch", "token_report_batch",
    "request_warmer_job", "warmer_next", "warmer_result",
    "request_scraping_job", "scraping_next", "scraping_next_batch", "scraping_result",
    "scraping_result_batch", "scraping_job_complete", "scraper_account_fail",
    "scraper_account_success", "update", "log"
  }

  function AudienceOf(t: string): Audience {
    if t in PanelTypes then PanelOnly else if t in AnyRoleTypes then AnyRole else MonitorOnly
  }

  predicate Handled(t: string) {
    t in PanelTypes || t in AnyRoleTypes || t in MonitorTypes
  }

  /** A decoded message: its `type` and its `token` field. */
  datatype Message = Message(msgType: string, token: Option<string>)

  datatype Route = Ignored | ToAuth | ToHandler(msgType: string)

  predicate Admits(a: Audience, sock: Socket) {
    match a
    case AnyRole => true
    case MonitorOnly => sock.clientType == MonitorClient
    case PanelOnly => sock.clientType == PanelClient
  }

  /** The router: `None` stands for a message that does not parse, whose error is caught and
      dropped. Every branch but `auth` also needs a logged-in socket. */
  function Dispatch(m: Option<Message>, sock: Socket): (r: Route)
    ensures m.None? ==> r == Ignored
    ensures r == ToAuth <==> m.Some? && m.value.msgType == AuthType && Truthy(m.value.token)
    ensures r.ToHandler? ==> m.Some? && r.msgType == m.value.msgType && sock.isAlive && TruthyNat(sock.userId)
    ensures r.ToHandler? ==> Handled(r.msgType)
    ensures r.ToHandler? && r.msgType in PanelTypes ==> sock.clientType == PanelClient
    ensures r.ToHandler? && r.msgType !in PanelTypes && r.msgType !in AnyRoleTypes ==> sock.clientType == MonitorClient
  {
    if m.None? then Ignored
    else if m.value.msgType == AuthType && Truthy(m.value.token) then ToAuth
    else if sock.isAlive && TruthyNat(sock.userId) && Handled(m.value.msgType) && Admits(AudienceOf(m.value.msgType), sock)
    then ToHandler(m.value.msgType)
    else Ignored
  }

  /** A socket that has not authenticated reaches nothing but `auth`. */
  lemma UnauthenticatedOnlyAuthenticates(m: Option<Message>, sock: Socket)
    requires !sock.isAlive || !TruthyNat(sock.userId)
    ensures Dispatch(m, sock) == Ignored || Dispatch(m, sock) == ToAuth
  {
  }

  /** Every monitor message type reaches its handler from a logged-in monitor, and from no
      panel. */
  lemma MonitorTypesReachable(sock: Socket, t: string)
    requires sock.isAlive && TruthyNat(sock.userId)
    requires t in MonitorTypes
    ensures Dispatch(Some(Message(t, None)), sock) == (if sock.clientType == MonitorClient then ToHandler(t) else Ignored)
  {
  }

  /** Every panel message type reaches its handler from a logged-in panel, and from no monitor. */
  lemma PanelTypesReachable(sock: Socket, t: string)
    requires sock.isAlive && TruthyNat(sock.userId)
    requires t in PanelTypes
    ensures Dispatch(Some(Message(t, None)), sock) == (if sock.clientType == PanelClient then ToHandler(t) else Ignored)
  {
  }

  /** A type the router has no case for reaches no handler, whoever sends it. */
  lemma UnknownTypesIgnored(sock: Socket, t: string, token: Option<string>)
    requires !Handled(t) && t != AuthType
    ensures Dispatch(Some(Message(t, token)), sock) == Ignored
  {
  }

  /** Task acceptance and rejection are honoured from a logged-in socket of either role. */
  lemma TaskRepliesFromAnyRole(sock: Socket, t: string)
    requires sock.isAlive && TruthyNat(sock.userId)
    requires t in AnyRoleTypes
    ensures Dispatch(Some(Message(t, None)), sock) == ToHandler(t)
  {
  }

  /** The heartbeat flag of one socket, and whether the sweep has terminated it. */
  datatype Liveness = Liveness(aliveWs: bool, terminated: bool)

  /** A heartbeat sweep, or a pong frame arriving from the peer. */
  datatype Beat = Tick | Pong

  /** A new connection counts as alive. */
  const Fresh := Liveness(true, false)

  /** The sweep terminates a socket whose flag is still down and otherwise lowers the flag and
      pings; a pong raises the flag. A terminated socket is no longer swept. */
  function Step(l: Liveness, b: Beat): (r: Liveness)
    ensures l.terminated ==> r.terminated
    ensures b == Pong && !l.terminated ==> r == Liveness(true, false)
    ensures b == Tick && !l.terminated ==> (r.terminated <==> !l.aliveWs) && !r.aliveWs
  {
    if l.terminated then l
    else match b
      case Pong => l.(aliveWs := true)
      case Tick => if !l.aliveWs then l.(terminated := true) else l.(aliveWs := false)
  }

  /** The liveness of a socket after the beats `bs` since it connected. */
  function Replay(bs: seq<Beat>): Liveness {
    if bs == [] then Fresh else Step(Replay(bs[..|bs| - 1]), bs[|bs| - 1])
  }

  /** Two sweeps with no pong in between. */
  predicate MissedTwice(bs: seq<Beat>) {
    exists i :: 0 <= i < |bs| - 1 && bs[i] == Tick && bs[i + 1] == Tick
  }

  /** A socket is terminated exactly when two sweeps passed with no pong between them; while it
      lives, its flag is down exactly when the last beat was a sweep. */
  lemma {:induction false} TerminatedIffMissedTwice(bs: seq<Beat>)
    ensures Replay(bs).terminated <==> MissedTwice(bs)
    ensures !Replay(bs).terminated ==> (Replay(bs).aliveWs <==> bs == [] || bs[|bs| - 1] == Pong)
  {
    if bs != [] {
      var p := bs[..|bs| - 1];
      TerminatedIffMissedTwice(p);
      if MissedTwice(p) {
        var i :| 0 <= i < |p| - 1 && p[i] == Tick && p[i + 1] == Tick;
        assert bs[i] == Tick && bs[i + 1] == Tick;
      }
      if MissedTwice(bs) && !MissedTwice(p) {
        var i :| 0 <= i < |bs| - 1 && bs[i] == Tick && bs[i + 1] == Tick;
        assert i == |bs| - 2;
      }
      if !MissedTwice(p) && bs[|bs| - 1] == Tick && p != [] && p[|p| - 1] == Tick {
        assert bs[|bs| - 2] == Tick;
      }
    }
  }
}

=== FILE: scraping.dfy ===
/** Scraping campaigns: a worker claims the oldest queued job, walks its targets one at a time
    through a cursor stored in the job's filters (`_last_id`), and reports each result; it
    also reports the health of the scraper credentials it uses. */
module Scraping {
  import opened Wrappers
  import opened Text
  import opened Store
  import opened Select

  const HealthJob := "xchecker_health"
  const NicksJob := "xwarmer_nicks"
  const ScrapingError := "scraping error"
  const NoValidTweets := "sin tweets v\U{E1}lidos"
  const ScraperFailed := "failed"
  const ScraperProxyError := "proxy_error"
  const ScraperErrorLimit := 500

  datatype ScrapingReply =
    | NoScrapingJob
    | ScrapingJobReply(id: Id, scrapers: seq<Id>)
    | ScrapingTarget(jobId: Id, targetId: Id)
    | ScrapingDone(jobId: Id, total: int, exitosos: nat, errores: nat)
    | ScrapingFailed(jobId: Id, error: string)
    | NoReply
    | ScrapingAck(ok: bool)

  function ByLastUse(scrapers: map<Id, Scraper>): nat -> nat {
    (id: nat) => if id in scrapers then NullsFirst(scrapers[id].lastUse) else 0
  }

  function QueuedJobs(db: Db): set<Id> {
    set id | id in db.scrapingJobs && db.scrapingJobs[id].estado == Queued
  }

  function ActiveScrapers(db: Db): set<Id> {
    set id | id in db.scrapers && db.scrapers[id].estado == Active
  }

  /** `handleRequestScrapingJob`: the oldest queued job starts under this worker, and the reply
      carries every active scraper credential, least recently used first. */
  function RequestScrapingJob(db: Db, sock: Socket, now: Time): (r: (Db, ScrapingReply))
    ensures r.1.NoScrapingJob? <==> QueuedJobs(db) == {}
    ensures r.1.NoScrapingJob? ==> r.0 == db
    ensures r.1.ScrapingJobReply? ==>
              var id := r.1.id;
              && id in QueuedJobs(db)
              && (forall k :: k in QueuedJobs(db) ==>
                    db.scrapingJobs[id].createdAt < db.scrapingJobs[k].createdAt
                    || (db.scrapingJobs[id].createdAt == db.scrapingJobs[k].createdAt && id <= k))
              && r.0 == db.(scrapingJobs := db.scrapingJobs[id := db.scrapingJobs[id].(
                                estado := InProgress, workerId := sock.workerId, startedAt := Some(now))])
              && (forall x :: x in r.1.scrapers <==> x in ActiveScrapers(db))
              && (forall i :: 0 <= i < |r.1.scrapers| ==> r.1.scrapers[i] in db.scrapers)
              && (forall i, j :: 0 <= i < j < |r.1.scrapers| ==>
                    NullsFirst(db.scrapers[r.1.scrapers[i]].lastUse) <= NullsFirst(db.scrapers[r.1.scrapers[j]].lastUse))
    ensures r.1.NoScrapingJob? || r.1.ScrapingJobReply?
  {
    var q := QueuedJobs(db);
    if q == {} then (db, NoScrapingJob)
    else
      var id := Least(q, ByJobCreation(db.scrapingJobs));
      var pool := ActiveScrapers(db);
      (db.(scrapingJobs := db.scrapingJobs[id := db.scrapingJobs[id].(
             estado := InProgress, workerId := sock.workerId, startedAt := Some(now))]),
       ScrapingJobReply(id, FirstN(pool, ByLastUse(db.scrapers), |pool|)))
  }

  /** The id after which the next target is searched. A health job ignores its stored cursor
      until it has processed at least one result. */
  function Cursor(j: ScrapingJob): nat {
    if j.tipo == HealthJob then (if j.procesados > 0 then j.filtros.lastId.GetOr(0) else 0)
    else j.filtros.lastId.GetOr(0)
  }

  /** The optional filters of a health job. */
  predicate HealthFilter(f: Filters, a: Account) {
    && (TruthyNat(f.deckId) ==> a.deckId == f.deckId)
    && (Truthy(f.estado) ==> a.estado == f.estado.value)
  }

  /** The optional filters of a nick job. */
  predicate NickFilter(f: Filters, n: Nick) {
    && (Truthy(f.grupo) ==> n.grupo == f.grupo)
    && (Truthy(f.estado) ==> n.estado == f.estado.value)
  }

  /** Targets of the job's kind that match its filters (regardless of the cursor). */
  function Matching(db: Db, j: ScrapingJob): set<Id> {
    if j.tipo == HealthJob then set id | id in db.accounts && HealthFilter(j.filtros, db.accounts[id])
    else if j.tipo == NicksJob then set id | id in db.nicks && NickFilter(j.filtros, db.nicks[id])
    else {}
  }

  /** Matching targets after the cursor: what the job still has to visit. */
  function Pending(db: Db, job: Id): set<Id>
    requires job in db.scrapingJobs
  {
    set id | id in Matching(db, db.scrapingJobs[job]) && id > Cursor(db.scrapingJobs[job])
  }

  function Complete(j: ScrapingJob, now: Time): ScrapingJob {
    j.(estado := Completed, completedAt := Some(now), total := j.procesados)
  }

  /** `handleScrapingNext`: the matching target with the smallest id after the cursor, which
      becomes the new cursor; none left completes the job with its processed count as total. */
  function ScrapingNext(db: Db, jobId: Option<Id>, now: Time): (r: (Db, ScrapingReply))
    ensures !TruthyNat(jobId) ==> r == (db, ScrapingFailed(0, "missing job_id"))
    ensures TruthyNat(jobId) && jobId.value !in db.scrapingJobs ==> r == (db, ScrapingFailed(jobId.value, "job not found"))
    ensures TruthyNat(jobId) && jobId.value in db.scrapingJobs ==>
              var id, j := jobId.value, db.scrapingJobs[jobId.value];
              && (j.tipo != HealthJob && j.tipo != NicksJob ==> r == (db, NoReply))
              && (j.tipo == HealthJob || j.tipo == NicksJob ==>
                    && (Pending(db, id) == {} ==> r == (db.(scrapingJobs := db.scrapingJobs[id := Complete(j, now)]),
                                                        ScrapingDone(id, j.procesados, j.exitosos, j.errores)))
                    && (Pending(db, id) != {} ==>
                          && r.1.ScrapingTarget? && r.1.jobId == id
                          && r.1.targetId in Pending(db, id)
                          && (forall k :: k in Pending(db, id) ==> r.1.targetId <= k)
                          && r.0 == db.(scrapingJobs := db.scrapingJobs[id := j.(filtros := j.filtros.(lastId := Some(r.1.targetId)))])))
  {
    if !TruthyNat(jobId) then (db, ScrapingFailed(0, "missing job_id"))
    else
      var id := jobId.value;
      if id !in db.scrapingJobs then (db, ScrapingFailed(id, "job not found"))
      else
        var j := db.scrapingJobs[id];
        if j.tipo != HealthJob && j.tipo != NicksJob then (db, NoReply)
        else
          var p := Pending(db, id);
          if p == {} then
            (db.(scrapingJobs := db.scrapingJobs[id := Complete(j, now)]), ScrapingDone(id, j.procesados, j.exitosos, j.errores))
          else
            var t := Least(p, ById);
            (db.(scrapingJobs := db.scrapingJobs[id := j.(filtros := j.filtros.(lastId := Some(t)))]), ScrapingTarget(id, t))
  }

  /** Each target handed out moves the cursor past exactly one pending target. */
  lemma NextShrinksPending(db: Db, job: Id, now: Time)
    requires job != 0 && job in db.scrapingJobs
    requires ScrapingNext(db, Some(job), now).1.ScrapingTarget?
    requires db.scrapingJobs[job].tipo == NicksJob || db.scrapingJobs[job].procesados > 0
    ensures var r := ScrapingNext(db, Some(job), now);
            Pending(r.0, job) == Pending(db, job) - {r.1.targetId}
  {
    var r := ScrapingNext(db, Some(job), now);
    var t := r.1.targetId;
    assert Matching(r.0, r.0.scrapingJobs[job]) == Matching(db, db.scrapingJobs[job]);
    assert Cursor(r.0.scrapingJobs[job]) == t;
  }

  /** `k` successive `scraping_next` calls on a job with no results reported in between. */
  function Walk(db: Db, job: Id, k: nat, now: Time): Db
    requires job != 0
  {
    if k == 0 then db else ScrapingNext(Walk(db, job, k - 1, now), Some(job), now).0
  }

  /** A nick job visits its pending targets one by one and then completes: after as many calls as
      it had pending targets, the next call finishes the job. */
  lemma {:induction false} NickWalkCompletes(db: Db, job: Id, k: nat, now: Time)
    requires job != 0 && job in db.scrapingJobs && db.scrapingJobs[job].tipo == NicksJob
    requires k <= |Pending(db, job)|
    ensures var w := Walk(db, job, k, now);
            && job in w.scrapingJobs && w.scrapingJobs[job].tipo == NicksJob
            && |Pending(w, job)| == |Pending(db, job)| - k
    ensures k == |Pending(db, job)| ==> ScrapingNext(Walk(db, job, k, now), Some(job), now).1.ScrapingDone?
  {
    var w := Walk(db, job, k, now);
    if k > 0 {
      NickWalkCompletes(db, job, k - 1, now);
      var v := Walk(db, job, k - 1, now);
      NickStep(v, job, now);
      assert w == ScrapingNext(v, Some(job), now).0;
    }
    assert job in w.scrapingJobs && |Pending(w, job)| == |Pending(db, job)| - k;
    if k == |Pending(db, job)| {
      assert Pending(w, job) == {};
    }
  }

  /** One call on a nick job with targets left keeps it a nick job with one target fewer. */
  lemma NickStep(w: Db, job: Id, now: Time)
    requires job != 0 && job in w.scrapingJobs && w.scrapingJobs[job].tipo == NicksJob
    requires Pending(w, job) != {}
    ensures var r := ScrapingNext(w, Some(job), now).0;
            && job in r.scrapingJobs && r.scrapingJobs[job].tipo == NicksJob
            && |Pending(r, job)| == |Pending(w, job)| - 1
  {
    NextShrinksPending(w, job, now);
  }

  /** The parsed `profile` of a health result. */
  datatype Profile = Profile(screenName: Option<string>, twitterUserId: Option<string>,
                             followers: Option<nat>, following: Option<nat>)

  /** The parsed `result` of a scraping report, covering both job kinds. */
  datatype ScrapeResult = ScrapeResult(
    estadoSalud: Option<string>,
    nick: Option<string>,
    profile: Option<Profile>,
    errorMsg: Option<string>,
    userid: Option<string>,
    tweets: Option<seq<string>>,
    tweetsJson: string,
    comentario: Option<string>
  )

  datatype ResultMsg = ResultMsg(
    jobId: Option<Id>,
    targetId: Option<Id>,
    targetType: Option<string>,
    status: Option<string>,
    result: Option<ScrapeResult>,
    errorMsg: Option<string>
  )

  /** Health states that also deactivate the credential. */
  predicate Disabling(salud: string) {
    salud == Suspended || salud == LockedHealth || salud == LoggedOut
  }

  /** The credential row after a health check report. */
  function HealthUpdate(a: Account, ok: bool, result: Option<ScrapeResult>, errorMsg: Option<string>): (b: Account)
    ensures !(ok && result.Some?) ==> b == a.(ultimoError := Some(if Truthy(errorMsg) then errorMsg.value else ScrapingError), fails := a.fails + 1)
    ensures ok && result.Some? ==>
              var salud := if Truthy(result.value.estadoSalud) then result.value.estadoSalud.value else Healthy;
              && (salud == Healthy && result.value.profile.Some? ==>
                    b.estado == Active && b.salud == Some(Healthy) && b.fails == 0 && b.ultimoError.None?)
              && (salud == Healthy && result.value.profile.Some? ==>
                    var p := result.value.profile.value;
                    && b.nick == (if Truthy(p.screenName) then p.screenName else result.value.nick)
                    && b.twitterUserId == p.twitterUserId
                    && b.followers == p.followers.GetOr(0) && b.following == p.following.GetOr(0))
              && (!(salud == Healthy && result.value.profile.Some?) ==>
                    && b.salud == Some(salud) && b.fails == a.fails + 1
                    && b.estado == (if Disabling(salud) then Inactive else a.estado)
                    && b.ultimoError == Some(if Truthy(result.value.errorMsg) then result.value.errorMsg.value else UnknownError)
                    && b.nick == a.nick && b.twitterUserId == a.twitterUserId
                    && b.followers == a.followers && b.following == a.following)
    ensures b.(nick := a.nick, twitterUserId := a.twitterUserId, estado := a.estado, salud := a.salud,
               followers := a.followers, following := a.following, fails := a.fails, ultimoError := a.ultimoError) == a
  {
    if ok && result.Some? then
      var r := result.value;
      var salud := if Truthy(r.estadoSalud) then r.estadoSalud.value else Healthy;
      if salud == Healthy && r.profile.Some? then
        var p := r.profile.value;
        a.(nick := if Truthy(p.screenName) then p.screenName else r.nick, twitterUserId := p.twitterUserId,
           estado := Active, salud := Some(Healthy), followers := p.followers.GetOr(0), following := p.following.GetOr(0),
           fails := 0, ultimoError := None)
      else
        a.(estado := if Disabling(salud) then Inactive else a.estado, salud := Some(salud),
           ultimoError := Some(if Truthy(r.errorMsg) then r.errorMsg.value else UnknownError), fails := a.fails + 1)
    else a.(ultimoError := Some(if Truthy(errorMsg) then errorMsg.value else ScrapingError), fails := a.fails + 1)
  }

  /** The nick row after a nick scrape report: active with its tweets only when some came back. */
  function NickUpdate(n: Nick, ok: bool, result: Option<ScrapeResult>, errorMsg: Option<string>): (m: Nick)
    ensures m.estado == Active <==> ok && result.Some? && result.value.tweets.Some? && |result.value.tweets.value| > 0
    ensures m.estado != Active ==> m.estado == Inactive && m.tweets == [] && m.tweetsRaw == Some("[]")
    ensures m.estado == Active ==> m.tweets == result.value.tweets.value && m.comentario == Some("")
                                   && m.tweetsRaw == Some(result.value.tweetsJson)
    ensures ok && result.Some? ==> m.userid == (if Truthy(result.value.userid) then result.value.userid else None)
    ensures ok && result.Some? && m.estado != Active ==>
              m.comentario == Some(if Truthy(result.value.comentario) then result.value.comentario.value else NoValidTweets)
    ensures !(ok && result.Some?) ==>
              m.userid == n.userid && m.comentario == Some(if Truthy(errorMsg) then errorMsg.value else ScrapingError)
    ensures m.(estado := n.estado, userid := n.userid, tweetsRaw := n.tweetsRaw, tweets := n.tweets, comentario := n.comentario) == n
  {
    if ok && result.Some? then
      var r := result.value;
      if r.tweets.Some? && |r.tweets.value| > 0 then
        n.(estado := Active, userid := if Truthy(r.userid) then r.userid else None,
           tweetsRaw := Some(r.tweetsJson), tweets := r.tweets.value, comentario := Some(""))
      else
        n.(estado := Inactive, userid := if Truthy(r.userid) then r.userid else None, tweetsRaw := Some("[]"), tweets := [],
           comentario := Some(if Truthy(r.comentario) then r.comentario.value else NoValidTweets))
    else n.(estado := Inactive, comentario := Some(if Truthy(errorMsg) then errorMsg.value else ScrapingError),
            tweetsRaw := Some("[]"), tweets := [])
  }

  /** Job counters: one more processed target, counted as a success or an error. */
  function CountResult(j: ScrapingJob, ok: bool): (k: ScrapingJob)
    ensures k.procesados == j.procesados + 1
    ensures k.exitosos + k.errores == j.exitosos + j.errores + 1
    ensures ok ==> k.exitosos == j.exitosos + 1
    ensures !ok ==> k.errores == j.errores + 1
    ensures k.(procesados := j.procesados, exitosos := j.exitosos, errores := j.errores) == j
  {
    if ok then j.(procesados := j.procesados + 1, exitosos := j.exitosos + 1)
    else j.(procesados := j.procesados + 1, errores := j.errores + 1)
  }

  /** `handleScrapingResult`: count the result on the job, then apply it to the target named by
      `target_type`. */
  function ScrapingResult(db: Db, m: ResultMsg): (r: (Db, ScrapingReply))
    ensures !TruthyNat(m.jobId) || !TruthyNat(m.targetId) ==> r == (db, ScrapingAck(false))
    ensures TruthyNat(m.jobId) && TruthyNat(m.targetId) ==>
              var job, t, ok := m.jobId.value, m.targetId.value, m.status == Some(OkStatus);
              && r.1 == ScrapingAck(true)
              && r.0.scrapingJobs == (if job in db.scrapingJobs then db.scrapingJobs[job := CountResult(db.scrapingJobs[job], ok)]
                                      else db.scrapingJobs)
              && r.0.accounts == (if m.targetType == Some(HealthJob) && t in db.accounts
                                  then db.accounts[t := HealthUpdate(db.accounts[t], ok, m.result, m.errorMsg)] else db.accounts)
              && r.0.nicks == (if m.targetType == Some(NicksJob) && t in db.nicks
                               then db.nicks[t := NickUpdate(db.nicks[t], ok, m.result, m.errorMsg)] else db.nicks)
    ensures r.0 == db.(scrapingJobs := r.0.scrapingJobs, accounts := r.0.accounts, nicks := r.0.nicks)
  {
    if !TruthyNat(m.jobId) || !TruthyNat(m.targetId) then (db, ScrapingAck(false))
    else
      var job, t, ok := m.jobId.value, m.targetId.value, m.status == Some(OkStatus);
      var db1 := if job in db.scrapingJobs then db.(scrapingJobs := db.scrapingJobs[job := CountResult(db.scrapingJobs[job], ok)]) else db;
      var db2 :=
        if m.targetType == Some(HealthJob) && t in db1.accounts then
          db1.(accounts := db1.accounts[t := HealthUpdate(db1.accounts[t], ok, m.result, m.errorMsg)])
        else if m.targetType == Some(NicksJob) && t in db1.nicks then
          db1.(nicks := db1.nicks[t := NickUpdate(db1.nicks[t], ok, m.result, m.errorMsg)])
        else db1;
      (db2, ScrapingAck(true))
  }

  lemma ResultKeepsBalance(db: Db, m: ResultMsg, job: Id)
    requires job in db.scrapingJobs && Balanced(db.scrapingJobs[job])
    ensures Balanced(ScrapingResult(db, m).0.scrapingJobs[job])
  {
  }

  /** A health job resumes after the target it handed out once a result has been counted. */
  lemma HealthCursorAdvances(db: Db, job: Id, now: Time, m: ResultMsg, now2: Time)
    requires job != 0 && job in db.scrapingJobs && db.scrapingJobs[job].tipo == HealthJob
    requires ScrapingNext(db, Some(job), now).1.ScrapingTarget?
    requires m.jobId == Some(job) && TruthyNat(m.targetId)
    ensures var r1 := ScrapingNext(db, Some(job), now);
            var db2 := ScrapingResult(r1.0, m).0;
            var r2 := ScrapingNext(db2, Some(job), now2).1;
            r2.ScrapingTarget? ==> r2.targetId > r1.1.targetId
  {
    var r1 := ScrapingNext(db, Some(job), now);
    var db2 := ScrapingResult(r1.0, m).0;
    assert db2.scrapingJobs[job].procesados > 0;
    assert Cursor(db2.scrapingJobs[job]) == r1.1.targetId;
  }

  /** The health state a scraper failure report sets. */
  function ScraperState(errorType: Option<string>): (s: string)
    ensures errorType == Some("rate_limit") ==> s == RateLimited
    ensures errorType == Some("proxy") ==> s == ScraperProxyError
    ensures errorType != Some("rate_limit") && errorType != Some("proxy") ==> s == ScraperFailed
  {
    if errorType == Some("rate_limit") then RateLimited
    else if errorType == Some("proxy") then ScraperProxyError
    else ScraperFailed
  }

  /** `handleScraperAccountFail`: the scraper is marked with the failure's kind and counts it. */
  function ScraperFail(db: Db, scraperId: Option<Id>, errorType: Option<string>, errorMsg: Option<string>): (r: (Db, ScrapingReply))
    ensures !TruthyNat(scraperId) ==> r == (db, NoReply)
    ensures TruthyNat(scraperId) ==> r.1 == ScrapingAck(true)
    ensures r.0.scrapers.Keys == db.scrapers.Keys
    ensures TruthyNat(scraperId) && scraperId.value in db.scrapers ==>
              var s, t := db.scrapers[scraperId.value], r.0.scrapers[scraperId.value];
              && t.estado == ScraperState(errorType) && t.fails == s.fails + 1 && t.lastUse == s.lastUse
              && t.ultimoError == Some(Take(errorMsg.GetOr(""), ScraperErrorLimit))
    ensures forall k :: k in db.scrapers && Some(k) != scraperId ==> r.0.scrapers[k] == db.scrapers[k]
    ensures r.0 == db.(scrapers := r.0.scrapers)
  {
    if !TruthyNat(scraperId) then (db, NoReply)
    else
      var id := scraperId.value;
      if id in db.scrapers then
        var s := db.scrapers[id];
        (db.(scrapers := db.scrapers[id := s.(estado := ScraperState(errorType), fails := s.fails + 1,
                                               ultimoError := Some(Take(errorMsg.GetOr(""), ScraperErrorLimit)))]),
         ScrapingAck(true))
      else (db, ScrapingAck(true))
  }

  /** `handleScraperAccountSuccess`: the scraper is active again with its failures cleared. */
  function ScraperSuccess(db: Db, scraperId: Option<Id>, now: Time): (r: Db)
    ensures !TruthyNat(scraperId) ==> r == db
    ensures r.scrapers.Keys == db.scrapers.Keys
    ensures TruthyNat(scraperId) && scraperId.value in db.scrapers ==>
              var s, t := db.scrapers[scraperId.value], r.scrapers[scraperId.value];
              t.estado == Active && t.fails == 0 && t.lastUse == Some(now) && t.ultimoError == s.ultimoError
    ensures forall k :: k in db.scrapers && Some(k) != scraperId ==> r.scrapers[k] == db.scrapers[k]
    ensures r == db.(scrapers := r.scrapers)
  {
    if TruthyNat(scraperId) && scraperId.value in db.scrapers then
      var s := db.scrapers[scraperId.value];
      db.(scrapers := db.scrapers[scraperId.value := s.(estado := Active, fails := 0, lastUse := Some(now))])
    else db
  }

  /** A scraper success after a failure restores it to the pool handed to workers. */
  lemma ScraperRecovers(db: Db, id: Id, errorType: Option<string>, errorMsg: Option<string>, now: Time)
    requires id != 0 && id in db.scrapers
    ensures var db1 := ScraperFail(db, Some(id), errorType, errorMsg).0;
            id !in ActiveScrapers(db1) && id in ActiveScrapers(ScraperSuccess(db1, Some(id), now))
  {
    var db1 := ScraperFail(db, Some(id), errorType, errorMsg).0;
    assert db1.scrapers[id].estado != Active;
  }
}

=== FILE: select.dfy ===
/** SQL `ORDER BY key ASC LIMIT n` over a table keyed by id. The store leaves the order of
    rows with equal keys open; the model breaks such ties by the smaller id, so every
    selection is deterministic. */
module Select {

  /** Row `a` sorts no later than row `b`: by key, then by id. */
  predicate Precedes(key: nat -> nat, a: nat, b: nat) {
    key(a) < key(b) || (key(a) == key(b) && a <= b)
  }

  /** `m` is the first row of `s` in that order. */
  predicate IsLeast(s: set<nat>, key: nat -> nat, m: nat) {
    m in s && forall y :: y in s ==> Precedes(key, m, y)
  }

  lemma {:induction false} LeastExists(s: set<nat>, key: nat -> nat)
    requires s != {}
    ensures exists m :: IsLeast(s, key, m)
    decreases |s|
  {
    var x :| x in s;
    if s != {x} {
      var rest := s - {x};
      LeastExists(rest, key);
      var m :| IsLeast(rest, key, m);
      if Precedes(key, x, m) {
        forall y | y in s
          ensures Precedes(key, x, y)
        {
          if y != x {
            assert y in rest && Precedes(key, m, y);
          }
        }
        assert IsLeast(s, key, x);
      } else {
        assert IsLeast(s, key, m);
      }
    } else {
      assert IsLeast(s, key, x);
    }
  }

  /** `LIMIT 1`: the first row of a non-empty candidate set. */
  function Least(s: set<nat>, key: nat -> nat): (m: nat)
    requires s != {}
    ensures IsLeast(s, key, m)
  {
    LeastExists(s, key);
    var m :| IsLeast(s, key, m);
    m
  }

  /** The key that orders rows by id alone (`ORDER BY id ASC`). */
  function ById(id: nat): nat {
    0
  }

  /** `LIMIT n`: the first `n` rows of `s` in order (all of them when `s` is smaller). */
  function FirstN(s: set<nat>, key: nat -> nat, n: nat): (r: seq<nat>)
    ensures |r| == if n < |s| then n else |s|
    ensures forall i :: 0 <= i < |r| ==> r[i] in s
    ensures forall i, j :: 0 <= i < j < |r| ==> r[i] != r[j] && Precedes(key, r[i], r[j])
    ensures forall y :: y in s && y !in r ==> forall i :: 0 <= i < |r| ==> Precedes(key, r[i], y)
    ensures n >= |s| ==> forall y :: y in s ==> y in r
    decreases n
  {
    if n == 0 || s == {} then []
    else
      var m := Least(s, key);
      [m] + FirstN(s - {m}, key, n - 1)
  }
}

=== FILE: session.dfy ===
/** The life of a connection: authentication (which registers the socket and, for a worker,
    returns orphaned jobs to the queue) and disconnection (which unregisters it and requeues
    only the departing worker's jobs). */
module Session {
  import opened Wrappers
  import opened Store
  import opened Select
  import opened Registry

  const SuperAdmin := "SuperAdministrador"
  const MonitorClient := "monitor"
  const PanelClient := "panel"
  const OnlineState := "Conectado"
  const OfflineState := "Desconectado"
  const InvalidToken := "Token inv\U{E1}lido"
  const ErrorLogType := "error"

  /** `cuentas` rows the token authenticates. */
  function Matching(db: Db, token: string): set<Id> {
    set id | id in db.cuentas && db.cuentas[id].token == Some(token) && db.cuentas[id].tipo == SuperAdmin
  }

  /** Job states a fresh worker of the account takes back from dead predecessors. */
  predicate OrphanedState(estado: string) {
    estado == Disconnected || estado == InProgress || estado == AwaitingAcceptance
  }

  function Requeue(a: Action): Action {
    a.(estado := Queued, workerId := None)
  }

  function RequeueWarmer(w: WarmerRow): WarmerRow {
    w.(estado := Queued, workerId := None)
  }

  function RequeueScraping(j: ScrapingJob): ScrapingJob {
    j.(estado := Queued, workerId := None, procesados := 0, exitosos := 0, errores := 0)
  }

  /** The three reset updates of a worker login: the account's orphaned jobs, and every
      warmer campaign and scraping job in progress (of any account). */
  function ResetOrphans(db: Db, u: Id): (r: Db)
    ensures r.actions.Keys == db.actions.Keys
    ensures forall id :: id in db.actions ==>
              r.actions[id] == (if db.actions[id].cuentasId == u && OrphanedState(db.actions[id].estado)
                                then Requeue(db.actions[id]) else db.actions[id])
    ensures forall id :: id in r.actions && r.actions[id].cuentasId == u ==> !OrphanedState(r.actions[id].estado)
    ensures r.warmerActions.Keys == db.warmerActions.Keys
    ensures forall id :: id in db.warmerActions ==>
              r.warmerActions[id] == (if db.warmerActions[id].estado == InProgress
                                      then RequeueWarmer(db.warmerActions[id]) else db.warmerActions[id])
    ensures forall id :: id in r.warmerActions ==> r.warmerActions[id].estado != InProgress
    ensures r.scrapingJobs.Keys == db.scrapingJobs.Keys
    ensures forall id :: id in db.scrapingJobs ==>
              r.scrapingJobs[id] == (if db.scrapingJobs[id].estado == InProgress
                                     then RequeueScraping(db.scrapingJobs[id]) else db.scrapingJobs[id])
    ensures forall id :: id in r.scrapingJobs ==> r.scrapingJobs[id].estado != InProgress
    ensures r == db.(actions := r.actions, warmerActions := r.warmerActions, scrapingJobs := r.scrapingJobs)
  {
    db.(actions := map id | id in db.actions ::
                     if db.actions[id].cuentasId == u && OrphanedState(db.actions[id].estado)
                     then Requeue(db.actions[id]) else db.actions[id],
        warmerActions := map id | id in db.warmerActions ::
                     if db.warmerActions[id].estado == InProgress then RequeueWarmer(db.warmerActions[id]) else db.warmerActions[id],
        scrapingJobs := map id | id in db.scrapingJobs ::
                     if db.scrapingJobs[id].estado == InProgress then RequeueScraping(db.scrapingJobs[id]) else db.scrapingJobs[id])
  }

  function SetMonitorState(db: Db, u: Id, state: string): (r: Db)
    ensures u in db.cuentas ==> r.cuentas == db.cuentas[u := db.cuentas[u].(estadoMonitor := Some(state))]
    ensures u !in db.cuentas ==> r == db
    ensures r == db.(cuentas := r.cuentas)
  {
    if u in db.cuentas then db.(cuentas := db.cuentas[u := db.cuentas[u].(estadoMonitor := Some(state))]) else db
  }

  datatype AuthReply = AuthOk | AuthFailed(error: string)

  datatype AuthResult = AuthResult(db: Db, reg: Registry, sock: Socket, reply: AuthReply)

  /** `handleAuth` for a message carrying `token`; `freshWorker` is the generated worker id. */
  function HandleAuth(db: Db, reg: Registry, sock: Socket, token: string, clientType: Option<string>, freshWorker: string): (r: AuthResult)
    ensures r.reply.AuthOk? <==> Matching(db, token) != {}
    ensures r.reply.AuthFailed? ==> r == AuthResult(db, reg, sock.(closed := true), AuthFailed(InvalidToken))
    ensures r.reply.AuthOk? ==>
              && r.sock.userId.Some? && r.sock.userId.value in Matching(db, token)
              && (forall k :: k in Matching(db, token) ==> r.sock.userId.value <= k)
              && r.sock.isAlive && r.sock.closed == sock.closed
              && r.sock.clientType == (if Truthy(clientType) then clientType.value else MonitorClient)
    ensures r.reply.AuthOk? && r.sock.clientType == MonitorClient ==>
              var u := r.sock.userId.value;
              && r.sock.workerId == Some(freshWorker)
              && r.reg == AddMonitor(reg, u, sock.id)
              && r.db == ResetOrphans(SetMonitorState(db, u, OnlineState), u)
    ensures r.reply.AuthOk? && r.sock.clientType == PanelClient ==>
              r.reg == AddPanel(reg, r.sock.userId.value, sock.id) && r.db == db && r.sock.workerId == sock.workerId
    ensures r.reply.AuthOk? && r.sock.clientType != MonitorClient && r.sock.clientType != PanelClient ==>
              r.reg == reg && r.db == db && r.sock.workerId == sock.workerId
  {
    var rows := Matching(db, token);
    if rows == {} then AuthResult(db, reg, sock.(closed := true), AuthFailed(InvalidToken))
    else
      var u := Least(rows, ById);
      var kind := if Truthy(clientType) then clientType.value else MonitorClient;
      var s := sock.(clientType := kind, userId := Some(u), isAlive := true);
      if kind == MonitorClient then
        AuthResult(ResetOrphans(SetMonitorState(db, u, OnlineState), u), AddMonitor(reg, u, sock.id),
                   s.(workerId := Some(freshWorker)), AuthOk)
      else if kind == PanelClient then AuthResult(db, AddPanel(reg, u, sock.id), s, AuthOk)
      else AuthResult(db, reg, s, AuthOk)
  }

  /** The worker id as it is interpolated into the log message. */
  function WorkerLabel(w: Option<string>): string {
    if w.Some? then w.value else "null"
  }

  function DisconnectMessage(w: Option<string>): string {
    "Monitor desconectado (workerId: " + WorkerLabel(w) + ")."
  }

  /** The departing worker's job: SQL `worker_id = ?`, which a NULL never satisfies. */
  predicate HeldBy(a: Action, u: Id, w: Option<string>) {
    a.cuentasId == u && SqlEq(a.workerId, w) && (a.estado == AwaitingAcceptance || a.estado == InProgress)
  }

  predicate WarmerHeldBy(j: WarmerRow, w: Option<string>) {
    SqlEq(j.workerId, w) && j.estado == InProgress
  }

  datatype DisconnectResult = DisconnectResult(db: Db, reg: Registry, notified: set<SocketId>)

  /** `handleDisconnect`; `open` are the sockets still open, which receive the panels' notice. */
  function HandleDisconnect(db: Db, reg: Registry, sock: Socket, open: set<SocketId>): (r: DisconnectResult)
    ensures !TruthyNat(sock.userId) || (sock.clientType != MonitorClient && sock.clientType != PanelClient) ==>
              r == DisconnectResult(db, reg, {})
    ensures TruthyNat(sock.userId) && sock.clientType == PanelClient ==>
              r == DisconnectResult(db, RemovePanel(reg, sock.userId.value, sock.id), {})
    ensures TruthyNat(sock.userId) && sock.clientType == MonitorClient ==>
              var u := sock.userId.value;
              var (reg1, wasLast) := RemoveMonitor(reg, u, sock.id);
              && r.reg == reg1
              && r.notified == GetPanels(reg, u) * open
              && r.db.monitorLog == db.monitorLog + [MonitorLogRow(u, ErrorLogType, DisconnectMessage(sock.workerId))]
              && r.db.cuentas == (if wasLast then SetMonitorState(db, u, OfflineState).cuentas else db.cuentas)
              && r.db.actions.Keys == db.actions.Keys
              && (forall id :: id in db.actions ==>
                    r.db.actions[id] == if HeldBy(db.actions[id], u, sock.workerId) then Requeue(db.actions[id]) else db.actions[id])
              && r.db.warmerActions.Keys == db.warmerActions.Keys
              && (forall id :: id in db.warmerActions ==>
                    r.db.warmerActions[id] == if WarmerHeldBy(db.warmerActions[id], sock.workerId)
                                              then RequeueWarmer(db.warmerActions[id]) else db.warmerActions[id])
              && r.db == db.(cuentas := r.db.cuentas, monitorLog := r.db.monitorLog, actions := r.db.actions,
                             warmerActions := r.db.warmerActions)
  {
    if !TruthyNat(sock.userId) then DisconnectResult(db, reg, {})
    else
      var u := sock.userId.value;
      if sock.clientType == MonitorClient then
        var (reg1, wasLast) := RemoveMonitor(reg, u, sock.id);
        var db1 := if wasLast then SetMonitorState(db, u, OfflineState) else db;
        var db2 := db1.(monitorLog := db1.monitorLog + [MonitorLogRow(u, ErrorLogType, DisconnectMessage(sock.workerId))]);
        var db3 := db2.(actions := map id | id in db2.actions ::
                          if HeldBy(db2.actions[id], u, sock.workerId) then Requeue(db2.actions[id]) else db2.actions[id]);
        var db4 := db3.(warmerActions := map id | id in db3.warmerActions ::
                          if WarmerHeldBy(db3.warmerActions[id], sock.workerId)
                          then RequeueWarmer(db3.warmerActions[id]) else db3.warmerActions[id]);
        DisconnectResult(db4, reg1, GetPanels(reg1, u) * open)
      else if sock.clientType == PanelClient then
        DisconnectResult(db, RemovePanel(reg, u, sock.id), {})
      else DisconnectResult(db, reg, {})
  }

  /** A disconnect leaves none of the departing worker's claims pending, and touches no job
      held by another worker. */
  lemma DisconnectReleasesOnlyOwnClaims(db: Db, reg: Registry, sock: Socket, open: set<SocketId>, id: Id)
    requires TruthyNat(sock.userId) && sock.clientType == MonitorClient && sock.workerId.Some?
    requires id in db.actions
    ensures var a := HandleDisconnect(db, reg, sock, open).db.actions[id];
            && !(a.cuentasId == sock.userId.value && a.workerId == sock.workerId
                 && (a.estado == AwaitingAcceptance || a.estado == InProgress))
            && (db.actions[id].workerId != sock.workerId ==> a == db.actions[id])
  {
  }

  /** A worker that logs in on an account with no other worker and then drops leaves the
      registry as it found it and the account marked offline. */
  lemma LoginLogoutRoundTrip(db: Db, reg: Registry, sock: Socket, token: string, freshWorker: string, open: set<SocketId>)
    requires Valid(reg)
    requires Matching(db, token) != {}
    requires forall u :: u in Matching(db, token) ==> GetMonitors(reg, u) == {}
    ensures var a := HandleAuth(db, reg, sock, token, None, freshWorker);
            var d := HandleDisconnect(a.db, a.reg, a.sock, open);
            && (a.sock.userId.value != 0 ==> d.reg == reg && d.db.cuentas[a.sock.userId.value].estadoMonitor == Some(OfflineState))
  {
    var a := HandleAuth(db, reg, sock, token, None, freshWorker);
    var u := a.sock.userId.value;
    AddRemoveMonitor(reg, u, sock.id);
  }
}

=== FILE: status.dfy ===
/** Worker reports about a discrete job (status, progress, tweet snapshot) and the legacy
    per-credential health counters of `token_health`. */
module Status {
  import opened Wrappers
  import opened Text
  import opened Store

  const UrlMarker := "https://"
  const Sick := "enfermo"
  const DeadThreshold := 10
  const SickThreshold := 5
  const MonitorError := "Error"

  /** The job exists and its `worker_id` is this socket's (JavaScript `===`). */
  predicate OwnedBy(db: Db, id: Id, worker: Option<string>) {
    id in db.actions && db.actions[id].workerId == worker
  }

  /** The comment stored with a status: the worker's message, except that a requeue keeps a
      previous comment holding a URL. */
  function CommentToSave(status: string, message: string, prev: Option<string>): (c: string)
    ensures status == Queued && Truthy(prev) && Contains(prev.value, UrlMarker) ==> c == prev.value
    ensures !(status == Queued && Truthy(prev) && Contains(prev.value, UrlMarker)) ==> c == message
  {
    if status == Queued && Truthy(prev) && Contains(prev.value, UrlMarker) then prev.value else message
  }

  /** The job row after an owned status report. */
  function ApplyStatus(a: Action, status: string, message: string): (b: Action)
    ensures b.comentario == Some(CommentToSave(status, message, a.comentario))
    ensures Terminal(status) ==> b.estado == status && b.media.None? && b.workerId == a.workerId
    ensures status == Queued ==> b.estado == Queued && b.workerId.None? && b.media == a.media
    ensures !Terminal(status) && status != Queued ==>
              b.estado == (if Terminal(a.estado) then a.estado else status) && b.workerId == a.workerId && b.media == a.media
    ensures b.(estado := a.estado, workerId := a.workerId, comentario := a.comentario, media := a.media) == a
  {
    var c := Some(CommentToSave(status, message, a.comentario));
    if Terminal(status) then a.(estado := status, comentario := c, media := None)
    else if status == Queued then a.(estado := Queued, workerId := None, comentario := c)
    else a.(estado := if Terminal(a.estado) then a.estado else status, comentario := c)
  }

  /** `handleStatus`; the boolean is whether a completion notification is sent. */
  function HandleStatus(db: Db, sock: Socket, actionId: Option<Id>, status: Option<string>, message: Option<string>): (r: (Db, bool))
    ensures r.1 <==> TruthyNat(actionId) && Truthy(message) && status == Some(Completed) && OwnedBy(db, actionId.value, sock.workerId)
    ensures TruthyNat(actionId) && Truthy(status) && Truthy(message) && OwnedBy(db, actionId.value, sock.workerId) ==>
              r.0.actions == db.actions[actionId.value := ApplyStatus(db.actions[actionId.value], status.value, message.value)]
    ensures !(TruthyNat(actionId) && Truthy(status) && Truthy(message) && OwnedBy(db, actionId.value, sock.workerId)) ==>
              r.0.actions == db.actions
    ensures Truthy(status) && ToLower(status.value) == "error" && sock.userId.Some? && sock.userId.value in db.cuentas ==>
              r.0.cuentas == db.cuentas[sock.userId.value := db.cuentas[sock.userId.value].(estadoMonitor := Some(MonitorError))]
    ensures !(Truthy(status) && ToLower(status.value) == "error" && sock.userId.Some? && sock.userId.value in db.cuentas) ==>
              r.0.cuentas == db.cuentas
    ensures r.0 == db.(actions := r.0.actions, cuentas := r.0.cuentas)
  {
    var owned := TruthyNat(actionId) && Truthy(status) && Truthy(message) && OwnedBy(db, actionId.value, sock.workerId);
    var db1 :=
      if owned then db.(actions := db.actions[actionId.value := ApplyStatus(db.actions[actionId.value], status.value, message.value)])
      else db;
    var db2 :=
      if Truthy(status) && ToLower(status.value) == "error" && sock.userId.Some? && sock.userId.value in db1.cuentas
      then db1.(cuentas := db1.cuentas[sock.userId.value := db1.cuentas[sock.userId.value].(estadoMonitor := Some(MonitorError))])
      else db1;
    (db2, owned && status.value == Completed)
  }

  /** SQL `acciones_realizadas + ?`: NULL on either side gives NULL. */
  function AddNullable(a: Option<int>, b: Option<int>): (r: Option<int>)
    ensures r.Some? <==> a.Some? && b.Some?
    ensures r.Some? ==> r.value - a.value == b.value
  {
    if a.Some? && b.Some? then Some(a.value + b.value) else None
  }

  /** `handleProgress`: an owned job moves to in progress unless it already finished, and its
      done-count grows by `cantidad`. */
  function HandleProgress(db: Db, sock: Socket, actionId: Option<Id>, cantidad: Option<int>): (r: Db)
    ensures r.actions.Keys == db.actions.Keys
    ensures actionId.Some? && OwnedBy(db, actionId.value, sock.workerId) ==>
              var a, b := db.actions[actionId.value], r.actions[actionId.value];
              && b.estado == (if Terminal(a.estado) then a.estado else InProgress)
              && b.realizadas == AddNullable(a.realizadas, cantidad)
              && b.(estado := a.estado, realizadas := a.realizadas) == a
    ensures !(actionId.Some? && OwnedBy(db, actionId.value, sock.workerId)) ==> r == db
    ensures forall k :: k in db.actions && Some(k) != actionId ==> k in r.actions && r.actions[k] == db.actions[k]
    ensures r == db.(actions := r.actions)
  {
    if actionId.Some? && OwnedBy(db, actionId.value, sock.workerId) then
      var id := actionId.value;
      var a := db.actions[id];
      db.(actions := db.actions[id := a.(estado := if Terminal(a.estado) then a.estado else InProgress,
                                         realizadas := AddNullable(a.realizadas, cantidad))])
    else db
  }

  /** A finished job stays finished under progress reports and under status reports other
      than a terminal state or an explicit requeue. */
  lemma TerminalIsSticky(db: Db, sock: Socket, id: Id, status: string, message: Option<string>, cantidad: Option<int>)
    requires id in db.actions && Terminal(db.actions[id].estado)
    requires !Terminal(status) && status != Queued
    ensures HandleProgress(db, sock, Some(id), cantidad).actions[id].estado == db.actions[id].estado
    ensures HandleStatus(db, sock, Some(id), Some(status), message).0.actions[id].estado == db.actions[id].estado
  {
  }

  /** The health state the `CASE` is meant to assign after `fails` consecutive failures. */
  function HealthFor(fails: nat): (e: string)
    ensures e == Dead <==> fails >= DeadThreshold
    ensures e == Sick <==> SickThreshold <= fails < DeadThreshold
    ensures e == Healthy <==> fails < SickThreshold
  {
    if fails >= DeadThreshold then Dead else if fails >= SickThreshold then Sick else Healthy
  }

  predicate TokenFailGuard(sock: Socket, authToken: Option<string>) {
    Truthy(authToken) && TruthyNat(sock.userId)
  }

  /** `handleTokenFail` as intended: a first failure inserts a healthy row with one failure; a
      further one counts it and derives the state from the new count. */
  function HandleTokenFail(db: Db, sock: Socket, authToken: Option<string>, errorMsg: Option<string>, now: Time): (r: Db)
    ensures !TokenFailGuard(sock, authToken) ==> r == db
    ensures TokenFailGuard(sock, authToken) ==>
              var key := (sock.userId.value, authToken.value);
              && key in r.tokenHealth
              && r.tokenHealth[key].ultimoUso == now
              && r.tokenHealth[key].ultimoError == (if Truthy(errorMsg) then errorMsg.value else UnknownError)
              && r.tokenHealth[key].fails == (if key in db.tokenHealth then db.tokenHealth[key].fails + 1 else 1)
              && r.tokenHealth[key].estado == HealthFor(r.tokenHealth[key].fails)
              && r.tokenHealth.Keys == db.tokenHealth.Keys + {key}
              && forall k :: k in db.tokenHealth && k != key ==> r.tokenHealth[k] == db.tokenHealth[k]
    ensures r == db.(tokenHealth := r.tokenHealth)
  {
    if !TokenFailGuard(sock, authToken) then db
    else
      var key := (sock.userId.value, authToken.value);
      var msg := if Truthy(errorMsg) then errorMsg.value else UnknownError;
      var row :=
        if key in db.tokenHealth then
          var n := db.tokenHealth[key].fails + 1;
          TokenHealth(n, HealthFor(n), msg, now)
        else TokenHealth(1, Healthy, msg, now);
      db.(tokenHealth := db.tokenHealth[key := row])
  }

  /** `handleTokenFail` as written: the `CASE` runs after `fails_consecutivos` has already been
      incremented in the same assignment list, so it tests the new count plus one. */
  function HandleTokenFailAsWritten(db: Db, sock: Socket, authToken: Option<string>, errorMsg: Option<string>, now: Time): (r: Db)
    ensures !TokenFailGuard(sock, authToken) ==> r == db
    ensures TokenFailGuard(sock, authToken) && (sock.userId.value, authToken.value) in db.tokenHealth ==>
              var key := (sock.userId.value, authToken.value);
              && key in r.tokenHealth
              && r.tokenHealth[key].fails == db.tokenHealth[key].fails + 1
              && r.tokenHealth[key].estado == HealthFor(r.tokenHealth[key].fails + 1)
    ensures TokenFailGuard(sock, authToken) ==>
              var key, c := (sock.userId.value, authToken.value), HandleTokenFail(db, sock, authToken, errorMsg, now);
              && key in r.tokenHealth
              && r == c.(tokenHealth := c.tokenHealth[key := c.tokenHealth[key].(estado := r.tokenHealth[key].estado)])
              && (key !in db.tokenHealth ==> r == c)
  {
    if !TokenFailGuard(sock, authToken) then db
    else
      var key := (sock.userId.value, authToken.value);
      var msg := if Truthy(errorMsg) then errorMsg.value else UnknownError;
      var row :=
        if key in db.tokenHealth then
          var n := db.tokenHealth[key].fails + 1;
          TokenHealth(n, HealthFor(n + 1), msg, now)
        else TokenHealth(1, Healthy, msg, now);
      db.(tokenHealth := db.tokenHealth[key := row])
  }

  /** Starting from no row, `k` failures in a row leave the counter at `k`. */
  function Fails(db: Db, sock: Socket, authToken: string, k: nat, now: Time): (r: Db)
    requires TokenFailGuard(sock, Some(authToken))
    ensures (sock.userId.value, authToken) in r.tokenHealth || k == 0
  {
    if k == 0 then db else HandleTokenFail(Fails(db, sock, authToken, k - 1, now), sock, Some(authToken), None, now)
  }

  /** As intended: a credential becomes dead exactly at its tenth consecutive failure, and sick
      from the fifth. */
  lemma {:induction false} FailureCountDrivesHealth(db: Db, sock: Socket, authToken: string, k: nat, now: Time)
    requires TokenFailGuard(sock, Some(authToken))
    requires (sock.userId.value, authToken) !in db.tokenHealth
    requires k >= 1
    ensures var row := Fails(db, sock, authToken, k, now).tokenHealth[(sock.userId.value, authToken)];
            row.fails == k && (row.estado == Dead <==> k >= DeadThreshold) && (row.estado == Sick <==> SickThreshold <= k < DeadThreshold)
  {
    if k > 1 {
      FailureCountDrivesHealth(db, sock, authToken, k - 1, now);
    }
  }

  /** As written, the ninth consecutive failure already marks the credential dead (and the
      fourth marks it sick). */
  lemma DeadAtNinthFailureAsWritten(db: Db, sock: Socket, authToken: string, now: Time)
    requires TokenFailGuard(sock, Some(authToken))
    requires (sock.userId.value, authToken) in db.tokenHealth
    requires db.tokenHealth[(sock.userId.value, authToken)].fails == 8
    ensures var key := (sock.userId.value, authToken);
            && HandleTokenFailAsWritten(db, sock, Some(authToken), None, now).tokenHealth[key].fails == 9
            && HandleTokenFailAsWritten(db, sock, Some(authToken), None, now).tokenHealth[key].estado == Dead
            && HandleTokenFail(db, sock, Some(authToken), None, now).tokenHealth[key].estado == Sick
  {
  }

  /** `handleTokenSuccess`: an existing row is reset to healthy with no failures; no row is created. */
  function HandleTokenSuccess(db: Db, sock: Socket, authToken: Option<string>, now: Time): (r: Db)
    ensures !TokenFailGuard(sock, authToken) ==> r == db
    ensures r.tokenHealth.Keys == db.tokenHealth.Keys
    ensures TokenFailGuard(sock, authToken) && (sock.userId.value, authToken.value) in db.tokenHealth ==>
              var key := (sock.userId.value, authToken.value);
              r.tokenHealth[key] == db.tokenHealth[key].(fails := 0, estado := Healthy, ultimoUso := now)
    ensures forall k :: k in db.tokenHealth && (!TokenFailGuard(sock, authToken) || k != (sock.userId.value, authToken.value)) ==>
              r.tokenHealth[k] == db.tokenHealth[k]
    ensures r == db.(tokenHealth := r.tokenHealth)
  {
    if !TokenFailGuard(sock, authToken) then db
    else
      var key := (sock.userId.value, authToken.value);
      if key in db.tokenHealth then
        db.(tokenHealth := db.tokenHealth[key := db.tokenHealth[key].(fails := 0, estado := Healthy, ultimoUso := now)])
      else db
  }

  /** A success after any run of failures brings the credential back to healthy. */
  lemma SuccessHeals(db: Db, sock: Socket, authToken: string, errorMsg: Option<string>, t1: Time, t2: Time)
    requires TokenFailGuard(sock, Some(authToken))
    ensures var key := (sock.userId.value, authToken);
            var r := HandleTokenSuccess(HandleTokenFail(db, sock, Some(authToken), errorMsg, t1), sock, Some(authToken), t2);
            r.tokenHealth[key].fails == 0 && r.tokenHealth[key].estado == Healthy
  {
  }

  /** `handleTweetSnapshot`: an owned job stores the serialised tweet. */
  function HandleTweetSnapshot(db: Db, sock: Socket, actionId: Option<Id>, tweetJson: Option<string>): (r: Db)
    ensures TruthyNat(actionId) && tweetJson.Some? && OwnedBy(db, actionId.value, sock.workerId) ==>
              r.actions == db.actions[actionId.value := db.actions[actionId.value].(snapshot := tweetJson)]
    ensures !(TruthyNat(actionId) && tweetJson.Some? && OwnedBy(db, actionId.value, sock.workerId)) ==> r == db
    ensures r == db.(actions := r.actions)
  {
    if TruthyNat(actionId) && tweetJson.Some? && OwnedBy(db, actionId.value, sock.workerId) then
      db.(actions := db.actions[actionId.value := db.actions[actionId.value].(snapshot := tweetJson)])
    else db
  }
}

=== FILE: store.dfy ===
/** The relational store the handlers read and write, as immutable in-memory tables:
    one map from primary key to row per table, and a sequence per append-only log table.
    Column names follow the schema; JSON columns appear already parsed. */
module Store {
  import opened Wrappers

  type Id = nat
  /** The store's `NOW()`, in seconds. */
  type Time = nat
  /** Identity of one live connection. */
  type SocketId = nat

  // The `estado` column of actions, xwarmer_actions and scraping_jobs.
  const Queued := "En Cola"
  const AwaitingAcceptance := "Pendiente de Aceptacion"
  const InProgress := "En Proceso"
  const Completed := "Completado"
  const Failed := "Error"
  /** Legacy state reset to Queued when a worker of the account authenticates. */
  const Disconnected := "Desconeccion"

  predicate Terminal(estado: string) {
    estado == Completed || estado == Failed
  }

  // The `estado` column of credential and scraper rows.
  const Active := "active"
  const Inactive := "inactive"

  // Health states (`estado_salud`).
  const Healthy := "activo"
  const LoggedOut := "deslogueado"
  const Suspended := "suspendido"
  const Dead := "muerto"
  const RateLimited := "rate_limited"
  const LockedHealth := "locked"

  // Values the workers report: the success status, and the error stored when none is given.
  const OkStatus := "ok"
  const UnknownError := "unknown"

  /** A row of `xchecker_accounts`: one credential ("token") of a deck. */
  datatype Account = Account(
    deckId: Option<nat>,
    nombre: Option<string>,
    nick: Option<string>,
    estado: string,
    salud: Option<string>,
    authToken: Option<string>,
    ct0: Option<string>,
    cookiesFull: Option<string>,
    password: Option<string>,
    locked: bool,
    lockedBy: Option<string>,
    lockedAt: Option<Time>,
    ultimoUso: Option<Time>,
    ultimoWarmeo: Option<Time>,
    fails: nat,
    ultimoError: Option<string>,
    twitterUserId: Option<string>,
    followers: nat,
    following: nat
  )

  /** A row of `actions`: one discrete job. */
  datatype Action = Action(
    cuentasId: Id,
    tipo: string,
    estado: string,
    workerId: Option<string>,
    fecha: Time,
    preconfigId: Option<nat>,
    util: Option<string>,
    comentario: Option<string>,
    media: Option<string>,
    realizadas: Option<int>,
    snapshot: Option<string>
  )

  /** A row of `xwarmer_actions`: read as a discrete job by the action handlers
      and as a warmer campaign by the warmer handlers. */
  datatype WarmerRow = WarmerRow(
    cuentasId: Id,
    tipo: string,
    estado: string,
    workerId: Option<string>,
    createdAt: Time,
    startedAt: Option<Time>,
    completedAt: Option<Time>,
    preconfigId: Option<nat>,
    grupoNicks: Option<string>,
    total: int,
    ejecutadas: nat,
    exitosas: nat,
    errores: nat
  )

  /** The parsed `filtros` JSON of a scraping job; `lastId` is its `_last_id` cursor. */
  datatype Filters = Filters(
    deckId: Option<nat>,
    estado: Option<string>,
    grupo: Option<string>,
    nombre: Option<string>,
    salud: Option<string>,
    accountId: Option<nat>,
    lastId: Option<nat>
  )

  /** A row of `scraping_jobs`: a scraping campaign or a browser (unlock/login) campaign. */
  datatype ScrapingJob = ScrapingJob(
    tipo: string,
    estado: string,
    workerId: Option<string>,
    createdAt: Time,
    startedAt: Option<Time>,
    completedAt: Option<Time>,
    total: int,
    procesados: nat,
    exitosos: nat,
    errores: nat,
    filtros: Filters
  )

  /** Every processed target was counted once, as a success or as an error. */
  predicate Balanced(j: ScrapingJob) {
    j.procesados == j.exitosos + j.errores
  }

  /** Orders `scraping_jobs` ids by `created_at`, the oldest first. */
  function ByJobCreation(jobs: map<Id, ScrapingJob>): nat -> nat {
    (id: nat) => if id in jobs then jobs[id].createdAt else 0
  }

  /** A row of `cuentas`: an actor that authenticates with `token`. */
  datatype Cuenta = Cuenta(token: Option<string>, tipo: string, estadoMonitor: Option<string>)

  /** A row of the legacy `token_health` table, keyed by (cuentas_id, auth_token). */
  datatype TokenHealth = TokenHealth(fails: nat, estado: string, ultimoError: string, ultimoUso: Time)

  /** A row of `xspammer_accounts`: a scraper credential. */
  datatype Scraper = Scraper(estado: string, lastUse: Option<Time>, fails: nat, ultimoError: Option<string>)

  /** A row of `xwarmer_nicks`; `tweets` is the parsed `tweets` column (empty when it does not parse). */
  datatype Nick = Nick(
    grupo: Option<string>,
    estado: string,
    tweetsRaw: Option<string>,
    tweets: seq<string>,
    comentario: Option<string>,
    userid: Option<string>
  )

  /** A row of `error_rules`. */
  datatype Rule = Rule(
    id: Id,
    code: Option<int>,
    pattern: Option<string>,
    priority: int,
    actionWarmer: string,
    actionNormal: string,
    salud: Option<string>,
    setInactive: bool,
    enabled: bool
  )

  /** A row of `token_actions_log`. */
  datatype TokenLogRow = TokenLogRow(
    tokenId: Id,
    actionType: string,
    tweetUrl: string,
    tweetId: string,
    resultado: string,
    errorDetail: Option<string>,
    createdAt: Time
  )

  /** A row of `error_log`. */
  datatype ErrorLogRow = ErrorLogRow(
    accountId: Id,
    actionId: Option<Id>,
    moduleName: Option<string>,
    code: Option<int>,
    message: string,
    ruleId: Option<Id>,
    actionTaken: string
  )

  /** A row of `xwarmer_action_log`. */
  datatype WarmerLogRow = WarmerLogRow(jobId: Id, accountId: Id, estado: string)

  /** A row of `log`. */
  datatype MonitorLogRow = MonitorLogRow(cuentaId: Id, tipo: string, mensaje: string)

  datatype Db = Db(
    cuentas: map<Id, Cuenta>,
    accounts: map<Id, Account>,
    actions: map<Id, Action>,
    warmerActions: map<Id, WarmerRow>,
    scrapingJobs: map<Id, ScrapingJob>,
    scrapers: map<Id, Scraper>,
    nicks: map<Id, Nick>,
    tokenHealth: map<(Id, string), TokenHealth>,
    errorRules: seq<Rule>,
    tokenLog: seq<TokenLogRow>,
    errorLog: seq<ErrorLogRow>,
    warmerLog: seq<WarmerLogRow>,
    monitorLog: seq<MonitorLogRow>
  )

  /** The per-connection state the handlers read and write (`socket.userId`, `socket.workerId`, ...). */
  datatype Socket = Socket(
    id: SocketId,
    userId: Option<Id>,
    clientType: string,
    workerId: Option<string>,
    isAlive: bool,
    closed: bool
  )

  /** The state a fresh connection starts in. */
  function Connected(id: SocketId): Socket {
    Socket(id, None, "monitor", None, false, false)
  }

  /** The ordering key of a nullable timestamp under `ORDER BY ... ASC`: NULL first. */
  function NullsFirst(t: Option<Time>): nat {
    match t
    case None => 0
    case Some(v) => v + 1
  }
}

=== FILE: text.dfy ===
/** String helpers with the semantics of the JavaScript built-ins the handlers use
    (`toLowerCase`, `includes`, `substring(0, n)`, `trim`, `startsWith`, `parseInt`),
    restricted to ASCII where JavaScript consults Unicode tables. */
module Text {
  import opened Wrappers

  /** `toLowerCase` on one character (ASCII letters only). */
  function LowerChar(c: char): char {
    if 'A' <= c <= 'Z' then (c as int + 32) as char else c
  }

  function ToLower(s: string): (r: string)
    ensures |r| == |s|
    ensures forall i :: 0 <= i < |s| ==> r[i] == LowerChar(s[i])
  {
    if |s| == 0 then "" else [LowerChar(s[0])] + ToLower(s[1..])
  }

  /** `p` occurs in `s` starting at index `i`. */
  predicate OccursAt(s: string, p: string, i: nat) {
    i + |p| <= |s| && s[i..i + |p|] == p
  }

  /** `s.includes(p)`. */
  predicate Contains(s: string, p: string) {
    exists i: nat :: i <= |s| && OccursAt(s, p, i)
  }

  /** `s.startsWith(p)`. */
  predicate StartsWith(s: string, p: string) {
    |p| <= |s| && s[..|p|] == p
  }

  /** `s.substring(0, n)`: the first `n` characters, or all of `s` when shorter. */
  function Take(s: string, n: nat): (r: string)
    ensures |r| <= n && |r| <= |s|
    ensures r == s[..|r|]
    ensures |s| <= n ==> r == s
  {
    if |s| <= n then s else s[..n]
  }

  /** The white space `trim` removes (its ASCII members). */
  predicate IsSpace(c: char) {
    c == ' ' || c == '\t' || c == '\n' || c == '\r' || c == '\U{B}' || c == '\U{C}'
  }

  function TrimStart(s: string): (r: string)
    ensures |r| <= |s| && r == s[|s| - |r|..]
    ensures forall i :: 0 <= i < |s| - |r| ==> IsSpace(s[i])
    ensures |r| == 0 || !IsSpace(r[0])
  {
    if |s| > 0 && IsSpace(s[0]) then TrimStart(s[1..]) else s
  }

  function TrimEnd(s: string): (r: string)
    ensures |r| <= |s| && r == s[..|r|]
    ensures forall i :: |r| <= i < |s| ==> IsSpace(s[i])
    ensures |r| == 0 || !IsSpace(r[|r| - 1])
  {
    if |s| > 0 && IsSpace(s[|s| - 1]) then TrimEnd(s[..|s| - 1]) else s
  }

  /** `s.trim()`. */
  function Trim(s: string): string {
    TrimEnd(TrimStart(s))
  }

  /** `s.indexOf(c)`: the first index holding `c`. */
  function IndexOf(s: string, c: char): (r: Option<nat>)
    ensures r.Some? ==> r.value < |s| && s[r.value] == c && c !in s[..r.value]
    ensures r.None? ==> c !in s
  {
    if |s| == 0 then None
    else if s[0] == c then Some(0)
    else match IndexOf(s[1..], c)
      case None => None
      case Some(k) => assert s[..k + 1] == [s[0]] + s[1..][..k]; Some(k + 1)
  }

  predicate IsDigit(c: char) {
    '0' <= c <= '9'
  }

  function DigitValue(c: char): nat
    requires IsDigit(c)
  {
    c as int - '0' as int
  }

  function DigitChar(d: nat): (c: char)
    requires d < 10
    ensures IsDigit(c) && DigitValue(c) == d
  {
    ('0' as int + d) as char
  }

  predicate AllDigits(s: string) {
    forall i :: 0 <= i < |s| ==> IsDigit(s[i])
  }

  /** The decimal value of a digit string, most significant digit first. */
  function DigitsValue(s: string): nat
    requires AllDigits(s)
  {
    if |s| == 0 then 0 else DigitsValue(s[..|s| - 1]) * 10 + DigitValue(s[|s| - 1])
  }

  /** The longest prefix of `s` made of digits. */
  function LeadingDigits(s: string): (r: string)
    ensures AllDigits(r) && |r| <= |s| && r == s[..|r|]
    ensures |r| < |s| ==> !IsDigit(s[|r|])
  {
    if |s| == 0 || !IsDigit(s[0]) then "" else [s[0]] + LeadingDigits(s[1..])
  }

  /** `parseInt(s)` without a radix: leading white space, an optional sign, then the longest run
      of hexadecimal digits after a `0x`/`0X` prefix, or else of decimal digits; no digits at all
      is NaN (None). */
  function ParseInt(s: string): (r: Option<int>)
    ensures var u := Unsigned(TrimStart(s));
            && (!HexPrefixed(u) ==> (r.None? <==> LeadingDigits(u) == ""))
            && (HexPrefixed(u) ==> (r.None? <==> LeadingHexDigits(u[2..]) == ""))
    ensures r.Some? && r.value < 0 ==> TrimStart(s)[0] == '-'
  {
    var t := TrimStart(s);
    var u := Unsigned(t);
    var v: int :=
      if HexPrefixed(u) then
        var digits := LeadingHexDigits(u[2..]);
        if digits == "" then -1 else HexDigitsValue(digits)
      else
        var digits := LeadingDigits(u);
        if digits == "" then -1 else DigitsValue(digits);
    if v < 0 then None
    else if |t| > 0 && t[0] == '-' then Some(-v)
    else Some(v)
  }

  /** The text after an optional leading sign. */
  function Unsigned(t: string): string {
    if |t| > 0 && (t[0] == '-' || t[0] == '+') then t[1..] else t
  }

  /** The `0x`/`0X` prefix that switches `parseInt` to base 16. */
  predicate HexPrefixed(u: string) {
    |u| >= 2 && u[0] == '0' && (u[1] == 'x' || u[1] == 'X')
  }

  predicate IsHexDigit(c: char) {
    IsDigit(c) || 'a' <= c <= 'f' || 'A' <= c <= 'F'
  }

  function HexDigitValue(c: char): (v: nat)
    requires IsHexDigit(c)
    ensures v < 16
  {
    if IsDigit(c) then DigitValue(c)
    else if 'a' <= c <= 'f' then c as int - 'a' as int + 10
    else c as int - 'A' as int + 10
  }

  /** The lower-case hexadecimal digit of `d`. */
  function HexDigitChar(d: nat): (c: char)
    requires d < 16
    ensures IsHexDigit(c) && HexDigitValue(c) == d
  {
    if d < 10 then DigitChar(d) else ('a' as int + d - 10) as char
  }

  predicate AllHexDigits(s: string) {
    forall i :: 0 <= i < |s| ==> IsHexDigit(s[i])
  }

  /** The base-16 value of a hexadecimal digit string, most significant digit first. */
  function HexDigitsValue(s: string): nat
    requires AllHexDigits(s)
  {
    if |s| == 0 then 0 else HexDigitsValue(s[..|s| - 1]) * 16 + HexDigitValue(s[|s| - 1])
  }

  /** The longest prefix of `s` made of hexadecimal digits. */
  function LeadingHexDigits(s: string): (r: string)
    ensures AllHexDigits(r) && |r| <= |s| && r == s[..|r|]
    ensures |r| < |s| ==> !IsHexDigit(s[|r|])
  {
    if |s| == 0 || !IsHexDigit(s[0]) then "" else [s[0]] + LeadingHexDigits(s[1..])
  }

  /** The canonical decimal rendering of a natural number. */
  function DecimalString(n: nat): (r: string)
    ensures |r| > 0 && AllDigits(r)
  {
    if n < 10 then [DigitChar(n)] else DecimalString(n / 10) + [DigitChar(n % 10)]
  }

  lemma {:induction false} DecimalValue(n: nat)
    ensures DigitsValue(DecimalString(n)) == n
  {
    if n >= 10 {
      var s := DecimalString(n);
      assert s[..|s| - 1] == DecimalString(n / 10);
      DecimalValue(n / 10);
    }
  }

  lemma {:induction false} LeadingDigitsOfDigits(s: string)
    requires AllDigits(s)
    ensures LeadingDigits(s) == s
  {
    if |s| > 0 {
      LeadingDigitsOfDigits(s[1..]);
    }
  }

  /** `parseInt` reads back every decimal rendering it is given. */
  lemma ParseIntDecimal(n: nat)
    ensures ParseInt(DecimalString(n)) == Some(n)
  {
    var s := DecimalString(n);
    assert !IsSpace(s[0]) && s[0] != '-' && s[0] != '+' by { assert IsDigit(s[0]); }
    assert TrimStart(s) == s;
    assert Unsigned(s) == s;
    assert !HexPrefixed(s) by { if |s| >= 2 { assert IsDigit(s[1]); } }
    LeadingDigitsOfDigits(s);
    assert LeadingDigits(Unsigned(TrimStart(s))) == s;
    DecimalValue(n);
  }

  /** The lower-case hexadecimal rendering of a natural number. */
  function HexString(n: nat): (r: string)
    ensures |r| > 0 && AllHexDigits(r)
  {
    if n < 16 then [HexDigitChar(n)] else HexString(n / 16) + [HexDigitChar(n % 16)]
  }

  lemma {:induction false} HexValue(n: nat)
    ensures HexDigitsValue(HexString(n)) == n
  {
    if n >= 16 {
      var s := HexString(n);
      assert s[..|s| - 1] == HexString(n / 16);
      HexValue(n / 16);
    }
  }

  lemma {:induction false} LeadingHexDigitsOfHex(s: string)
    requires AllHexDigits(s)
    ensures LeadingHexDigits(s) == s
  {
    if |s| > 0 {
      LeadingHexDigitsOfHex(s[1..]);
    }
  }

  /** A `0x` prefix not followed by a hexadecimal digit is NaN, not the `0` before the `x`. */
  lemma HexPrefixWithoutDigits(s: string)
    requires HexPrefixed(s) && (|s| == 2 || !IsHexDigit(s[2]))
    ensures ParseInt(s) == None
  {
    assert TrimStart(s) == s;
    assert Unsigned(s) == s;
    assert LeadingHexDigits(s[2..]) == "";
  }

  /** `parseInt` reads a `0x`-prefixed hexadecimal rendering in base 16. */
  lemma ParseIntHex(n: nat)
    ensures ParseInt("0x" + HexString(n)) == Some(n)
  {
    var h := HexString(n);
    var s := "0x" + h;
    assert s[0] == '0' && s[1] == 'x' && s[2..] == h;
    assert TrimStart(s) == s;
    assert Unsigned(s) == s;
    LeadingHexDigitsOfHex(h);
    HexValue(n);
  }
}

=== FILE: token_manager.dfy ===
/** The credential lease manager: hands out tokens of a deck least-recently-used first,
    locks them for exclusive action types, applies success / failure reports, and sweeps
    stale locks and old audit rows. */
module TokenManager {
  import opened Wrappers
  import opened Text
  import opened Store
  import opened Select
  import opened ErrorRules
  import opened Cookies

  /** The shared-read action type: never locked, never de-duplicated per tweet. */
  const ViewType := "view"
  /** A lock older than this many seconds is released by the sweep (10 minutes). */
  const StaleLockAge := 600
  /** `token_actions_log` rows older than this many seconds are purged (60 days). */
  const LogRetention := 60 * 24 * 3600
  const DefaultBatchSize := 10
  const MaxBatchSize := 100
  const SuccessResult := "success"
  const FailResult := "fail"

  /** Health states that bar a credential from being handed out. */
  predicate UsableHealth(salud: Option<string>) {
    salud.None? || salud.value !in {LoggedOut, Suspended, Dead}
  }

  /** The `WHERE` clause of the assignment query, before per-tweet de-duplication. */
  predicate Eligible(a: Account, deck: nat, isView: bool) {
    && a.deckId == Some(deck)
    && a.estado == Active
    && UsableHealth(a.salud)
    && (isView || !a.locked)
    && a.authToken.Some?
    && a.ct0.Some?
  }

  datatype TokenRequest = TokenRequest(deckId: Option<nat>, actionType: Option<string>, tweetId: Option<string>)

  predicate MissingParams(req: TokenRequest) {
    !TruthyNat(req.deckId) || !Truthy(req.actionType)
  }

  predicate IsView(actionType: Option<string>) {
    actionType == Some(ViewType)
  }

  /** Credentials that already succeeded at `actionType` on `tweet`. */
  function UsedOn(log: seq<TokenLogRow>, tweet: string, actionType: string): set<Id> {
    set i | 0 <= i < |log| && log[i].tweetId == tweet && log[i].actionType == actionType
                           && log[i].resultado == SuccessResult :: log[i].tokenId
  }

  /** Per-tweet de-duplication applies to non-view requests that name a tweet. */
  predicate Deduplicates(req: TokenRequest) {
    Truthy(req.tweetId) && !IsView(req.actionType)
  }

  predicate Candidate(db: Db, req: TokenRequest, id: Id)
    requires !MissingParams(req)
  {
    && id in db.accounts
    && Eligible(db.accounts[id], req.deckId.value, IsView(req.actionType))
    && !(Deduplicates(req) && id in UsedOn(db.tokenLog, req.tweetId.value, req.actionType.value))
  }

  function Candidates(db: Db, req: TokenRequest): set<Id>
    requires !MissingParams(req)
  {
    set id | id in db.accounts && Candidate(db, req, id)
  }

  /** `ORDER BY ultimo_uso ASC`: never-used credentials first. */
  function ByUsage(accounts: map<Id, Account>): nat -> nat {
    (id: nat) => if id in accounts then NullsFirst(accounts[id].ultimoUso) else 0
  }

  /** `socket.workerId || 'unknown'`. */
  function Holder(worker: Option<string>): string {
    if Truthy(worker) then worker.value else "unknown"
  }

  function Lock(a: Account, worker: Option<string>, now: Time): Account {
    a.(locked := true, lockedBy := Some(Holder(worker)), lockedAt := Some(now))
  }

  function Unlock(a: Account): Account {
    a.(locked := false, lockedBy := None, lockedAt := None)
  }

  datatype TokenReply = TokenAssigned(tokenId: Id) | NoToken(reason: string)

  /** `handleRequestToken`: the least recently used candidate; it is locked for `worker`
      unless the action is a view. */
  function RequestToken(db: Db, req: TokenRequest, worker: Option<string>, now: Time): (r: (Db, TokenReply))
    ensures MissingParams(req) ==> r == (db, NoToken("missing_params"))
    ensures !MissingParams(req) ==> (r.1.NoToken? <==> Candidates(db, req) == {})
    ensures r.1.NoToken? ==> r.0 == db
    ensures r.1.TokenAssigned? ==>
              && !MissingParams(req)
              && r.1.tokenId in db.accounts
              && Eligible(db.accounts[r.1.tokenId], req.deckId.value, IsView(req.actionType))
              && (Deduplicates(req) ==> r.1.tokenId !in UsedOn(db.tokenLog, req.tweetId.value, req.actionType.value))
              && forall other :: other in Candidates(db, req) ==>
                   NullsFirst(db.accounts[r.1.tokenId].ultimoUso) <= NullsFirst(db.accounts[other].ultimoUso)
    ensures r.1.TokenAssigned? && IsView(req.actionType) ==> r.0 == db
    ensures r.1.TokenAssigned? && !IsView(req.actionType) ==>
              r.0 == db.(accounts := db.accounts[r.1.tokenId := Lock(db.accounts[r.1.tokenId], worker, now)])
  {
    if MissingParams(req) then (db, NoToken("missing_params"))
    else
      var cands := Candidates(db, req);
      if cands == {} then (db, NoToken("all_used_or_unhealthy"))
      else
        var id := Least(cands, ByUsage(db.accounts));
        if IsView(req.actionType) then (db, TokenAssigned(id))
        else (db.(accounts := db.accounts[id := Lock(db.accounts[id], worker, now)]), TokenAssigned(id))
  }

  /** `Math.min(Math.max(1, count || 10), 100)`. */
  function BatchSize(count: Option<int>): (n: nat)
    ensures 1 <= n <= MaxBatchSize
    ensures count.None? || count == Some(0) ==> n == DefaultBatchSize
    ensures count.Some? && 1 <= count.value <= MaxBatchSize ==> n == count.value
    ensures count.Some? && count.value < 0 ==> n == 1
    ensures count.Some? && count.value > MaxBatchSize ==> n == MaxBatchSize
  {
    var c := if count.None? || count.value == 0 then DefaultBatchSize else count.value;
    if c < 1 then 1 else if c > MaxBatchSize then MaxBatchSize else c
  }

  /** The one `UPDATE ... WHERE id IN (...)` that locks a whole batch. */
  function LockAll(accounts: map<Id, Account>, ids: set<Id>, worker: Option<string>, now: Time): (r: map<Id, Account>)
    ensures r.Keys == accounts.Keys
    ensures forall id :: id in accounts && id in ids ==> r[id] == Lock(accounts[id], worker, now)
    ensures forall id :: id in accounts && id !in ids ==> r[id] == accounts[id]
  {
    map id | id in accounts :: if id in ids then Lock(accounts[id], worker, now) else accounts[id]
  }

  datatype BatchReply = BatchReply(tokens: seq<Id>, reason: Option<string>)

  /** `handleRequestTokenBatch`: the first `BatchSize(count)` candidates in usage order, all
      locked in one update unless the action is a view. */
  function RequestTokenBatch(db: Db, req: TokenRequest, count: Option<int>, worker: Option<string>, now: Time): (r: (Db, BatchReply))
    ensures MissingParams(req) ==> r == (db, BatchReply([], Some("missing_params")))
    ensures !MissingParams(req) ==>
              var cands, got := Candidates(db, req), r.1.tokens;
              && |got| == (if BatchSize(count) < |cands| then BatchSize(count) else |cands|)
              && (forall i :: 0 <= i < |got| ==> got[i] in cands)
              && (forall i, j :: 0 <= i < j < |got| ==> got[i] != got[j] && Precedes(ByUsage(db.accounts), got[i], got[j]))
              && (forall y :: y in cands && y !in got ==> forall i :: 0 <= i < |got| ==> Precedes(ByUsage(db.accounts), got[i], y))
    ensures !MissingParams(req) && r.1.tokens == [] ==> r == (db, BatchReply([], Some("all_used_or_unhealthy")))
    ensures IsView(req.actionType) ==> r.0 == db
    ensures !MissingParams(req) && !IsView(req.actionType) ==>
              r.0 == db.(accounts := LockAll(db.accounts, set i | 0 <= i < |r.1.tokens| :: r.1.tokens[i], worker, now))
  {
    if MissingParams(req) then (db, BatchReply([], Some("missing_params")))
    else
      var got := FirstN(Candidates(db, req), ByUsage(db.accounts), BatchSize(count));
      if got == [] then (db, BatchReply([], Some("all_used_or_unhealthy")))
      else if IsView(req.actionType) then (db, BatchReply(got, None))
      else (db.(accounts := LockAll(db.accounts, set i | 0 <= i < |got| :: got[i], worker, now)), BatchReply(got, None))
  }

  // ---------------------------------------------------------------- reports

  /** How `JSON.parse(error_code)` came out: it threw (or gave null, whose property access
      throws into the same handler), or it gave a value whose `errors[0].code` may be present. */
  datatype ParsedCode = Unparsable | Parsed(firstErrorCode: Option<int>)

  predicate IsWordChar(c: char) {
    ('a' <= c <= 'z') || ('A' <= c <= 'Z') || IsDigit(c) || c == '_'
  }

  /** `/\b(\d{3})\b/` matches at index `i`. */
  predicate StandaloneAt(s: string, i: nat) {
    && i + 3 <= |s|
    && IsDigit(s[i]) && IsDigit(s[i + 1]) && IsDigit(s[i + 2])
    && (i == 0 || !IsWordChar(s[i - 1]))
    && (i + 3 == |s| || !IsWordChar(s[i + 3]))
  }

  function FindStandalone(s: string, from: nat): (r: Option<nat>)
    ensures r.Some? ==> from <= r.value && StandaloneAt(s, r.value)
    ensures r.Some? ==> forall j :: from <= j < r.value ==> !StandaloneAt(s, j)
    ensures r.None? ==> forall j :: from <= j ==> !StandaloneAt(s, j)
    decreases |s| - from
  {
    if from + 3 > |s| then None
    else if StandaloneAt(s, from) then Some(from)
    else FindStandalone(s, from + 1)
  }

  /** `errStr.match(/\b(\d{3})\b/)` then `parseInt(m[1])`: the leftmost three-digit number that
      stands on its own. */
  function ThreeDigitCode(s: string): (r: Option<int>)
    ensures r.None? <==> forall j :: !StandaloneAt(s, j)
    ensures r.Some? ==> exists i: nat :: StandaloneAt(s, i) && r.value == DigitsValue(s[i..i + 3])
                          && forall j: nat :: j < i ==> !StandaloneAt(s, j)
  {
    match FindStandalone(s, 0)
    case None => None
    case Some(i) => Some(DigitsValue(s[i..i + 3]))
  }

  /** The numeric code of a failure report. `parsed` is the outcome of `JSON.parse(error_code)`:
      a parsable text gives its `errors[0].code` or no code (a parsable non-object has no
      `errors`), and only an unparsable one is searched for a standalone three-digit number. */
  function ExtractCode(errStr: string, parsed: ParsedCode): (r: Option<int>)
    ensures parsed.Parsed? ==> r == CodeNumber(parsed.firstErrorCode)
    ensures parsed.Unparsable? ==> r == ThreeDigitCode(errStr)
  {
    match parsed
    case Parsed(c) => CodeNumber(c)
    case Unparsable => ThreeDigitCode(errStr)
  }

  /** Every three-digit number, written on its own, is extracted as itself. */
  lemma ThreeDigitRoundTrip(n: nat)
    requires 100 <= n < 1000
    ensures ThreeDigitCode(DecimalString(n)) == Some(n)
  {
    var s := DecimalString(n);
    ThreeDigits(n);
    assert StandaloneAt(s, 0);
    assert s[0..3] == s;
    DecimalValue(n);
  }

  lemma ThreeDigits(n: nat)
    requires 100 <= n < 1000
    ensures |DecimalString(n)| == 3
  {
    assert |DecimalString(n / 10)| == 2 by { assert 10 <= n / 10 < 100; }
  }

  datatype TokenReport = TokenReport(
    tokenId: Option<Id>,
    actionType: Option<string>,
    tweetId: Option<string>,
    tweetUrl: Option<string>,
    success: bool,
    errorCode: Option<string>,
    parsed: ParsedCode,
    setCookies: Option<string>
  )

  /** The credential update after a successful use. */
  function Succeeded(a: Account, isView: bool, now: Time): Account {
    var b := a.(ultimoUso := Some(now), fails := 0, salud := Some(Healthy));
    if isView then b else Unlock(b)
  }

  /** The update that follows `processError` after a failed use. */
  function Released(a: Account, isView: bool, now: Time): Account {
    var b := a.(ultimoUso := Some(now));
    if isView then b else Unlock(b)
  }

  function ReportLogRow(rep: TokenReport, now: Time): TokenLogRow
    requires TruthyNat(rep.tokenId) && Truthy(rep.tweetId) && Truthy(rep.actionType)
  {
    TokenLogRow(rep.tokenId.value, rep.actionType.value, rep.tweetUrl.GetOr(""), rep.tweetId.value,
                if rep.success then SuccessResult else FailResult,
                if Truthy(rep.errorCode) then rep.errorCode else None, now)
  }

  /** The failure classification a report triggers. */
  function ReportError(rep: TokenReport): ErrorReport
    requires TruthyNat(rep.tokenId)
  {
    var errStr := rep.errorCode.GetOr("");
    ErrorReport(rep.tokenId.value, None, rep.actionType, ExtractCode(errStr, rep.parsed), Some(errStr))
  }

  /** The credential row after a report: on success it is healthy again with its failure
      count cleared; on failure `processError` counts the failure and may set its health;
      either way it is marked used now and, unless the action is a view, unlocked. */
  function AfterReport(a: Account, rules: seq<Rule>, rep: TokenReport, now: Time): (b: Account)
    requires TruthyNat(rep.tokenId)
    ensures b.ultimoUso == Some(now)
    ensures rep.success ==> b.fails == 0 && b.salud == Some(Healthy) && b.estado == a.estado
    ensures !rep.success ==>
              var o := Classify(rules, ReportError(rep).code, ReportError(rep).message, false);
              && b.fails == a.fails + 1
              && b.salud == (if Truthy(o.salud) then o.salud else a.salud)
              && b.estado == (if Truthy(o.salud) && o.setInactive then Inactive else a.estado)
    ensures !IsView(rep.actionType) ==> !b.locked && b.lockedBy.None? && b.lockedAt.None?
    ensures IsView(rep.actionType) ==> b.locked == a.locked && b.lockedBy == a.lockedBy && b.lockedAt == a.lockedAt
    ensures b.(fails := a.fails, ultimoError := a.ultimoError, salud := a.salud, estado := a.estado,
               ultimoUso := a.ultimoUso, locked := a.locked, lockedBy := a.lockedBy, lockedAt := a.lockedAt) == a
  {
    var isView := IsView(rep.actionType);
    if rep.success then Succeeded(a, isView, now)
    else
      var p := ReportError(rep);
      Released(RecordFailure(a, Classify(rules, p.code, p.message, false), p.message), isView, now)
  }

  /** Steps 1 and 2 of a report (audit row, credential health and lock), shared by the single
      and the batch report. */
  function ReportCore(db: Db, rules: seq<Rule>, rep: TokenReport, now: Time, logged: bool): (r: Db)
    ensures !TruthyNat(rep.tokenId) ==> r == db
    ensures TruthyNat(rep.tokenId) && Truthy(rep.tweetId) && Truthy(rep.actionType) ==>
              r.tokenLog == db.tokenLog + [ReportLogRow(rep, now)]
    ensures !(TruthyNat(rep.tokenId) && Truthy(rep.tweetId) && Truthy(rep.actionType)) ==> r.tokenLog == db.tokenLog
    ensures TruthyNat(rep.tokenId) && rep.tokenId.value in db.accounts ==>
              r.accounts == db.accounts[rep.tokenId.value := AfterReport(db.accounts[rep.tokenId.value], rules, rep, now)]
    ensures !(TruthyNat(rep.tokenId) && rep.tokenId.value in db.accounts) ==> r.accounts == db.accounts
    ensures TruthyNat(rep.tokenId) && !rep.success && logged ==>
              var p := ReportError(rep);
              r.errorLog == db.errorLog + [LogRow(p, Classify(rules, p.code, p.message, false))]
    ensures rep.success || !logged ==> r.errorLog == db.errorLog
    ensures r == db.(tokenLog := r.tokenLog, errorLog := r.errorLog, accounts := r.accounts)
  {
    if !TruthyNat(rep.tokenId) then db
    else
      var id := rep.tokenId.value;
      var db1 := if Truthy(rep.tweetId) && Truthy(rep.actionType)
                 then db.(tokenLog := db.tokenLog + [ReportLogRow(rep, now)]) else db;
      var isView := IsView(rep.actionType);
      if rep.success then
        if id in db1.accounts then db1.(accounts := db1.accounts[id := Succeeded(db1.accounts[id], isView, now)]) else db1
      else
        var db2 := ProcessError(db1, rules, ReportError(rep), false, logged).0;
        if id in db2.accounts then db2.(accounts := db2.accounts[id := Released(db2.accounts[id], isView, now)]) else db2
  }

  /** `handleTokenReport` with `rules` the cached rule list and `logged` whether the
      `error_log` insert of a failure succeeded: the report's effect on the credential,
      then its `set_cookies`. */
  function TokenReportHandler(db: Db, rules: seq<Rule>, rep: TokenReport, now: Time, logged: bool): (r: Db)
    ensures !TruthyNat(rep.tokenId) ==> r == db
    ensures r.accounts.Keys == db.accounts.Keys
    ensures TruthyNat(rep.tokenId) && rep.tokenId.value in db.accounts ==>
              r.accounts[rep.tokenId.value]
              == ApplyCookies(AfterReport(db.accounts[rep.tokenId.value], rules, rep, now), rep.setCookies)
    ensures forall k :: k in db.accounts && Some(k) != rep.tokenId ==> r.accounts[k] == db.accounts[k]
    ensures r == ReportCore(db, rules, rep, now, logged).(accounts := r.accounts)
  {
    var db1 := ReportCore(db, rules, rep, now, logged);
    if TruthyNat(rep.tokenId) && rep.tokenId.value in db1.accounts then
      var id := rep.tokenId.value;
      db1.(accounts := db1.accounts[id := ApplyCookies(db1.accounts[id], rep.setCookies)])
    else db1
  }

  /** One report of a batch together with what its `processError` call met: the rule list
      `getRules` returned at that point and whether its `error_log` insert succeeded. */
  datatype BatchStep = BatchStep(report: TokenReport, rules: seq<Rule>, logged: bool)

  /** `handleTokenReportBatch`: the reports applied in order in one transaction, without the
      cookie update of the single report. */
  function TokenReportBatch(db: Db, steps: seq<BatchStep>, now: Time): (r: Db)
    ensures r.accounts.Keys == db.accounts.Keys
    ensures db.tokenLog <= r.tokenLog
    ensures r == db.(tokenLog := r.tokenLog, errorLog := r.errorLog, accounts := r.accounts)
    decreases |steps|
  {
    if |steps| == 0 then db
    else
      var st := steps[0];
      var db1 := ReportCore(db, st.rules, st.report, now, st.logged);
      ReportCoreShape(db, st.rules, st.report, now, st.logged);
      TokenReportBatch(db1, steps[1..], now)
  }

  /** What every report step keeps: the same credentials, an audit log that only grows at its
      end, and every table but the three it writes. */
  lemma ReportCoreShape(db: Db, rules: seq<Rule>, rep: TokenReport, now: Time, logged: bool)
    ensures var r := ReportCore(db, rules, rep, now, logged);
            && r.accounts.Keys == db.accounts.Keys
            && db.tokenLog <= r.tokenLog
            && r == db.(tokenLog := r.tokenLog, errorLog := r.errorLog, accounts := r.accounts)
  {
  }

  /** A batch of one report is that report's core step. */
  lemma BatchOfOne(db: Db, rules: seq<Rule>, rep: TokenReport, now: Time, logged: bool)
    ensures TokenReportBatch(db, [BatchStep(rep, rules, logged)], now) == ReportCore(db, rules, rep, now, logged)
  {
    var db1 := ReportCore(db, rules, rep, now, logged);
    assert [BatchStep(rep, rules, logged)][1..] == [];
    assert TokenReportBatch(db1, [], now) == db1;
  }

  /** The reports are applied in order: a batch is its first part followed by the rest. */
  lemma {:induction false} BatchInOrder(db: Db, a: seq<BatchStep>, b: seq<BatchStep>, now: Time)
    ensures TokenReportBatch(db, a + b, now) == TokenReportBatch(TokenReportBatch(db, a, now), b, now)
    decreases |a|
  {
    if |a| > 0 {
      var db1 := ReportCore(db, a[0].rules, a[0].report, now, a[0].logged);
      assert (a + b)[0] == a[0] && (a + b)[1..] == a[1..] + b;
      BatchInOrder(db1, a[1..], b, now);
    } else {
      assert a + b == b;
    }
  }

  /** The steps whose failure reaches `error_log`: a token id, a failed outcome and an insert
      that succeeded. */
  function LoggedFailures(steps: seq<BatchStep>): nat {
    if |steps| == 0 then 0
    else
      var st := steps[0];
      (if TruthyNat(st.report.tokenId) && !st.report.success && st.logged then 1 else 0) + LoggedFailures(steps[1..])
  }

  /** Each report's own insert outcome counts: the batch adds one `error_log` row per failed
      report whose insert succeeded, and none for the others. */
  lemma {:induction false} BatchErrorRows(db: Db, steps: seq<BatchStep>, now: Time)
    ensures |TokenReportBatch(db, steps, now).errorLog| == |db.errorLog| + LoggedFailures(steps)
    decreases |steps|
  {
    if |steps| > 0 {
      var st := steps[0];
      var db1 := ReportCore(db, st.rules, st.report, now, st.logged);
      BatchErrorRows(db1, steps[1..], now);
    }
  }

  predicate SameSecrets(a: Account, b: Account) {
    a.cookiesFull == b.cookiesFull && a.ct0 == b.ct0 && a.authToken == b.authToken
  }

  /** The batch report never touches a credential's cookies, whatever the reports carry. */
  lemma {:induction false} BatchKeepsSecrets(db: Db, steps: seq<BatchStep>, now: Time)
    ensures forall k :: k in db.accounts ==> SameSecrets(TokenReportBatch(db, steps, now).accounts[k], db.accounts[k])
    decreases |steps|
  {
    if |steps| > 0 {
      var st := steps[0];
      var db1 := ReportCore(db, st.rules, st.report, now, st.logged);
      BatchKeepsSecrets(db1, steps[1..], now);
      forall k | k in db.accounts ensures SameSecrets(db1.accounts[k], db.accounts[k]) {
        if TruthyNat(st.report.tokenId) && k == st.report.tokenId.value {
          var a := db.accounts[k];
          var b := AfterReport(a, st.rules, st.report, now);
          assert b.cookiesFull == a.cookiesFull && b.ct0 == a.ct0 && b.authToken == a.authToken;
        }
      }
    }
  }

  /** A credential that no report of the batch names is left exactly as it was. */
  lemma {:induction false} BatchTouchesOnlyReported(db: Db, steps: seq<BatchStep>, now: Time, k: Id)
    requires k in db.accounts
    requires forall i :: 0 <= i < |steps| ==> steps[i].report.tokenId != Some(k)
    ensures TokenReportBatch(db, steps, now).accounts[k] == db.accounts[k]
    decreases |steps|
  {
    if |steps| > 0 {
      var st := steps[0];
      var db1 := ReportCore(db, st.rules, st.report, now, st.logged);
      assert db1.accounts[k] == db.accounts[k];
      BatchTouchesOnlyReported(db1, steps[1..], now, k);
    }
  }

  // ---------------------------------------------------------------- sweeps

  predicate StaleLock(a: Account, now: Time) {
    a.locked && a.lockedAt.Some? && a.lockedAt.value + StaleLockAge < now
  }

  /** `cleanupStaleLocks`: releases exactly the locks older than ten minutes. */
  function CleanupStaleLocks(db: Db, now: Time): (r: Db)
    ensures r.accounts.Keys == db.accounts.Keys
    ensures forall id :: id in db.accounts && StaleLock(db.accounts[id], now) ==> r.accounts[id] == Unlock(db.accounts[id])
    ensures forall id :: id in db.accounts && !StaleLock(db.accounts[id], now) ==> r.accounts[id] == db.accounts[id]
    ensures forall id :: id in r.accounts ==> !StaleLock(r.accounts[id], now)
    ensures r == db.(accounts := r.accounts)
  {
    db.(accounts := map id | id in db.accounts ::
                      if StaleLock(db.accounts[id], now) then Unlock(db.accounts[id]) else db.accounts[id])
  }

  predicate Expired(row: TokenLogRow, now: Time) {
    row.createdAt + LogRetention < now
  }

  /** The unexpired rows, in their original order. */
  function KeepRecent(rows: seq<TokenLogRow>, now: Time): (r: seq<TokenLogRow>)
    ensures forall x :: x in r <==> x in rows && !Expired(x, now)
    ensures forall x :: multiset(r)[x] == if Expired(x, now) then 0 else multiset(rows)[x]
    ensures |r| <= |rows|
  {
    if |rows| == 0 then []
    else
      assert rows == [rows[0]] + rows[1..];
      if Expired(rows[0], now) then KeepRecent(rows[1..], now) else [rows[0]] + KeepRecent(rows[1..], now)
  }

  /** The filter keeps order: the rows kept from a log are those kept from its first part
      followed by those kept from the rest. */
  lemma {:induction false} KeepRecentSplits(a: seq<TokenLogRow>, b: seq<TokenLogRow>, now: Time)
    ensures KeepRecent(a + b, now) == KeepRecent(a, now) + KeepRecent(b, now)
    decreases |a|
  {
    if |a| == 0 {
      assert a + b == b;
    } else {
      var x, t := a[0], a[1..];
      var h := if Expired(x, now) then [] else [x];
      assert KeepRecent(a + b, now) == h + KeepRecent(t + b, now) by {
        assert a + b == [x] + (t + b);
        KeepRecentCons(x, t + b, now);
      }
      assert KeepRecent(a, now) == h + KeepRecent(t, now) by {
        assert a == [x] + t;
        KeepRecentCons(x, t, now);
      }
      KeepRecentSplits(t, b, now);
      SeqAssoc(h, KeepRecent(t, now), KeepRecent(b, now));
    }
  }

  lemma SeqAssoc<T>(x: seq<T>, y: seq<T>, z: seq<T>)
    ensures x + (y + z) == (x + y) + z
  {
  }

  /** The first row is kept or dropped on its own. */
  lemma KeepRecentCons(x: TokenLogRow, rest: seq<TokenLogRow>, now: Time)
    ensures KeepRecent([x] + rest, now) == (if Expired(x, now) then [] else [x]) + KeepRecent(rest, now)
  {
    assert ([x] + rest)[1..] == rest;
  }

  /** A single row is kept exactly when it is unexpired. */
  lemma KeepRecentOne(x: TokenLogRow, now: Time)
    ensures KeepRecent([x], now) == if Expired(x, now) then [] else [x]
  {
    assert [x][1..] == [];
  }

  /** `cleanupOldLogs`: deletes exactly the audit rows older than the retention window. */
  function CleanupOldLogs(db: Db, now: Time): (r: Db)
    ensures forall x :: x in r.tokenLog <==> x in db.tokenLog && !Expired(x, now)
    ensures forall x :: multiset(r.tokenLog)[x] == if Expired(x, now) then 0 else multiset(db.tokenLog)[x]
    ensures r == db.(tokenLog := r.tokenLog)
  {
    db.(tokenLog := KeepRecent(db.tokenLog, now))
  }

  // ---------------------------------------------------------------- lease properties

  /** Mutual exclusion: a credential handed out for an exclusive action type is not handed out
      again for an exclusive type until it is reported or swept. */
  lemma LockedTokenNotReassigned(db: Db, req1: TokenRequest, w1: Option<string>, t1: Time,
                                 req2: TokenRequest, w2: Option<string>, t2: Time)
    requires RequestToken(db, req1, w1, t1).1.TokenAssigned?
    requires !IsView(req1.actionType) && !IsView(req2.actionType)
    ensures var r1 := RequestToken(db, req1, w1, t1);
            var r2 := RequestToken(r1.0, req2, w2, t2);
            r2.1.TokenAssigned? ==> r2.1.tokenId != r1.1.tokenId
  {
  }

  /** Per-tweet de-duplication: once a credential reports success for (tweet, action type),
      the next non-view request for that pair does not receive it, nor does any later one
      while the success row is inside the retention window (see `SuccessForgottenAfterRetention`). */
  lemma SuccessExcludesFromTweet(db: Db, rules: seq<Rule>, rep: TokenReport, now: Time, logged: bool,
                                 req: TokenRequest, w: Option<string>, t: Time)
    requires TruthyNat(rep.tokenId) && rep.success && Truthy(rep.tweetId) && Truthy(rep.actionType)
    requires req.actionType == rep.actionType && req.tweetId == rep.tweetId && !IsView(req.actionType)
    ensures var r := RequestToken(TokenReportHandler(db, rules, rep, now, logged), req, w, t);
            r.1.TokenAssigned? ==> Some(r.1.tokenId) != rep.tokenId
  {
    var db1 := TokenReportHandler(db, rules, rep, now, logged);
    var n := |db.tokenLog|;
    assert db1.tokenLog == db.tokenLog + [ReportLogRow(rep, now)];
    assert db1.tokenLog[n] == ReportLogRow(rep, now);
    assert rep.tokenId.value in UsedOn(db1.tokenLog, rep.tweetId.value, rep.actionType.value);
  }

  /** Keeping only rows of another log records no new use. */
  lemma UsedOnMonotone(a: seq<TokenLogRow>, b: seq<TokenLogRow>, tweet: string, actionType: string)
    requires forall x :: x in a ==> x in b
    ensures UsedOn(a, tweet, actionType) <= UsedOn(b, tweet, actionType)
  {
    forall id | id in UsedOn(a, tweet, actionType)
      ensures id in UsedOn(b, tweet, actionType)
    {
      var i :| 0 <= i < |a| && a[i].tweetId == tweet && a[i].actionType == actionType
                            && a[i].resultado == SuccessResult && a[i].tokenId == id;
      assert a[i] in b;
      var j :| 0 <= j < |b| && b[j] == a[i];
    }
  }

  /** The de-duplication lasts only as long as the audit row: a log cleanup past the retention
      window deletes the success row, and a credential with no earlier success on the pair is
      no longer recorded as used on it. */
  lemma SuccessForgottenAfterRetention(db: Db, rules: seq<Rule>, rep: TokenReport, now: Time, logged: bool,
                                       now2: Time)
    requires TruthyNat(rep.tokenId) && rep.success && Truthy(rep.tweetId) && Truthy(rep.actionType)
    requires rep.tokenId.value !in UsedOn(db.tokenLog, rep.tweetId.value, rep.actionType.value)
    requires now + LogRetention < now2
    ensures var db1 := TokenReportHandler(db, rules, rep, now, logged);
            && rep.tokenId.value in UsedOn(db1.tokenLog, rep.tweetId.value, rep.actionType.value)
            && rep.tokenId.value !in UsedOn(CleanupOldLogs(db1, now2).tokenLog, rep.tweetId.value, rep.actionType.value)
  {
    var db1 := TokenReportHandler(db, rules, rep, now, logged);
    var tweet, tipo, id := rep.tweetId.value, rep.actionType.value, rep.tokenId.value;
    var row := ReportLogRow(rep, now);
    assert db1.tokenLog == db.tokenLog + [row];
    assert db1.tokenLog[|db.tokenLog|] == row;
    var kept := CleanupOldLogs(db1, now2).tokenLog;
    forall x | x in kept
      ensures x in db.tokenLog
    {
      assert x in db1.tokenLog && !Expired(x, now2);
    }
    UsedOnMonotone(kept, db.tokenLog, tweet, tipo);
  }

  /** A lease followed by its report, either outcome, leaves the credential unlocked. */
  lemma ReportReleasesLease(db: Db, req: TokenRequest, w: Option<string>, t: Time,
                            rules: seq<Rule>, rep: TokenReport, now: Time, logged: bool)
    requires RequestToken(db, req, w, t).1.TokenAssigned?
    requires rep.tokenId == Some(RequestToken(db, req, w, t).1.tokenId) && rep.tokenId != Some(0)
    requires !IsView(rep.actionType)
    ensures var r1 := RequestToken(db, req, w, t);
            var b := TokenReportHandler(r1.0, rules, rep, now, logged).accounts[r1.1.tokenId];
            !b.locked && b.lockedBy.None?
  {
  }
}

=== FILE: warmer.dfy ===
/** Warmer campaigns: a worker claims the oldest queued campaign, asks for one (credential,
    target tweet) pair at a time, and reports each execution, which updates the campaign's
    counters, the credential's health and its cookies. */
module Warmer {
  import opened Wrappers
  import opened Text
  import opened Store
  import opened Select
  import opened Cookies
  import TokenManager

  const EmptyTweetList := "[]"
  const DefaultWarmerError := "xwarmer error"
  const WarmerDeadThreshold := 10

  datatype WarmerReply =
    | NoWarmerJob
    | WarmerJob(id: Id)
    | WarmerTarget(jobId: Id, accountId: Id, nickId: Id, url: string)
    | WarmerDone(jobId: Id, total: int, exitosas: nat, errores: nat)
    | WarmerFailed(jobId: Id, error: string)
    | ResultAck(ok: bool)

  /** `ORDER BY created_at ASC` over warmer rows. */
  function ByCreation(rows: map<Id, WarmerRow>): nat -> nat {
    (id: nat) => if id in rows then rows[id].createdAt else 0
  }

  function QueuedCampaigns(db: Db): set<Id> {
    set id | id in db.warmerActions && db.warmerActions[id].estado == Queued
  }

  /** `handleRequestWarmerJob`: the oldest queued campaign of any account starts under this worker. */
  function RequestWarmerJob(db: Db, sock: Socket, now: Time): (r: (Db, WarmerReply))
    ensures r.1.NoWarmerJob? <==> QueuedCampaigns(db) == {}
    ensures r.1.NoWarmerJob? ==> r.0 == db
    ensures r.1.WarmerJob? ==>
              var id := r.1.id;
              && id in QueuedCampaigns(db)
              && (forall k :: k in QueuedCampaigns(db) ==>
                    db.warmerActions[id].createdAt < db.warmerActions[k].createdAt
                    || (db.warmerActions[id].createdAt == db.warmerActions[k].createdAt && id <= k))
              && r.0 == db.(warmerActions := db.warmerActions[id := db.warmerActions[id].(
                                estado := InProgress, workerId := sock.workerId, startedAt := Some(now))])
    ensures r.1.NoWarmerJob? || r.1.WarmerJob?
  {
    var q := QueuedCampaigns(db);
    if q == {} then (db, NoWarmerJob)
    else
      var id := Least(q, ByCreation(db.warmerActions));
      (db.(warmerActions := db.warmerActions[id := db.warmerActions[id].(
             estado := InProgress, workerId := sock.workerId, startedAt := Some(now))]), WarmerJob(id))
  }

  /** Credentials already warmed by campaign `job`, per `xwarmer_action_log`. */
  function Warmed(log: seq<WarmerLogRow>, job: Id): set<Id> {
    set i | 0 <= i < |log| && log[i].jobId == job :: log[i].accountId
  }

  /** The account filter of `warmer_next`: a usable credential of the campaign's deck with
      non-empty secrets that the campaign has not warmed yet. Locks are not consulted. */
  predicate Warmable(db: Db, job: Id, id: Id)
    requires job in db.warmerActions
  {
    && id in db.accounts
    && SqlEq(db.accounts[id].deckId, db.warmerActions[job].preconfigId)
    && db.accounts[id].estado == Active
    && TokenManager.UsableHealth(db.accounts[id].salud)
    && Truthy(db.accounts[id].authToken)
    && Truthy(db.accounts[id].ct0)
    && id !in Warmed(db.warmerLog, job)
  }

  function Remaining(db: Db, job: Id): set<Id>
    requires job in db.warmerActions
  {
    set id | id in db.accounts && Warmable(db, job, id)
  }

  /** `ORDER BY ultimo_warmeo ASC`: never-warmed credentials first. */
  function ByWarmeo(accounts: map<Id, Account>): nat -> nat {
    (id: nat) => if id in accounts then NullsFirst(accounts[id].ultimoWarmeo) else 0
  }

  /** Target nicks of the campaign's group with a non-empty stored tweet list. */
  function TargetNicks(db: Db, group: Option<string>): set<Id> {
    set id | id in db.nicks && SqlEq(db.nicks[id].grupo, group) && db.nicks[id].estado == Active
                            && db.nicks[id].tweetsRaw.Some? && db.nicks[id].tweetsRaw.value != EmptyTweetList
  }

  /** `handleWarmerNext`. `nickPick` and `tweetPick` stand for the store's `RAND()` and
      `Math.random()`: the nick and the tweet are taken at those positions (modulo the count). */
  function WarmerNext(db: Db, jobId: Option<Id>, nickPick: nat, tweetPick: nat, now: Time): (r: (Db, WarmerReply))
    ensures !TruthyNat(jobId) ==> r == (db, WarmerFailed(0, "missing job_id"))
    ensures TruthyNat(jobId) && jobId.value !in db.warmerActions ==> r == (db, WarmerFailed(jobId.value, "job not found"))
    ensures r.1.WarmerTarget? ==>
              && TruthyNat(jobId) && r.1.jobId == jobId.value && jobId.value in db.warmerActions
              && r.1.accountId in Remaining(db, jobId.value)
              && (forall k :: k in Remaining(db, jobId.value) ==>
                    NullsFirst(db.accounts[r.1.accountId].ultimoWarmeo) <= NullsFirst(db.accounts[k].ultimoWarmeo))
              && r.1.nickId in TargetNicks(db, db.warmerActions[jobId.value].grupoNicks)
              && r.1.url in db.nicks[r.1.nickId].tweets
              && r.0 == db
    ensures TruthyNat(jobId) && jobId.value in db.warmerActions ==>
              (r.1.WarmerDone? <==> Remaining(db, jobId.value) == {})
    ensures r.1.WarmerDone? ==> TruthyNat(jobId) && r.1.jobId == jobId.value && r.1.jobId in db.warmerActions
    ensures r.1.WarmerDone? ==>
              var id, j := r.1.jobId, db.warmerActions[r.1.jobId];
              && r.1.total == j.ejecutadas && r.1.exitosas == j.exitosas && r.1.errores == j.errores
              && r.0 == db.(warmerActions := db.warmerActions[id := j.(estado := Completed, completedAt := Some(now), total := j.ejecutadas)])
    ensures r.1.WarmerFailed? ==> r.0 == db
    ensures r.1.WarmerTarget? || r.1.WarmerDone? || r.1.WarmerFailed?
  {
    if !TruthyNat(jobId) then (db, WarmerFailed(0, "missing job_id"))
    else
      var id := jobId.value;
      if id !in db.warmerActions then (db, WarmerFailed(id, "job not found"))
      else
        var j := db.warmerActions[id];
        var rest := Remaining(db, id);
        if rest == {} then
          (db.(warmerActions := db.warmerActions[id := j.(estado := Completed, completedAt := Some(now), total := j.ejecutadas)]),
           WarmerDone(id, j.ejecutadas, j.exitosas, j.errores))
        else
          var account := Least(rest, ByWarmeo(db.accounts));
          var nickSet := TargetNicks(db, j.grupoNicks);
          if nickSet == {} then (db, WarmerFailed(id, "no nicks available"))
          else
            var nicks := FirstN(nickSet, ById, |nickSet|);
            var nick := nicks[nickPick % |nicks|];
            var tweets := db.nicks[nick].tweets;
            if tweets == [] then (db, WarmerFailed(id, "no tweets for nick"))
            else (db, WarmerTarget(id, account, nick, tweets[tweetPick % |tweets|]))
  }

  /** With credentials left, a campaign without target nicks fails with `no nicks available`;
      when every target nick has tweets, a target is always found; and a failure for lack of
      tweets names a target nick that has none. */
  lemma WarmerNextFinds(db: Db, job: Id, nickPick: nat, tweetPick: nat, now: Time)
    requires job != 0 && job in db.warmerActions && Remaining(db, job) != {}
    ensures var r := WarmerNext(db, Some(job), nickPick, tweetPick, now);
            var nickSet := TargetNicks(db, db.warmerActions[job].grupoNicks);
            && (nickSet == {} ==> r == (db, WarmerFailed(job, "no nicks available")))
            && ((forall n :: n in nickSet ==> db.nicks[n].tweets != []) ==> (nickSet != {} <==> r.1.WarmerTarget?))
            && (r.1.WarmerFailed? && nickSet != {} ==> r.1 == WarmerFailed(job, "no tweets for nick")
                                                       && exists n :: n in nickSet && db.nicks[n].tweets == [])
  {
  }

  /** The health a failed execution's message points to. */
  function WarmerHealth(errStr: string): (h: string)
    ensures h == LoggedOut <==> Contains(errStr, "could not authenticate") || Contains(errStr, "deslogueado") || Contains(errStr, "401")
    ensures h == Suspended <==>
              !(Contains(errStr, "could not authenticate") || Contains(errStr, "deslogueado") || Contains(errStr, "401"))
              && (Contains(errStr, "suspended") || Contains(errStr, "suspendido"))
    ensures h == Healthy <==>
              !(Contains(errStr, "could not authenticate") || Contains(errStr, "deslogueado") || Contains(errStr, "401"))
              && !(Contains(errStr, "suspended") || Contains(errStr, "suspendido"))
              && !(Contains(errStr, "rate limit") || Contains(errStr, "429"))
    ensures h in {LoggedOut, Suspended, RateLimited, Healthy}
  {
    if Contains(errStr, "could not authenticate") || Contains(errStr, "deslogueado") || Contains(errStr, "401") then LoggedOut
    else if Contains(errStr, "suspended") || Contains(errStr, "suspendido") then Suspended
    else if Contains(errStr, "rate limit") || Contains(errStr, "429") then RateLimited
    else Healthy
  }

  /** `(error_msg || error_code || '').toLowerCase()`. */
  function ErrorText(errorMsg: Option<string>, errorCode: Option<string>): string {
    ToLower(if Truthy(errorMsg) then errorMsg.value else if Truthy(errorCode) then errorCode.value else "")
  }

  function Unlocked(a: Account): Account {
    a.(locked := false, lockedBy := None, lockedAt := None)
  }

  function WarmerSuccess(a: Account, now: Time): (b: Account)
    ensures b.fails == 0 && b.salud == Some(Healthy) && !b.locked
    ensures b.ultimoWarmeo == Some(now) && b.ultimoUso == Some(now)
    ensures b.lockedBy.None? && b.lockedAt.None?
    ensures b.(fails := a.fails, salud := a.salud, locked := a.locked, lockedBy := a.lockedBy, lockedAt := a.lockedAt,
               ultimoWarmeo := a.ultimoWarmeo, ultimoUso := a.ultimoUso) == a
  {
    Unlocked(a.(ultimoWarmeo := Some(now), ultimoUso := Some(now), fails := 0, salud := Some(Healthy)))
  }

  /** The credential after a failed execution, as intended: a recognised error sets its health;
      otherwise it is marked dead once the new failure count reaches ten. */
  function WarmerFailure(a: Account, errStr: string, errorMsg: Option<string>, now: Time): (b: Account)
    ensures b.fails == a.fails + 1 && !b.locked && b.ultimoUso == Some(now)
    ensures WarmerHealth(errStr) != Healthy ==> b.salud == Some(WarmerHealth(errStr))
    ensures WarmerHealth(errStr) == Healthy ==> b.salud == (if b.fails >= WarmerDeadThreshold then Some(Dead) else a.salud)
    ensures b.ultimoError == Some(if Truthy(errorMsg) then errorMsg.value else DefaultWarmerError)
    ensures b.estado == a.estado && b.ultimoWarmeo == a.ultimoWarmeo
    ensures b.lockedBy.None? && b.lockedAt.None?
    ensures b.(fails := a.fails, salud := a.salud, locked := a.locked, lockedBy := a.lockedBy, lockedAt := a.lockedAt,
               ultimoUso := a.ultimoUso, ultimoError := a.ultimoError) == a
  {
    var h := WarmerHealth(errStr);
    var n := a.fails + 1;
    Unlocked(a.(ultimoUso := Some(now), fails := n,
                ultimoError := Some(if Truthy(errorMsg) then errorMsg.value else DefaultWarmerError),
                salud := if h != Healthy then Some(h) else if n >= WarmerDeadThreshold then Some(Dead) else a.salud))
  }

  /** The same update as written: the `CASE` follows the increment in the assignment list and
      so tests the new count plus one. */
  function WarmerFailureAsWritten(a: Account, errStr: string, errorMsg: Option<string>, now: Time): (b: Account)
    ensures b.fails == a.fails + 1
    ensures WarmerHealth(errStr) == Healthy ==> b.salud == (if b.fails + 1 >= WarmerDeadThreshold then Some(Dead) else a.salud)
    ensures b == WarmerFailure(a, errStr, errorMsg, now).(salud := b.salud)
    ensures WarmerHealth(errStr) != Healthy ==> b == WarmerFailure(a, errStr, errorMsg, now)
  {
    var h := WarmerHealth(errStr);
    var n := a.fails + 1;
    Unlocked(a.(ultimoUso := Some(now), fails := n,
                ultimoError := Some(if Truthy(errorMsg) then errorMsg.value else DefaultWarmerError),
                salud := if h != Healthy then Some(h) else if n + 1 >= WarmerDeadThreshold then Some(Dead) else a.salud))
  }

  /** As written, an unrecognised error kills a credential at its ninth consecutive failure. */
  lemma NinthFailureKillsAsWritten(a: Account, now: Time)
    requires a.fails == 8 && a.salud == Some(Healthy)
    ensures WarmerFailureAsWritten(a, "", None, now).salud == Some(Dead)
    ensures WarmerFailure(a, "", None, now).salud == Some(Healthy)
  {
    assert !Contains("", "401") by { assert forall i: nat :: !OccursAt("", "401", i); }
    assert WarmerHealth("") == Healthy;
  }

  datatype WarmerResultMsg = WarmerResultMsg(
    jobId: Option<Id>,
    accountId: Option<Id>,
    status: Option<string>,
    errorMsg: Option<string>,
    errorCode: Option<string>,
    setCookies: Option<string>
  )

  /** Campaign counters: one more execution, counted as a success or as an error. */
  function Count(j: WarmerRow, success: bool): (k: WarmerRow)
    ensures k.ejecutadas == j.ejecutadas + 1
    ensures k.exitosas + k.errores == j.exitosas + j.errores + 1
    ensures success ==> k.exitosas == j.exitosas + 1 && k.errores == j.errores
    ensures !success ==> k.errores == j.errores + 1 && k.exitosas == j.exitosas
    ensures k.(ejecutadas := j.ejecutadas, exitosas := j.exitosas, errores := j.errores) == j
  {
    if success then j.(ejecutadas := j.ejecutadas + 1, exitosas := j.exitosas + 1)
    else j.(ejecutadas := j.ejecutadas + 1, errores := j.errores + 1)
  }

  /** `handleWarmerResult`: log the execution, count it, update the credential, apply cookies. */
  function WarmerResult(db: Db, m: WarmerResultMsg, now: Time): (r: (Db, WarmerReply))
    ensures !TruthyNat(m.jobId) || !TruthyNat(m.accountId) ==> r == (db, ResultAck(false))
    ensures TruthyNat(m.jobId) && TruthyNat(m.accountId) ==>
              var job, acc, ok := m.jobId.value, m.accountId.value, m.status == Some(OkStatus);
              && r.1 == ResultAck(true)
              && r.0.warmerLog == db.warmerLog + [WarmerLogRow(job, acc, if ok then Completed else Failed)]
              && r.0.warmerActions == (if job in db.warmerActions then db.warmerActions[job := Count(db.warmerActions[job], ok)]
                                       else db.warmerActions)
              && r.0.accounts == (if acc in db.accounts then db.accounts[acc := ApplyCookies(
                                     if ok then WarmerSuccess(db.accounts[acc], now)
                                     else WarmerFailure(db.accounts[acc], ErrorText(m.errorMsg, m.errorCode), m.errorMsg, now),
                                     m.setCookies)]
                                  else db.accounts)
    ensures r.0 == db.(warmerLog := r.0.warmerLog, warmerActions := r.0.warmerActions, accounts := r.0.accounts)
  {
    if !TruthyNat(m.jobId) || !TruthyNat(m.accountId) then (db, ResultAck(false))
    else
      var job, acc, ok := m.jobId.value, m.accountId.value, m.status == Some(OkStatus);
      var db1 := db.(warmerLog := db.warmerLog + [WarmerLogRow(job, acc, if ok then Completed else Failed)]);
      var db2 := if job in db1.warmerActions then db1.(warmerActions := db1.warmerActions[job := Count(db1.warmerActions[job], ok)]) else db1;
      var db3 :=
        if acc in db2.accounts then
          var a := db2.accounts[acc];
          var b := if ok then WarmerSuccess(a, now) else WarmerFailure(a, ErrorText(m.errorMsg, m.errorCode), m.errorMsg, now);
          db2.(accounts := db2.accounts[acc := ApplyCookies(b, m.setCookies)])
        else db2;
      (db3, ResultAck(true))
  }

  /** Every execution is counted exactly once as a success or an error. */
  predicate Balanced(j: WarmerRow) {
    j.ejecutadas == j.exitosas + j.errores
  }

  lemma ResultKeepsBalance(db: Db, m: WarmerResultMsg, now: Time, job: Id)
    requires job in db.warmerActions && Balanced(db.warmerActions[job])
    ensures Balanced(WarmerResult(db, m, now).0.warmerActions[job])
  {
  }

  /** Progress: once a credential's result is recorded for a campaign, `warmer_next` never offers
      it to that campaign again, so every campaign ends after at most one execution per credential. */
  lemma ReportedAccountNotOfferedAgain(db: Db, job: Id, acc: Id, m: WarmerResultMsg, now: Time,
                                       nickPick: nat, tweetPick: nat, now2: Time)
    requires job != 0 && acc != 0  // a falsy id is refused without being logged
    requires m.jobId == Some(job) && m.accountId == Some(acc)
    ensures var n := WarmerNext(WarmerResult(db, m, now).0, Some(job), nickPick, tweetPick, now2).1;
            n.WarmerTarget? ==> n.accountId != acc
  {
    var db2 := WarmerResult(db, m, now).0;
    var ok := m.status == Some(OkStatus);
    assert db2.warmerLog == db.warmerLog + [WarmerLogRow(job, acc, if ok then Completed else Failed)];
    assert db2.warmerLog[|db.warmerLog|].accountId == acc;
    assert acc in Warmed(db2.warmerLog, job);
    if job in db2.warmerActions {
      assert acc !in Remaining(db2, job);
    }
  }
}

=== FILE: wrappers.dfy ===
/** Optional values: the model's stand-in for SQL NULL and for absent JSON fields. */
module Wrappers {

  datatype Option<+T> = None | Some(value: T) {

    /** The value, or `default` when absent (JavaScript's `x || default` for non-falsy x). */
    function GetOr(default: T): T {
      match this
      case Some(v) => v
      case None => default
    }
  }

  /** SQL `a = b`: NULL on either side never compares equal. */
  predicate SqlEq<T(==)>(a: Option<T>, b: Option<T>) {
    a.Some? && b.Some? && a.value == b.value
  }

  /** JavaScript truthiness of an optional string: present and non-empty. */
  predicate Truthy(s: Option<string>) {
    s.Some? && s.value != ""
  }

  /** JavaScript truthiness of an optional number: present and non-zero. */
  predicate TruthyNat(n: Option<nat>) {
    n.Some? && n.value != 0
  }
}
